=== FILE: README.md ===
# VoxMM preprocessing core, modelled in Dafny

This project models the preprocessing core of the VoxMM audio-visual speech
dataset tools:

- **Face-track generator.** It crops a speaker's face out of every video frame of a segment, pads boxes that leave the frame, and converts the clip to a target frame rate. Its clip-saving step makes sure no temporary file is left behind (`utils/video_utils.py`).
- **Face-track store.** It parses the annotation file and resamples face tracks to the video's frame rate (`utils/common_utils.py`). The same file also holds interval overlap, bounding-box clipping, segment-list loading and output naming.
- **Waveform crop and loudness normalisation** (`utils/wav_utils.py`).
- **Transcript normaliser.** It tokenises a VoxMM transcript and applies, in order, the abbreviation, diffluency, inaudible, interjection, uncertain and numeric rules. It then fixes case, apostrophes, hyphens and spacing (`utils/script_utils.py`).
- **Segment selector's filter.** This is a fixed chain of rejection rules. Each rule charges a rejected segment's duration to its own accumulator (`tools/segment_selector.py`).
- **Diarisation label derivation.** It selects segments, renames speakers `spk00`, `spk01`, … in first-seen order, sorts stably by start time, and produces RTTM rows and oracle voice-activity ("lab") intervals (`tools/diarisation_preprocessor.py`).

## How the code is represented

**Files.** There is one module per source file: `CommonUtils`, `VideoUtils`, `WavUtils`, `ScriptUtils`, `SegmentSelector` and `Diarisation`. Four helper modules support them:

- `Wrappers`: `Option`, `Result` and `Outcome`.
- `PyStr`: the Python string operations the code relies on (`strip`, `split`, `join`, `replace`, slicing, case, `int()`, zero padding).
- `Paths`: `os.path.join` and `os.path.splitext`.
- `Tokens`: a left-to-right scanner equivalent to the two `re.findall` tokenising patterns.

**Numbers.**
- Times, bounding-box coordinates and audio samples are reals.
- Python's `int()` on a real truncates toward zero (`PyStr.Trunc`).
- Frame rates, frame indices and sample rates are naturals, so `int(a*b/c)` on non-negative values is `(a*b)/c`.

**Errors and effects.**
- Exceptions become `Result` failures.
- Operations that mutate global state (the selector's accumulators) or the file system (`save_video`) take the state as input and return the new state.
- The file system is a set of existing paths.

**Foreign calls** (OpenCV, ffmpeg, soundfile) appear only through what they return:
- the frames a capture yields;
- the resize function;
- the loudness gain;
- whether each external step created its file or raised.

## Behaviour worth noting

- **Silent audio.** A zero-RMS slice is not rejected: `normalize_volume` divides by zero and produces non-finite samples rather than raising. The gain is therefore a parameter of the model.
- **Invalid modes.** The transcript normaliser's constructor accepts any mode string. An invalid one raises only when a stage meets a token that needs it; the inaudible stage raises on any text.
- **Frame count of a clip.** `get_face_crop` includes the frame at `int(end * fps)`, so a clip from 0.0 s to 2.0 s at 25 fps has 51 source frames (`VideoUtils.SrcIdxsRange`).

## Model

| member | source | states |
|---|---|---|
| CommonUtils.VersionCheckAccepts | utils/common_utils.py:3-7 | the warning is skipped exactly for five-character versions starting "1.0." |
| CommonUtils.CheckOverlap | utils/common_utils.py:9-14 | true exactly when some interval strictly contains the time point |
| CommonUtils.BboxOnlyInScreen | utils/common_utils.py:16-17 | the clipped box lies in the unit square, inside the original, and coordinates already on screen are unchanged |
| CommonUtils.BboxOnlyInScreenIdempotent | utils/common_utils.py:16-17 | clipping a clipped box changes nothing |
| CommonUtils.InRangeIndices | utils/common_utils.py:22 | the indices are increasing, in range, and are exactly the time stamps within the closed interval |
| CommonUtils.ExtractBbox | utils/common_utils.py:21-28 | one [time, box] pair per in-interval time stamp, in order, with the box clipped when requested; fails exactly when an in-interval stamp has no box |
| CommonUtils.ExtractBboxInInterval | utils/common_utils.py:21-28 | every returned time lies in the interval, and every returned box is on screen when clipping is on |
| CommonUtils.LoadSegmentList | utils/common_utils.py:30-41 | the dict's keys are exactly the recorded key order |
| CommonUtils.LoadSegmentListContents | utils/common_utils.py:30-41 | the keys are the listed files without repeats, and each file maps to its listed indices in line order |
| CommonUtils.LoadSegmentListFirstSeen | utils/common_utils.py:30-41 | files are ordered by the line on which each first appears |
| CommonUtils.OutputDestination | utils/common_utils.py:74-91 | fails exactly for an unknown style, or for the librispeech style when the speaker id is not a number after removing "id" |
| CommonUtils.Lrs3Destination | utils/common_utils.py:82-86 | the lrs3 paths are dir/file/NNNNN with .wav, .mp4 and .txt, and the five-digit padding reads back as the segment index |
| CommonUtils.LibrispeechDestination | utils/common_utils.py:75-80 | the librispeech wav path is dir/spk/file/spk-file-NNNN.flac, the video swaps .flac for .mp4, and the four-digit padding reads back as the index |
| CommonUtils.BuildFrameMap | utils/common_utils.py:99-100 | the frame map's keys are exactly the track's frames |
| CommonUtils.BuildFrameMapLastWins | utils/common_utils.py:99-100 | a frame listed twice keeps the box of its last occurrence |
| CommonUtils.ParseTracks | utils/common_utils.py:94-102 | there is one entry per track index that occurs |
| CommonUtils.ParseTracksLastWins | utils/common_utils.py:96-100 | a repeated track index keeps the frames of its last track |
| CommonUtils.ParseFaceTrackJson | utils/common_utils.py:94-102 | fails exactly when some track's box list is shorter than its frame list (a longer box list is accepted); otherwise holds exactly the annotated tracks |
| CommonUtils.Rebuild | utils/common_utils.py:114-119 | the new track covers the target-rate window, and every frame's box is the clamped nearest source frame's box, with time stamp f/fps |
| CommonUtils.ResampleTrack | utils/common_utils.py:110-119 | fails exactly for an empty track, a zero annotation rate, or a target frame whose clamped source frame is not annotated |
| CommonUtils.ResampleTrackTotal | utils/common_utils.py:115-117 | a track annotated on every frame of its span always resamples |
| CommonUtils.ResampleSameRate | utils/common_utils.py:115-118 | at equal rates the result is the track's frame span, excluding the last frame, with the original boxes |
| CommonUtils.SameRateAs | utils/common_utils.py:114-118 | any track rebuilt at its own rate holds frames f0 .. f1-1 in order, each with its own annotated box |
| CommonUtils.SameRateAt | utils/common_utils.py:115-117 | entry k of a track rebuilt at its own rate is source frame f0 + k, annotated, with its own box |
| CommonUtils.ResampleTracks | utils/common_utils.py:110-120 | one result per track in order; fails exactly when some track fails |
| CommonUtils.ResampleFaceTrack | utils/common_utils.py:105-122 | the annotation's rate becomes the target; result track k is track k resampled with the lookup parsed for its index; it fails exactly when parsing fails or some track's resampling does |
| WavUtils.NormalizeVolume | utils/wav_utils.py:10-14 | every sample is multiplied by the one gain computed from the whole buffer |
| WavUtils.NormalizeRatios | utils/wav_utils.py:10-14 | normalisation preserves the ratio between any two samples |
| WavUtils.ScaleCompose | utils/wav_utils.py:10-14 | two scalings compose into one, and a non-zero scale is undone by its inverse |
| WavUtils.CropWav | utils/wav_utils.py:16-29 | raises exactly when the end index is past the buffer; otherwise returns the sliced samples, normalised, with length end index minus start index |
| WavUtils.CropWavSamples | utils/wav_utils.py:16-26 | inside the buffer, crop sample k is source sample int(start*sr)+k times the crop's gain |
| VideoUtils.ResampleFrames | utils/video_utils.py:27-34 | the length is int(n*trg/src), and frame i is source frame min(int(i*src/trg), n-1) |
| VideoUtils.ResampleNoClamp | utils/video_utils.py:29-32 | the clamp never fires, because the source index of every output frame is already in range |
| VideoUtils.ResampleOrder | utils/video_utils.py:32 | source indices never decrease, so output frames stay in time order |
| VideoUtils.ResampleIdentity | utils/video_utils.py:27-34 | resampling at equal rates returns the frames unchanged |
| VideoUtils.Pad | utils/video_utils.py:48 | padding grows each side by the pad size and keeps the channel count |
| VideoUtils.PadAt | utils/video_utils.py:48 | a padded pixel is the source pixel shifted by the pad, or the fill value 110 outside the frame |
| VideoUtils.WindowInside | utils/video_utils.py:51 | an in-frame slice has the requested size, and pixel (i, j) is source pixel (y1+i, x1+j) |
| VideoUtils.OutOfFrame | utils/video_utils.py:45 | positive exactly when the box leaves the frame; it is the largest of the four overflows, or 0 when none is positive |
| VideoUtils.CropFrame | utils/video_utils.py:37-53 | the corners are int(x*W) and int(y*H) of the unit box; a padded crop of a well-ordered box, or any crop of a box inside the frame, spans exactly those pixel corners (pixel contents as CropBox states) |
| VideoUtils.CropBox | utils/video_utils.py:44-53 | a padded crop has exactly the requested pixel span, filled with 110 outside the frame; an in-frame crop is the plain slice |
| VideoUtils.PaddedCrop | utils/video_utils.py:45-49 | with pad = overflow + 10, the padded window is the requested box read through the padded frame |
| VideoUtils.CropFramePads | utils/video_utils.py:38-49 | a box leaving the frame is padded (not clamped) by its overflow plus 10 |
| VideoUtils.AtVideoRate | utils/video_utils.py:117-118 | an annotation at the video's rate is kept as is; otherwise it is the face-track resampling at the video's rate, which keeps the track indices |
| VideoUtils.NewGenerator | utils/video_utils.py:91-123 | a missing video raises; with differing rates it succeeds exactly when the resampling does, and at equal rates exactly when the annotation is well formed; on success the tracks are exactly the annotated indices, parsed at the video's rate, with no audio loaded |
| VideoUtils.LoadAudio | utils/video_utils.py:140-143 | audio is attached and nothing else changes |
| VideoUtils.SrcIdxsRange | utils/video_utils.py:148 | the source frames are the contiguous range from max(int(start*fps), 0) through int(end*fps) inclusive, capped by the frame count |
| VideoUtils.MinKey | utils/video_utils.py:149 | the smallest annotated frame |
| VideoUtils.MaxKey | utils/video_utils.py:150 | the largest annotated frame |
| VideoUtils.CropAt | utils/video_utils.py:152-163 | a missing frame or unannotated clamped key fails as a face-cropping failure; success is the resized non-empty crop of the clamped key's box |
| VideoUtils.CropAll | utils/video_utils.py:151-163 | succeeds exactly when every frame's crop does, with crops in frame order |
| VideoUtils.GetFaceCrop | utils/video_utils.py:146-168 | an unknown or empty track fails; success means every frame cropped, with the crops resampled to the target rate when the rates differ |
| VideoUtils.CropAtContiguous | utils/video_utils.py:159-160 | for a gap-free track, a crop fails only for a missing frame or an empty crop |
| VideoUtils.TempNamesDiffer | utils/video_utils.py:173-175 | neither temporary name equals the output path |
| VideoUtils.TempNames | utils/video_utils.py:173-175 | for an extension not repeated in the stem, the temporary names are stem_t.wav and stem_t plus the extension |
| VideoUtils.TempNamesCollide | utils/video_utils.py:173-175 | for a .wav output the two temporary names are the same path |
| VideoUtils.SaveVideo | utils/video_utils.py:171-201 | afterwards neither temporary file exists and no other path changed; it raises exactly when writing the frames raises or, with audio, the wav write or the merge raises; the output exists afterwards exactly when it did before or the last step that targets it created it |
| VideoUtils.Call | utils/video_utils.py:203-212 | a crop or audio-range failure touches no file; it succeeds exactly when the crop, the frame writing and, with audio, the wav crop, wav write and merge all succeed; every save attempt (any run that gets past the crop and the wav crop, whether writing, the wav write or the merge then fails or not) leaves no temporary file; no path but the output and the temporaries changes |
| ScriptUtils.ParseList | utils/script_utils.py:36-42 | a list option keeps its length, and every entry is lower-case |
| ScriptUtils.ParseListText | utils/script_utils.py:36-42 | the text "[a, b, ...]" of lower-case space-free words parses back to exactly those words |
| ScriptUtils.CleanedList | utils/script_utils.py:36 | removing brackets and spaces from "[a, b]" leaves "a,b" |
| ScriptUtils.ParseEmptyListText | utils/script_utils.py:36-42 | the text "[]" parses to one empty entry, not to an empty list |
| ScriptUtils.RewriteFilter | utils/script_utils.py:86-105 | a keep-or-drop token rule rejoins exactly the kept tokens in order |
| ScriptUtils.RewriteMap | utils/script_utils.py:53-63 | a one-for-one token rule maps every token in place |
| ScriptUtils.Stage | utils/script_utils.py:52-63 | a stage succeeds exactly when every token's rule does, and returns the rewritten tokens joined by single spaces |
| ScriptUtils.Spaced | utils/script_utils.py:70 | the letters of the word alternate with single spaces |
| ScriptUtils.Abbreviation | utils/script_utils.py:65-72 | only tokens holding '!' are rewritten; the others pass through in order |
| ScriptUtils.AbbreviationOf | utils/script_utils.py:68-70 | "!w!" becomes w, or its spaced letters when spacing is on |
| ScriptUtils.NumericToken | utils/script_utils.py:54-61 | a token without '/' is kept; a numeric token raises exactly for an unknown format, and otherwise becomes the text it reads as |
| ScriptUtils.NumericOf | utils/script_utils.py:55-59 | "(a/b)" becomes stripped b for the pronunciation format and stripped a for the digit format |
| ScriptUtils.Numeric | utils/script_utils.py:51-63 | raises exactly for an unknown format when some token holds '/'; under a known format every '/' token becomes the part it reads as and the other tokens stay in place |
| ScriptUtils.NumericModes | utils/script_utils.py:53-63 | under a known format the numeric stage is a token map |
| ScriptUtils.Inaudible | utils/script_utils.py:74-82 | raises exactly for an unknown mode; the result has no surrounding whitespace |
| ScriptUtils.InaudibleAbsent | utils/script_utils.py:75-79 | text without "(inaudible)" is only stripped |
| ScriptUtils.Treat | utils/script_utils.py:90-100 | the word mode keeps the inner text, drop removes the token, token puts the replacement token in its place; any other mode raises with the stage's own error |
| ScriptUtils.StageMap | utils/script_utils.py:84-105 | a stage whose rule turns each token into exactly one returns the rewritten tokens, in order, joined by single spaces |
| ScriptUtils.StageFilter | utils/script_utils.py:84-105 | a stage whose rule keeps or drops each token whole returns the kept tokens, in order, joined by single spaces |
| ScriptUtils.StageFilterMap | utils/script_utils.py:132-163 | a stage whose rule drops some tokens and rewrites each other into one returns the rewritten survivors, in order, joined by single spaces |
| ScriptUtils.RewriteFilterMap | utils/script_utils.py:132-163 | a token loop that drops or rewrites one-for-one is a filter followed by a map |
| ScriptUtils.Uncertain | utils/script_utils.py:84-105 | raises exactly for an unknown mode when a token holds '['; under word each '[' token becomes its bracket-free stripped text, under drop it disappears, under token it becomes the uncertain token; other tokens stay in place |
| ScriptUtils.UncertainModes | utils/script_utils.py:86-103 | each of the three uncertain modes is a token map (word, token) or a token filter (drop) |
| ScriptUtils.Diffluency | utils/script_utils.py:108-129 | raises exactly for an unknown mode when a token holds '<' and is not a special token; under word each such token becomes its bracket-free stripped text, under drop it disappears, under token it becomes the diffluency token; other tokens stay in place |
| ScriptUtils.DiffluencyModes | utils/script_utils.py:110-127 | each of the three diffluency modes is a token map (word, token) or a token filter (drop) |
| ScriptUtils.DiffluencyDrop | utils/script_utils.py:112-118 | under drop every special token of the transcript survives |
| ScriptUtils.InterjectionToken | utils/script_utils.py:136-161 | a token without '{' is kept; an unlisted interjection becomes its text under word, nothing under drop and the interjection token under token, and raises under any other mode |
| ScriptUtils.Interjection | utils/script_utils.py:132-163 | raises exactly when an unlisted interjection meets an unknown mode; under a known mode a word-listed interjection becomes its text, otherwise a drop-listed one disappears, otherwise a token-listed one becomes the interjection token, and an unlisted one follows the mode; other tokens stay in place |
| ScriptUtils.InterjectionModes | utils/script_utils.py:134-161 | under a known mode the interjection stage is a filter by the list precedence followed by a map |
| ScriptUtils.InterjectionListsWin | utils/script_utils.py:138-145 | a listed interjection ignores the default mode; the word list beats the drop list, which beats the token list, and a token-listed one becomes the interjection token |
| ScriptUtils.Finish | utils/script_utils.py:173-176 | the result has single spaces and no edge spaces, is in the chosen case, and has no apostrophe or hyphen unless kept |
| ScriptUtils.FinishChars | utils/script_utils.py:173-176 | every non-space character of the result comes from the case-mapped text |
| ScriptUtils.CollapsedStrip | utils/script_utils.py:176 | the final strip never changes collapsed text |
| ScriptUtils.Normalise | utils/script_utils.py:166-178 | a normalised transcript is collapsed, upper-case when capitalising and lower-case otherwise, and free of apostrophes and hyphens unless kept; an unknown inaudible mode always raises |
| Tokens.FindAll | utils/script_utils.py:3 | every token is non-empty and is itself one whole match of the pattern |
| Tokens.FindAllJoin | utils/script_utils.py:3 | scanning space-joined tokens gives back those tokens |
| Tokens.FindAllIdempotent | tools/segment_selector.py:9 | re-scanning a rejoined token list changes nothing |
| SegmentSelector.Charge | tools/segment_selector.py:18-99 | a charging rule grows the accumulators' total by exactly the duration; the noise and '*' rules leave every accumulator as it was |
| SegmentSelector.ChargeSlot | tools/segment_selector.py:18-99 | only the rule's own accumulator grows, by the duration; the other ten keep their values |
| SegmentSelector.ClassifyToken | tools/segment_selector.py:57-94 | only the inaudible, uncertain, interjection, diffluency and '*' rules reject a token; '*' decides only when no earlier branch matches |
| SegmentSelector.CountWords | tools/segment_selector.py:55-95 | succeeds exactly when no token rejects; otherwise the first rejecting token decides |
| SegmentSelector.CountWordsAppend | tools/segment_selector.py:56-95 | the word count adds up over consecutive token runs |
| SegmentSelector.PlainWordCounts | tools/segment_selector.py:93-94 | a token of word characters counts one word |
| SegmentSelector.PlainTextCount | tools/segment_selector.py:55-94 | n plain words separated by spaces count exactly n |
| SegmentSelector.ScriptVerdict | tools/segment_selector.py:54-99 | the script rules reject only for a token rule or the word count |
| SegmentSelector.Judge | tools/segment_selector.py:11-101 | acceptance implies min < duration < max; each rule's rejection implies its own condition; without the script filter no token rule fires |
| SegmentSelector.JudgeAdmissible | tools/segment_selector.py:11-101 | a segment is accepted exactly when it passes every rule, including the strict word-count bounds |
| SegmentSelector.DurationFirst | tools/segment_selector.py:18-20 | a duration outside the open interval is rejected and charged to the duration accumulator, whatever else holds |
| SegmentSelector.SegmentFilter | tools/segment_selector.py:11-101 | keeps exactly the admissible segments and leaves the accumulators untouched for them; a rejected segment is charged to the rule that decided, and the accumulators' total grows by exactly the charged duration |
| SegmentSelector.SelectFileSpec | tools/segment_selector.py:139-150 | the segment list holds exactly the admissible segments in order, and the accumulators grow by the charged durations |
| Diarisation.Select | tools/diarisation_preprocessor.py:30 | exactly the segments whose index is listed are kept |
| Diarisation.SelectAppend | tools/diarisation_preprocessor.py:30 | selection preserves metadata order |
| Diarisation.LabelInjective | tools/diarisation_preprocessor.py:44 | distinct counters give distinct spkNN labels |
| Diarisation.Relabel | tools/diarisation_preprocessor.py:43-46 | every speaker gets a number, and every segment carries its speaker's dict entry |
| Diarisation.RelabelFirstSeen | tools/diarisation_preprocessor.py:43-44 | a speaker's number is its position in first-seen order |
| Diarisation.RelabelConsistent | tools/diarisation_preprocessor.py:43-46 | two segments share a label exactly when they share a speaker |
| Diarisation.Entity | tools/diarisation_preprocessor.py:38-41 | a face-track entity is attached exactly when there is one track and tracks are enabled |
| Diarisation.BuildEntries | tools/diarisation_preprocessor.py:33-46 | each entry keeps its segment's times and entity, and labels match exactly when speakers match |
| Diarisation.SortByStart | tools/diarisation_preprocessor.py:49 | the result is sorted by start time and is a permutation of the input |
| Diarisation.InsertSorted | tools/diarisation_preprocessor.py:49 | inserting into a sorted list keeps it sorted |
| Diarisation.SortStable | tools/diarisation_preprocessor.py:49 | entries with equal start times keep their relative order |
| Diarisation.RttmRows | tools/diarisation_preprocessor.py:56-57 | one row per entry; onset plus duration gives back the entry's end |
| Diarisation.LabStep | tools/diarisation_preprocessor.py:64-73 | an entry inside emitted labs changes nothing; otherwise the running end becomes the larger of it and the entry's end, a lab is emitted exactly when that end lies strictly inside no entry, spanning the first pending start to that end, and when none is emitted the pending start is kept or opened at the entry's start |
| Diarisation.LabRunInvariant | tools/diarisation_preprocessor.py:61-73 | for forward entries, emitted labs start no later than they end, end strictly inside no entry, and have non-decreasing ends |
| Diarisation.LabList | tools/diarisation_preprocessor.py:60-73 | the written labs satisfy the same three properties |
| Diarisation.Preprocess | tools/diarisation_preprocessor.py:30-77 | a file is listed exactly when one of its segments is selected; its entries are the stable start-time sort of the selected entries (a sorted permutation of them); the RTTM rows and labs, unless disabled, are those of exactly these entries |

## Left out

- **Frame reading and transcoding.** `get_frames`, `convert_video`, `convert_videos` and `save_wav_from_video` run OpenCV captures or ffmpeg in subprocesses. A video is modelled as the frames a capture returns, and external commands as whether they created their file or raised.
- **`load_audio_from_path`.** Reading or extracting a wav file is file I/O. `VideoUtils.LoadAudio` covers the in-memory path.
- **`load_config` and `find_option_type`.** These are argparse and YAML plumbing. Options are given directly as datatypes. The one effect that matters, a YAML list joined with ',', is modelled: `backgroundNoiseList` is a string and membership in it is a substring test.
- **`segment_selection`.** The file-list and metadata reading, the speaker lists, the statistics and the printed report are I/O. Only the per-file loop over segments is modelled (`SegmentSelector.SelectFile`).
- **Diarisation output.** The active-speaker CSV export and the RTTM/lab text formatting are file writes. The CSV's box query is `CommonUtils.ExtractBbox`.
- **Unicode `\w`.** The word class of the tokenising patterns is taken as ASCII letters, digits and '_'. Python's Unicode-aware `\w` is not modelled.
- **Unicode strings.** `str.upper`, `str.lower`, `str.isspace`, `str.split` and `str.strip` are modelled for ASCII only. Case mapping of non-ASCII letters and Unicode whitespace other than the ASCII space characters are not modelled.
- **`crop_wav` with a target path.** Writing the crop to a file is left out. The in-memory result is modelled.
- **`int()` on speaker ids.** The model accepts a run of ASCII digits with optional surrounding whitespace. Python's `int()` also accepts a leading sign, `_` digit separators and non-ASCII digits; the model rejects those.
- **Floating point.** Reals are exact. The 0.01 s tolerance, the duration subtraction and the word-count comparisons carry no rounding.
- WavUtils.NormalizeVolume: does not model the RMS gain computation. It is a floating-point square root of a mean, so the gain is an opaque function of the cropped samples. The contract states that normalisation is one uniform scale, not that the result reaches the target RMS.
- VideoUtils.CropAt: does not model `cv2.resize`. The resize is a function parameter, and an empty crop (which makes OpenCV raise) is a failure.
- VideoUtils.GetFaceCrop: the bare `except` that refers to an unbound `e` is modelled as one generic face-cropping failure for that frame.
- VideoUtils.NewGenerator: the frame count the capture reports is the separate `Video.length`, not derived from the decodable frames, and the width and height are each decoded frame's own. A non-integer reported frame rate is not modelled.
- VideoUtils.SaveVideo: the writer is constructed before the `try` (utils/video_utils.py:178-181) and is taken not to raise; OpenCV reports a writer that failed to open through `isOpened()` rather than by raising. A raise there would skip the `finally` and leave temporaries that already existed; the model folds construction into `writer`, whose failure is always cleaned up.
- Segment indices: the metadata index and the index read from a segment-list line are non-negative (`nat`) throughout; a negative index, which `'{:04d}'` would format as "-001", is not modelled.
- VideoUtils.SaveVideo: with a `.wav` output both temporary names are the same path (`VideoUtils.TempNamesCollide`), so the wav write overwrites the silent temporary video before the merge. The file system is a set of paths, so this loss of content is not modelled.
- VideoUtils.CropBox: pixel channels are integer vectors whose length is not checked against the channel count.

=== FILE: common_utils.dfy ===
/** The shared helpers of the pipeline: interval overlap, bounding-box
    clipping and interval queries, segment-list loading, output naming, and
    the face-track store with its temporal resampling. */
module CommonUtils {

  import opened Wrappers
  import opened PyStr
  import Paths

  // ---------------------------------------------------------------------
  // Dataset version
  // ---------------------------------------------------------------------

  const DatasetVersion: string := "1.0.x"

  /** `s[:-1]`. */
  function DropLast(s: string): string {
    if s == [] then [] else s[..|s| - 1]
  }

  /** Whether `version_check` prints its compatibility warning: the versions
      are compared with their last character cut off. */
  function VersionWarns(version: string): bool {
    DropLast(version) != DropLast(DatasetVersion)
  }

  /** Exactly the five-character versions "1.0.?" are accepted silently. */
  lemma VersionCheckAccepts(version: string)
    ensures !VersionWarns(version) <==> (|version| == 5 && version[..4] == "1.0.")
  {
    assert DropLast(DatasetVersion) == "1.0.";
    if |version| == 5 && version[..4] == "1.0." {
      assert DropLast(version) == version[..4];
    }
  }

  // ---------------------------------------------------------------------
  // Intervals and bounding boxes
  // ---------------------------------------------------------------------

  /** A `[start, end]` pair, as the lab list and the RTTM list hold them. */
  datatype Span = Span(start: real, end: real)

  /** `check_overlap`: does some interval strictly contain `t`? */
  function CheckOverlap(t: real, spans: seq<Span>): (r: bool)
    ensures r <==> exists i :: 0 <= i < |spans| && spans[i].start < t < spans[i].end
  {
    if spans == [] then false
    else if spans[0].start < t && spans[0].end > t then true
    else CheckOverlap(t, spans[1..])
  }

  /** A bounding box normalised to the unit square: top-left, bottom-right. */
  datatype BBox = BBox(x1: real, y1: real, x2: real, y2: real)

  function Max(a: real, b: real): real {
    if a >= b then a else b
  }

  function Min(a: real, b: real): real {
    if a <= b then a else b
  }

  predicate InScreen(b: BBox) {
    0.0 <= b.x1 && 0.0 <= b.y1 && b.x2 <= 1.0 && b.y2 <= 1.0
  }

  /** `bbox_only_in_screen`: the top-left corner is raised to 0 and the
      bottom-right corner lowered to 1; nothing else moves. */
  function BboxOnlyInScreen(b: BBox): (r: BBox)
    ensures InScreen(r)
    ensures b.x1 <= r.x1 && b.y1 <= r.y1 && r.x2 <= b.x2 && r.y2 <= b.y2
    ensures 0.0 <= b.x1 ==> r.x1 == b.x1
    ensures 0.0 <= b.y1 ==> r.y1 == b.y1
    ensures b.x2 <= 1.0 ==> r.x2 == b.x2
    ensures b.y2 <= 1.0 ==> r.y2 == b.y2
  {
    BBox(Max(b.x1, 0.0), Max(b.y1, 0.0), Min(b.x2, 1.0), Min(b.y2, 1.0))
  }

  lemma BboxOnlyInScreenIdempotent(b: BBox)
    ensures BboxOnlyInScreen(BboxOnlyInScreen(b)) == BboxOnlyInScreen(b)
  {
  }

  // ---------------------------------------------------------------------
  // extract_bbox
  // ---------------------------------------------------------------------

  /** The parallel `time_stamp` / `bbox` lists of one face track. */
  datatype Entities = Entities(timeStamps: seq<real>, bboxes: seq<BBox>)

  /** One `[timestamp, bbox]` record of an interval query. */
  datatype Stamped = Stamped(time: real, bbox: BBox)

  /** The list comprehension of `extract_bbox`: the indices below `n` whose
      time stamp lies in `[lo, hi]`, in increasing order. */
  function InRangeIndices(ts: seq<real>, lo: real, hi: real, n: nat): (idx: seq<nat>)
    requires n <= |ts|
    ensures forall k :: 0 <= k < |idx| ==> idx[k] < n && lo <= ts[idx[k]] <= hi
    ensures forall k, l :: 0 <= k < l < |idx| ==> idx[k] < idx[l]
    ensures forall i :: 0 <= i < n && lo <= ts[i] <= hi ==> i in idx
  {
    if n == 0 then []
    else
      var prev := InRangeIndices(ts, lo, hi, n - 1);
      if lo <= ts[n - 1] <= hi then prev + [n - 1] else prev
  }

  /** `extract_bbox`: the records whose time stamp lies in `[lo, hi]`
      (inclusive), in track order, each with its box (clipped to the screen
      when `noOutScreen`). A selected index with no box raises IndexError. */
  function ExtractBbox(lo: real, hi: real, e: Entities, noOutScreen: bool): (r: Option<seq<Stamped>>)
    ensures r.None? <==> exists i :: 0 <= i < |e.timeStamps| && lo <= e.timeStamps[i] <= hi && i >= |e.bboxes|
    ensures r.Some? ==>
      var idx := InRangeIndices(e.timeStamps, lo, hi, |e.timeStamps|);
      |r.value| == |idx| &&
      forall k :: 0 <= k < |idx| ==>
        idx[k] < |e.bboxes| &&
        r.value[k].time == e.timeStamps[idx[k]] &&
        r.value[k].bbox == (if noOutScreen then BboxOnlyInScreen(e.bboxes[idx[k]]) else e.bboxes[idx[k]])
  {
    var idx := InRangeIndices(e.timeStamps, lo, hi, |e.timeStamps|);
    if exists k :: 0 <= k < |idx| && idx[k] >= |e.bboxes| then None
    else
      Some(seq(|idx|, k requires 0 <= k < |idx| =>
        var b := e.bboxes[idx[k]];
        Stamped(e.timeStamps[idx[k]], if noOutScreen then BboxOnlyInScreen(b) else b)))
  }

  /** Every record of an interval query lies in the interval, and the
      records come out in strictly increasing track position. */
  lemma ExtractBboxInInterval(lo: real, hi: real, e: Entities, noOutScreen: bool)
    requires ExtractBbox(lo, hi, e, noOutScreen).Some?
    ensures var r := ExtractBbox(lo, hi, e, noOutScreen).value;
      forall k :: 0 <= k < |r| ==> lo <= r[k].time <= hi
    ensures noOutScreen ==>
      var r := ExtractBbox(lo, hi, e, noOutScreen).value;
      forall k :: 0 <= k < |r| ==> InScreen(r[k].bbox)
  {
  }

  // ---------------------------------------------------------------------
  // load_segment_list
  // ---------------------------------------------------------------------

  /** One line of a segment list, already split into its two fields. */
  datatype SegmentLine = SegmentLine(fileName: string, segmentIndex: nat)

  /** The dict built by `load_segment_list`, with its key insertion order. */
  datatype SegmentList = SegmentList(order: seq<string>, indices: map<string, seq<nat>>)

  predicate Listed(lines: seq<SegmentLine>, fn: string) {
    exists i :: 0 <= i < |lines| && lines[i].fileName == fn
  }

  /** Reference definition: the indices listed for `fn`, in line order. */
  function IndicesFor(lines: seq<SegmentLine>, fn: string): seq<nat> {
    if lines == [] then []
    else
      var last := lines[|lines| - 1];
      IndicesFor(lines[..|lines| - 1], fn) + (if last.fileName == fn then [last.segmentIndex] else [])
  }

  /** The line at which `fn` first appears. */
  function FirstLine(lines: seq<SegmentLine>, fn: string): (i: nat)
    requires Listed(lines, fn)
    ensures i < |lines| && lines[i].fileName == fn
    ensures forall j :: 0 <= j < i ==> lines[j].fileName != fn
  {
    var prefix := lines[..|lines| - 1];
    if Listed(prefix, fn) then FirstLine(prefix, fn) else |lines| - 1
  }

  predicate Distinct<T(==)>(s: seq<T>) {
    forall k, l :: 0 <= k < l < |s| ==> s[k] != s[l]
  }

  /** `load_segment_list` over pre-split lines: the dict is filled line by
      line, a new file name being appended to the key order. */
  function LoadSegmentList(lines: seq<SegmentLine>): (r: SegmentList)
    ensures forall fn :: fn in r.indices <==> fn in r.order
  {
    if lines == [] then SegmentList([], map[])
    else
      var prev := LoadSegmentList(lines[..|lines| - 1]);
      var ln := lines[|lines| - 1];
      if ln.fileName in prev.indices then
        SegmentList(prev.order, prev.indices[ln.fileName := prev.indices[ln.fileName] + [ln.segmentIndex]])
      else
        SegmentList(prev.order + [ln.fileName], prev.indices[ln.fileName := [ln.segmentIndex]])
  }

  lemma ListedPrefix(lines: seq<SegmentLine>, fn: string)
    requires lines != []
    ensures Listed(lines, fn) <==> Listed(lines[..|lines| - 1], fn) || lines[|lines| - 1].fileName == fn
  {
    var prefix := lines[..|lines| - 1];
    if Listed(prefix, fn) {
      var i :| 0 <= i < |prefix| && prefix[i].fileName == fn;
      assert lines[i] == prefix[i];
    }
    if Listed(lines, fn) && lines[|lines| - 1].fileName != fn {
      var i :| 0 <= i < |lines| && lines[i].fileName == fn;
      assert prefix[i] == lines[i];
    }
  }

  lemma {:induction false} IndicesForUnlisted(lines: seq<SegmentLine>, fn: string)
    requires !Listed(lines, fn)
    ensures IndicesFor(lines, fn) == []
  {
    if lines != [] {
      var prefix := lines[..|lines| - 1];
      assert forall i :: 0 <= i < |prefix| ==> prefix[i] == lines[i];
      IndicesForUnlisted(prefix, fn);
    }
  }

  /** The keys of `load_segment_list` are exactly the listed file names,
      each once, and each maps to all of its indices in line order. */
  lemma {:induction false} LoadSegmentListContents(lines: seq<SegmentLine>)
    ensures var r := LoadSegmentList(lines);
      && Distinct(r.order)
      && (forall fn :: fn in r.order <==> Listed(lines, fn))
      && (forall fn :: fn in r.indices ==> r.indices[fn] == IndicesFor(lines, fn))
  {
    if lines != [] {
      var prefix := lines[..|lines| - 1];
      LoadSegmentListContents(prefix);
      forall fn ensures Listed(lines, fn) <==> Listed(prefix, fn) || lines[|lines| - 1].fileName == fn {
        ListedPrefix(lines, fn);
      }
      var fn := lines[|lines| - 1].fileName;
      if !Listed(prefix, fn) {
        IndicesForUnlisted(prefix, fn);
      }
    }
  }

  /** The keys of `load_segment_list` come in order of first appearance. */
  lemma {:induction false} LoadSegmentListFirstSeen(lines: seq<SegmentLine>)
    ensures var r := LoadSegmentList(lines);
      forall k, l :: 0 <= k < l < |r.order| ==>
        Listed(lines, r.order[k]) && Listed(lines, r.order[l]) &&
        FirstLine(lines, r.order[k]) < FirstLine(lines, r.order[l])
  {
    LoadSegmentListContents(lines);
    if lines != [] {
      var prefix := lines[..|lines| - 1];
      LoadSegmentListFirstSeen(prefix);
      LoadSegmentListContents(prefix);
      var prev := LoadSegmentList(prefix);
      var r := LoadSegmentList(lines);
      forall fn | Listed(prefix, fn) ensures Listed(lines, fn) && FirstLine(lines, fn) == FirstLine(prefix, fn) {
        ListedPrefix(lines, fn);
      }
      forall k, l | 0 <= k < l < |r.order|
        ensures Listed(lines, r.order[k]) && Listed(lines, r.order[l])
        ensures FirstLine(lines, r.order[k]) < FirstLine(lines, r.order[l])
      {
        assert r.order[k] == prev.order[k];
        if l < |prev.order| {
          assert r.order[l] == prev.order[l];
        } else {
          ListedPrefix(lines, r.order[l]);
        }
      }
    }
  }

  // ---------------------------------------------------------------------
  // output_destination
  // ---------------------------------------------------------------------

  /** The fields of a metadata segment the output naming reads. */
  datatype SegmentMeta = SegmentMeta(speakerId: string, segmentIndex: nat)

  datatype Destination = Destination(wavPath: string, videoPath: string, txtPath: string)

  datatype DestinationError =
    | InvalidSpeakerId(speakerId: string)   // int() raised ValueError
    | InvalidStyle(style: string)

  /** `str(int(speaker_id.replace("id", "")))`: the speaker number without
      its "id" prefix and leading zeros. */
  function SpeakerDir(speakerId: string): Option<string> {
    match ParseInt(Replace(speakerId, "id", ""))
    case Some(n) => Some(NatToString(n))
    case None => None
  }

  /** `output_destination`. */
  function OutputDestination(fileName: string, seg: SegmentMeta, outputDir: string, style: string)
    : (r: Result<Destination, DestinationError>)
    ensures r.Failure? <==>
      (style != "librispeech" && style != "lrs3") || (style == "librispeech" && SpeakerDir(seg.speakerId).None?)
  {
    if style == "librispeech" then
      match SpeakerDir(seg.speakerId)
      case None => Failure(InvalidSpeakerId(seg.speakerId))
      case Some(spk) =>
        var segIdx := ZeroPad(seg.segmentIndex, 4);
        var wav := Paths.JoinAll([outputDir, spk, fileName, spk + "-" + fileName + "-" + segIdx + ".flac"]);
        var video := Replace(wav, ".flac", ".mp4");
        var txt := Paths.JoinAll([outputDir, spk, fileName, spk + "-" + fileName + ".trans.txt"]);
        Success(Destination(wav, video, txt))
    else if style == "lrs3" then
      var segIdx := ZeroPad(seg.segmentIndex, 5);
      var wav := Paths.JoinAll([outputDir, fileName, segIdx + ".wav"]);
      Success(Destination(wav, Replace(wav, ".wav", ".mp4"), Replace(wav, ".wav", ".txt")))
    else
      Failure(InvalidStyle(style))
  }

  /** Joining a relative name that carries a suffix keeps the suffix last. */
  lemma JoinSuffix(dir: string, name: string, suffix: string)
    requires name != [] && name[0] != '/'
    ensures Paths.Join(dir, name + suffix) == Paths.Join(dir, name) + suffix
  {
    NoLeadingSlash(name);
    assert (name + suffix)[0] == name[0];
    NoLeadingSlash(name + suffix);
    if dir == [] || dir[|dir| - 1] == '/' {
      assert dir + (name + suffix) == (dir + name) + suffix;
    } else {
      assert dir + "/" + (name + suffix) == (dir + "/" + name) + suffix;
    }
  }

  lemma NoLeadingSlash(s: string)
    requires s != [] && s[0] != '/'
    ensures !StartsWith(s, "/")
  {
    assert s[..1] == [s[0]];
  }

  /** lrs3 naming: `<dir>/<file>/<5-digit index>.wav`, whose index reads
      back as the segment index; the video and transcript paths swap only
      the extension when ".wav" occurs nowhere else in the path. */
  lemma Lrs3Destination(fileName: string, seg: SegmentMeta, outputDir: string)
    ensures var r := OutputDestination(fileName, seg, outputDir, "lrs3");
      var digits := ZeroPad(seg.segmentIndex, 5);
      var stem := Paths.Join(Paths.Join(outputDir, fileName), digits);
      && r.Success?
      && |digits| >= 5 && ParseDigits(digits) == seg.segmentIndex
      && r.value.wavPath == stem + ".wav"
      && (!Contains(stem, ".wav") ==> r.value.videoPath == stem + ".mp4" && r.value.txtPath == stem + ".txt")
  {
    var digits := ZeroPad(seg.segmentIndex, 5);
    ZeroPadRoundTrip(seg.segmentIndex, 5);
    assert IsDigit(digits[0]);
    assert [outputDir, fileName, digits + ".wav"][..2] == [outputDir, fileName];
    assert [outputDir, fileName][..1] == [outputDir];
    assert Paths.JoinAll([outputDir, fileName]) == Paths.Join(outputDir, fileName);
    assert Paths.JoinAll([outputDir, fileName, digits + ".wav"]) == Paths.Join(Paths.Join(outputDir, fileName), digits + ".wav");
    JoinSuffix(Paths.Join(outputDir, fileName), digits, ".wav");
    var stem := Paths.Join(Paths.Join(outputDir, fileName), digits);
    var r := OutputDestination(fileName, seg, outputDir, "lrs3");
    assert r.value.wavPath == stem + ".wav";
    if !Contains(stem, ".wav") {
      Paths.ExtensionUnbordered(".wav");
      ReplaceAtEnd(stem, ".wav", ".mp4");
      ReplaceAtEnd(stem, ".wav", ".txt");
    }
  }

  /** librispeech naming: `<dir>/<spk>/<file>/<spk>-<file>-<4-digit index>.flac`,
      whose index reads back as the segment index; the video path swaps only
      the extension when ".flac" occurs nowhere else in the path. */
  lemma LibrispeechDestination(fileName: string, seg: SegmentMeta, outputDir: string, spk: string)
    requires SpeakerDir(seg.speakerId) == Some(spk)
    ensures var r := OutputDestination(fileName, seg, outputDir, "librispeech");
      var digits := ZeroPad(seg.segmentIndex, 4);
      var stem := Paths.JoinAll([outputDir, spk, fileName, spk + "-" + fileName + "-" + digits]);
      && r.Success?
      && |digits| >= 4 && ParseDigits(digits) == seg.segmentIndex
      && r.value.wavPath == stem + ".flac"
      && (!Contains(stem, ".flac") ==> r.value.videoPath == stem + ".mp4")
  {
    ZeroPadRoundTrip(seg.segmentIndex, 4);
    var digits := ZeroPad(seg.segmentIndex, 4);
    var stem := Paths.JoinAll([outputDir, spk, fileName, spk + "-" + fileName + "-" + digits]);
    LibrispeechWav(fileName, seg, outputDir, spk, digits, stem);
    if !Contains(stem, ".flac") {
      Paths.ExtensionUnbordered(".flac");
      ReplaceAtEnd(stem, ".flac", ".mp4");
    }
  }

  /** The librispeech wav path is the stem with ".flac" appended, and the
      video path replaces ".flac" in it. */
  lemma LibrispeechWav(fileName: string, seg: SegmentMeta, outputDir: string, spk: string,
                       digits: string, stem: string)
    requires SpeakerDir(seg.speakerId) == Some(spk)
    requires digits == ZeroPad(seg.segmentIndex, 4)
    requires stem == Paths.JoinAll([outputDir, spk, fileName, spk + "-" + fileName + "-" + digits])
    ensures var r := OutputDestination(fileName, seg, outputDir, "librispeech");
      && r.Success? && r.value.wavPath == stem + ".flac"
      && r.value.videoPath == Replace(stem + ".flac", ".flac", ".mp4")
  {
    var name := spk + "-" + fileName + "-" + digits;
    SpeakerDirDigit(seg.speakerId, spk);
    assert name[0] == spk[0];
    var dir := Paths.JoinAll([outputDir, spk, fileName]);
    JoinAllSnoc(outputDir, spk, fileName, name + ".flac");
    JoinAllSnoc(outputDir, spk, fileName, name);
    assert name + ".flac" == spk + "-" + fileName + "-" + digits + ".flac";
    JoinSuffix(dir, name, ".flac");
  }

  lemma SpeakerDirDigit(speakerId: string, spk: string)
    requires SpeakerDir(speakerId) == Some(spk)
    ensures spk != [] && IsDigit(spk[0])
  {
    var n :| ParseInt(Replace(speakerId, "id", "")) == Some(n) && spk == NatToString(n);
  }

  lemma JoinAllSnoc(a: string, b: string, c: string, d: string)
    ensures Paths.JoinAll([a, b, c, d]) == Paths.Join(Paths.JoinAll([a, b, c]), d)
  {
    assert [a, b, c, d][..3] == [a, b, c];
  }

  // ---------------------------------------------------------------------
  // Face-track store
  // ---------------------------------------------------------------------

  /** One track of a face-track annotation: parallel frame, box and time
      stamp lists. */
  datatype Track = Track(index: int, frames: seq<nat>, bboxes: seq<BBox>, timeStamps: seq<real>)

  /** A face-track annotation: its frame rate and its tracks. */
  datatype Annotation = Annotation(fps: nat, tracks: seq<Track>)

  /** The frame-indexed lookup of one track. */
  type FrameMap = map<nat, BBox>

  datatype TrackError =
    | BboxListTooShort            // tr['bbox'][i] raised IndexError
    | EmptyTrack(index: int)      // tr['frame'][0] raised IndexError
    | ZeroAnnotationFps           // division by the annotation FPS
    | MissingSourceFrame(index: int)  // the clamped source frame is not annotated

  /** The frames of a track with no later repetition: the entry that wins. */
  predicate LastOccurrence(frames: seq<nat>, i: nat)
    requires i < |frames|
  {
    forall j :: i < j < |frames| ==> frames[j] != frames[i]
  }

  /** `{f: bbox[i] for i, f in enumerate(frame)}`: a repeated frame keeps the
      box of its last occurrence. */
  function BuildFrameMap(frames: seq<nat>, bboxes: seq<BBox>): (m: FrameMap)
    requires |frames| <= |bboxes|
    ensures forall f :: f in m <==> f in frames
  {
    if frames == [] then map[]
    else
      var n := |frames| - 1;
      assert forall f :: f in frames <==> f in frames[..n] || f == frames[n] by {
        assert frames == frames[..n] + [frames[n]];
      }
      BuildFrameMap(frames[..n], bboxes)[frames[n] := bboxes[n]]
  }

  /** Each frame of the lookup holds the box of its last occurrence. */
  lemma {:induction false} BuildFrameMapLastWins(frames: seq<nat>, bboxes: seq<BBox>, i: nat)
    requires |frames| <= |bboxes| && i < |frames| && LastOccurrence(frames, i)
    ensures BuildFrameMap(frames, bboxes)[frames[i]] == bboxes[i]
  {
    var n := |frames| - 1;
    if i < n {
      assert LastOccurrence(frames[..n], i);
      BuildFrameMapLastWins(frames[..n], bboxes, i);
    }
  }

  predicate WellFormed(tracks: seq<Track>) {
    forall k :: 0 <= k < |tracks| ==> |tracks[k].frames| <= |tracks[k].bboxes|
  }

  predicate HasTrack(tracks: seq<Track>, t: int) {
    exists k :: 0 <= k < |tracks| && tracks[k].index == t
  }

  predicate LastTrack(tracks: seq<Track>, k: nat)
    requires k < |tracks|
  {
    forall j :: k < j < |tracks| ==> tracks[j].index != tracks[k].index
  }

  function ParseTracks(tracks: seq<Track>): (r: map<int, FrameMap>)
    requires WellFormed(tracks)
    ensures forall t :: t in r <==> HasTrack(tracks, t)
    ensures forall k :: 0 <= k < |tracks| ==> tracks[k].index in r
  {
    if tracks == [] then map[]
    else
      var n := |tracks| - 1;
      var prev := ParseTracks(tracks[..n]);
      assert forall t :: HasTrack(tracks, t) <==> HasTrack(tracks[..n], t) || tracks[n].index == t by {
        forall t ensures HasTrack(tracks, t) <==> HasTrack(tracks[..n], t) || tracks[n].index == t {
          if HasTrack(tracks[..n], t) {
            var k :| 0 <= k < n && tracks[..n][k].index == t;
            assert tracks[k].index == t;
          }
        }
      }
      assert forall k :: 0 <= k < n ==> tracks[k] == tracks[..n][k];
      prev[tracks[n].index := BuildFrameMap(tracks[n].frames, tracks[n].bboxes)]
  }

  /** A repeated track index keeps the lookup of its last track. */
  lemma {:induction false} ParseTracksLastWins(tracks: seq<Track>, k: nat)
    requires WellFormed(tracks) && k < |tracks| && LastTrack(tracks, k)
    ensures ParseTracks(tracks)[tracks[k].index] == BuildFrameMap(tracks[k].frames, tracks[k].bboxes)
  {
    var n := |tracks| - 1;
    if k < n {
      assert LastTrack(tracks[..n], k);
      assert tracks[..n][k] == tracks[k];
      ParseTracksLastWins(tracks[..n], k);
    }
  }

  /** `parse_face_track_json`: each track index maps to its frame lookup
      (`ParseTracksLastWins`: a repeated index keeps the last track). */
  function ParseFaceTrackJson(ann: Annotation): (r: Result<map<int, FrameMap>, TrackError>)
    ensures r.Failure? <==> !WellFormed(ann.tracks)
    ensures r.Success? ==> forall t :: t in r.value <==> HasTrack(ann.tracks, t)
    ensures r.Success? ==> r.value == ParseTracks(ann.tracks)
  {
    if WellFormed(ann.tracks) then Success(ParseTracks(ann.tracks)) else Failure(BboxListTooShort)
  }

  /** `min(max(x, lo), hi)`. */
  function Clamp(x: int, lo: int, hi: int): int {
    if x < lo then (if lo <= hi then lo else hi) else if x > hi then hi else x
  }

  /** The annotated frame a resampled frame `f` copies its box from:
      `int(f * json_fps / trg_fps)` clamped into `[f0, f1]`. */
  function SourceFrame(f: nat, jsonFps: nat, trgFps: nat, f0: nat, f1: nat): nat
    requires trgFps > 0
  {
    Clamp(f * jsonFps / trgFps, f0, f1)
  }

  /** The first and one-past-last resampled frame indices of a track that
      spans `[f0, f1]`: `int(f * trg_fps / json_fps)`. */
  function ResampledBounds(f0: nat, f1: nat, jsonFps: nat, trgFps: nat): (nat, nat)
    requires jsonFps > 0
  {
    (f0 * trgFps / jsonFps, f1 * trgFps / jsonFps)
  }

  /** The resampled window of a track: its first and last annotated frames
      mapped to the target rate. */
  function Window(tr: Track, jsonFps: nat, trgFps: nat): (nat, nat)
    requires tr.frames != [] && jsonFps > 0
  {
    ResampledBounds(tr.frames[0], tr.frames[|tr.frames| - 1], jsonFps, trgFps)
  }

  /** The box of resampled frame `f` is annotated. */
  predicate SourceAnnotated(tr: Track, m: FrameMap, f: nat, jsonFps: nat, trgFps: nat)
    requires tr.frames != [] && trgFps > 0
  {
    SourceFrame(f, jsonFps, trgFps, tr.frames[0], tr.frames[|tr.frames| - 1]) in m
  }

  /** Some frame of the resampled window copies its box from a source frame
      the track's lookup does not hold (the source's KeyError). */
  predicate MissesSource(tr: Track, m: FrameMap, jsonFps: nat, trgFps: nat)
    requires tr.frames != [] && jsonFps > 0
  {
    trgFps > 0 &&
    var (lo, hi) := Window(tr, jsonFps, trgFps);
    exists f :: lo <= f < hi && !SourceAnnotated(tr, m, f, jsonFps, trgFps)
  }

  /** `out` is the track `tr` rebuilt at `trgFps`: one entry per frame of
      the window, in order, each frame stamped `f / trgFps` and boxed with
      its source frame's box. */
  predicate ResampledAs(tr: Track, m: FrameMap, jsonFps: nat, trgFps: nat, out: Track)
    requires tr.frames != [] && jsonFps > 0
  {
    var (lo, hi) := Window(tr, jsonFps, trgFps);
    var n := if lo <= hi then hi - lo else 0;
    && out.index == tr.index
    && |out.frames| == n && |out.bboxes| == n && |out.timeStamps| == n
    && (n > 0 ==> trgFps > 0)
    && forall k :: 0 <= k < n ==>
         && out.frames[k] == lo + k
         && out.timeStamps[k] == (lo + k) as real / trgFps as real
         && SourceAnnotated(tr, m, lo + k, jsonFps, trgFps)
         && out.bboxes[k] == BoxAt(tr, m, lo + k, jsonFps, trgFps)
  }

  /** The box resampled frame `f` copies. */
  function BoxAt(tr: Track, m: FrameMap, f: nat, jsonFps: nat, trgFps: nat): BBox
    requires tr.frames != [] && trgFps > 0 && SourceAnnotated(tr, m, f, jsonFps, trgFps)
  {
    m[SourceFrame(f, jsonFps, trgFps, tr.frames[0], tr.frames[|tr.frames| - 1])]
  }

  lemma WindowNeedsRate(tr: Track, jsonFps: nat, trgFps: nat)
    requires tr.frames != [] && jsonFps > 0 && Window(tr, jsonFps, trgFps).0 < Window(tr, jsonFps, trgFps).1
    ensures trgFps > 0
  {
    var f1 := tr.frames[|tr.frames| - 1];
    assert trgFps == 0 ==> f1 * trgFps == 0;
  }

  /** The rebuilt track once every frame of the window has its box. */
  function Rebuild(tr: Track, m: FrameMap, jsonFps: nat, trgFps: nat): (out: Track)
    requires tr.frames != [] && jsonFps > 0 && !MissesSource(tr, m, jsonFps, trgFps)
    ensures ResampledAs(tr, m, jsonFps, trgFps, out)
  {
    var (lo, hi) := Window(tr, jsonFps, trgFps);
    if hi <= lo then Track(tr.index, [], [], [])
    else
      WindowNeedsRate(tr, jsonFps, trgFps);
      var n := hi - lo;
      assert forall f :: lo <= f < hi ==> SourceAnnotated(tr, m, f, jsonFps, trgFps);
      Track(tr.index,
        seq(n, k requires 0 <= k < n => lo + k),
        seq(n, k requires 0 <= k < n => BoxAt(tr, m, lo + k, jsonFps, trgFps)),
        seq(n, k requires 0 <= k < n => (lo + k) as real / trgFps as real))
  }

  /** `resample_face_track` for one track, with `m` the lookup
      `parse_face_track_json` built for the track's index. */
  function ResampleTrack(tr: Track, m: FrameMap, jsonFps: nat, trgFps: nat): (r: Result<Track, TrackError>)
    ensures r.Success? ==> tr.frames != [] && jsonFps > 0 && ResampledAs(tr, m, jsonFps, trgFps, r.value)
    ensures r.Failure? <==> (tr.frames == [] || jsonFps == 0 || MissesSource(tr, m, jsonFps, trgFps))
  {
    if tr.frames == [] then Failure(EmptyTrack(tr.index))
    else if jsonFps == 0 then Failure(ZeroAnnotationFps)
    else if MissesSource(tr, m, jsonFps, trgFps) then Failure(MissingSourceFrame(tr.index))
    else Success(Rebuild(tr, m, jsonFps, trgFps))
  }

  /** A track annotated on every frame from its first to its last is always
      resampled: the clamped source frame never leaves that span. */
  lemma ResampleTrackTotal(tr: Track, m: FrameMap, jsonFps: nat, trgFps: nat)
    requires tr.frames != [] && jsonFps > 0
    requires tr.frames[0] <= tr.frames[|tr.frames| - 1]
    requires forall f :: tr.frames[0] <= f <= tr.frames[|tr.frames| - 1] ==> f in m
    ensures ResampleTrack(tr, m, jsonFps, trgFps).Success?
  {
  }

  /** Resampling at the annotation's own rate keeps the boxes frame for
      frame, but the window is end-exclusive: the last annotated frame is
      dropped. */
  lemma ResampleSameRate(tr: Track, m: FrameMap, fps: nat)
    requires tr.frames != [] && fps > 0
    requires ResampleTrack(tr, m, fps, fps).Success?
    ensures var out := ResampleTrack(tr, m, fps, fps).value;
      var f0 := tr.frames[0];
      var f1 := tr.frames[|tr.frames| - 1];
      && |out.frames| == (if f0 <= f1 then f1 - f0 else 0)
      && (forall k :: 0 <= k < |out.frames| ==> out.frames[k] == f0 + k && f0 + k in m && out.bboxes[k] == m[f0 + k])
      && f1 !in out.frames
  {
    var out := ResampleTrack(tr, m, fps, fps).value;
    assert ResampledAs(tr, m, fps, fps, out);
    SameRateAs(tr, m, fps, out);
  }

  /** A track rebuilt at its own rate holds frames f0 .. f1 - 1 with their
      own boxes. */
  lemma SameRateAs(tr: Track, m: FrameMap, fps: nat, out: Track)
    requires tr.frames != [] && fps > 0 && ResampledAs(tr, m, fps, fps, out)
    ensures var f0 := tr.frames[0];
      var f1 := tr.frames[|tr.frames| - 1];
      && |out.frames| == (if f0 <= f1 then f1 - f0 else 0)
      && (forall k :: 0 <= k < |out.frames| ==> out.frames[k] == f0 + k && f0 + k in m && out.bboxes[k] == m[f0 + k])
      && f1 !in out.frames
  {
    var f0 := tr.frames[0];
    var f1 := tr.frames[|tr.frames| - 1];
    SameRateWindow(f0, f1, fps);
    var n := |out.frames|;
    assert n == (if f0 <= f1 then f1 - f0 else 0);
    forall k | 0 <= k < n
      ensures out.frames[k] == f0 + k && f0 + k in m && out.bboxes[k] == m[f0 + k]
    {
      SameRateAt(tr, m, fps, out, k);
    }
    assert forall k :: 0 <= k < n ==> out.frames[k] < f1;
  }

  /** Entry `k` of a track rebuilt at its own rate is source frame f0 + k
      with its own box. */
  lemma SameRateAt(tr: Track, m: FrameMap, fps: nat, out: Track, k: nat)
    requires tr.frames != [] && fps > 0 && ResampledAs(tr, m, fps, fps, out)
    requires k < |out.frames|
    ensures out.frames[k] == tr.frames[0] + k && tr.frames[0] + k in m && out.bboxes[k] == m[tr.frames[0] + k]
  {
    var f0 := tr.frames[0];
    SameRateWindow(f0, tr.frames[|tr.frames| - 1], fps);
    assert out.frames[k] == f0 + k && out.bboxes[k] == BoxAt(tr, m, f0 + k, fps, fps);
    SameRateBox(tr, m, fps, f0 + k);
  }

  /** At equal rates a frame inside the span copies its own box. */
  lemma SameRateBox(tr: Track, m: FrameMap, fps: nat, f: nat)
    requires tr.frames != [] && fps > 0 && tr.frames[0] <= f < tr.frames[|tr.frames| - 1]
    requires SourceAnnotated(tr, m, f, fps, fps)
    ensures f in m && BoxAt(tr, m, f, fps, fps) == m[f]
  {
    SameRateSource(f, fps, tr.frames[0], tr.frames[|tr.frames| - 1]);
  }

  /** At equal rates the resampled window is the annotated span itself. */
  lemma SameRateWindow(f0: nat, f1: nat, fps: nat)
    requires fps > 0
    ensures ResampledBounds(f0, f1, fps, fps) == (f0, f1)
  {
    SameRateFrame(f0, fps);
    SameRateFrame(f1, fps);
  }

  /** At equal rates a frame inside the span copies its own box. */
  lemma SameRateSource(f: nat, fps: nat, f0: nat, f1: nat)
    requires fps > 0 && f0 <= f < f1
    ensures SourceFrame(f, fps, fps, f0, f1) == f
  {
    SameRateFrame(f, fps);
  }

  lemma MulAtLeast(a: int, d: int)
    requires a >= 1 && d >= 1
    ensures a * d >= d
  {
  }

  lemma SameRateFrame(f: nat, fps: nat)
    requires fps > 0
    ensures f * fps / fps == f
  {
    var x := f * fps;
    var q := x / fps;
    assert (q - f) * fps == -(x % fps);
    assert q <= f by {
      if q > f { MulAtLeast(q - f, fps); assert false; }
    }
    assert q >= f by {
      if q < f { MulAtLeast(f - q, fps); assert false; }
    }
  }

  function ResampleTracks(tracks: seq<Track>, parsed: map<int, FrameMap>, jsonFps: nat, trgFps: nat)
    : (r: Result<seq<Track>, TrackError>)
    requires forall k :: 0 <= k < |tracks| ==> tracks[k].index in parsed
    ensures r.Success? ==> |r.value| == |tracks|
    ensures r.Success? ==> forall k :: 0 <= k < |tracks| ==>
              ResampleTrack(tracks[k], parsed[tracks[k].index], jsonFps, trgFps) == Success(r.value[k])
    ensures r.Failure? ==>
      exists k :: 0 <= k < |tracks| && ResampleTrack(tracks[k], parsed[tracks[k].index], jsonFps, trgFps).Failure?
  {
    if tracks == [] then Success([])
    else
      var t :- ResampleTrack(tracks[0], parsed[tracks[0].index], jsonFps, trgFps);
      var rest :- ResampleTracks(tracks[1..], parsed, jsonFps, trgFps);
      Success([t] + rest)
  }

  /** Track `k` of the annotation resampled with the lookup parsed for its
      index. */
  function TrackAt(ann: Annotation, k: nat, trgFps: nat): Result<Track, TrackError>
    requires WellFormed(ann.tracks) && k < |ann.tracks|
  {
    ResampleTrack(ann.tracks[k], ParseTracks(ann.tracks)[ann.tracks[k].index], ann.fps, trgFps)
  }

  /** `resample_face_track`: every track is rebuilt at `trgFps` from the
      frame lookup parsed for its index, and the annotation's FPS becomes
      `trgFps`; it raises when parsing or any track's resampling does. */
  function ResampleFaceTrack(ann: Annotation, trgFps: nat): (r: Result<Annotation, TrackError>)
    ensures r.Success? ==> r.value.fps == trgFps && |r.value.tracks| == |ann.tracks|
    ensures r.Success? ==> WellFormed(ann.tracks) && forall k :: 0 <= k < |ann.tracks| ==>
              r.value.tracks[k].index == ann.tracks[k].index
    ensures r.Success? ==> WellFormed(r.value.tracks)
    ensures r.Success? <==> WellFormed(ann.tracks) && forall k :: 0 <= k < |ann.tracks| ==> TrackAt(ann, k, trgFps).Success?
    ensures r.Success? ==> forall k :: 0 <= k < |ann.tracks| ==> TrackAt(ann, k, trgFps) == Success(r.value.tracks[k])
  {
    var parsed :- ParseFaceTrackJson(ann);
    assert forall k :: 0 <= k < |ann.tracks| ==> HasTrack(ann.tracks, ann.tracks[k].index);
    assert forall k :: 0 <= k < |ann.tracks| ==>
      TrackAt(ann, k, trgFps) == ResampleTrack(ann.tracks[k], parsed[ann.tracks[k].index], ann.fps, trgFps);
    var tracks :- ResampleTracks(ann.tracks, parsed, ann.fps, trgFps);
    Success(Annotation(trgFps, tracks))
  }
}

=== FILE: diarisation.dfy ===
/** The label derivation of the diarisation preprocessor, for one metadata
    file: the listed segments are picked out, speakers are renamed `spk00`,
    `spk01`, ... in order of first appearance, the entries are stably
    sorted by start time, and from them come the RTTM rows and the oracle
    voice-activity ("lab") intervals. */
module Diarisation {

  import opened Wrappers
  import opened PyStr
  import opened CommonUtils

  /** The fields of one metadata segment the preprocessor reads; a face
      track is kept by its index. */
  datatype DSegment = DSegment(segmentIndex: nat, speakerId: string, start: real, end: real, faceTrack: seq<nat>)

  /** One row of `rttm_list`: start, end, speaker label and the face-track
      entity, if any. */
  datatype Entry = Entry(start: real, end: real, speaker: string, entity: Option<seq<nat>>)

  datatype Options = Options(noTrack: bool, noRttm: bool, noLab: bool)

  // ---------------------------------------------------------------------
  // Selection
  // ---------------------------------------------------------------------

  /** The segments whose index is listed for the file, in metadata order. */
  function Select(segs: seq<DSegment>, listed: seq<nat>): (r: seq<DSegment>)
    ensures |r| <= |segs|
    ensures forall k :: 0 <= k < |r| ==> r[k] in segs && r[k].segmentIndex in listed
    ensures forall x :: x in segs && x.segmentIndex in listed ==> x in r
  {
    if segs == [] then []
    else (if segs[0].segmentIndex in listed then [segs[0]] else []) + Select(segs[1..], listed)
  }

  /** Selection distributes over concatenation, so metadata order is kept. */
  lemma {:induction false} SelectAppend(a: seq<DSegment>, b: seq<DSegment>, listed: seq<nat>)
    ensures Select(a + b, listed) == Select(a, listed) + Select(b, listed)
    decreases |a|
  {
    if a == [] {
      assert a + b == b;
    } else {
      assert (a + b)[1..] == a[1..] + b;
      SelectAppend(a[1..], b, listed);
    }
  }

  // ---------------------------------------------------------------------
  // Speaker relabelling
  // ---------------------------------------------------------------------

  /** `f'spk{n:02d}'`. */
  function Label(n: nat): string {
    "spk" + ZeroPad(n, 2)
  }

  /** Distinct numbers give distinct labels. */
  lemma LabelInjective(m: nat, n: nat)
    requires m != n
    ensures Label(m) != Label(n)
  {
    ZeroPadInjective(m, n, 2);
    assert Label(m)[3..] == ZeroPad(m, 2);
    assert Label(n)[3..] == ZeroPad(n, 2);
  }

  /** Reference definition: the distinct speakers in order of first
      appearance. */
  function FirstSeen(spks: seq<string>): (r: seq<string>)
    ensures forall s :: s in r <==> s in spks
    ensures Distinct(r)
  {
    if spks == [] then []
    else
      var prev := FirstSeen(spks[..|spks| - 1]);
      var s := spks[|spks| - 1];
      assert spks == spks[..|spks| - 1] + [s];
      if s in prev then prev else prev + [s]
  }

  /** The `spk_dict` loop: each speaker is numbered on first appearance
      with the number of speakers seen before it. Returns the number given
      to each segment's speaker and the final dict. */
  function Relabel(spks: seq<string>): (r: (seq<nat>, map<string, nat>))
    ensures |r.0| == |spks|
    ensures forall s :: s in r.1 <==> s in spks
    ensures forall k :: 0 <= k < |spks| ==> spks[k] in r.1 && r.0[k] == r.1[spks[k]]
  {
    if spks == [] then ([], map[])
    else
      var (ns, d) := Relabel(spks[..|spks| - 1]);
      var s := spks[|spks| - 1];
      assert spks == spks[..|spks| - 1] + [s];
      if s in d then (ns + [d[s]], d) else (ns + [|d|], d[s := |d|])
  }

  /** The dict numbers speakers by their position in first-seen order: so
      the same speaker always gets the same label, distinct speakers get
      distinct labels, and the labels used are `spk00` up to the number of
      speakers. */
  lemma {:induction false} RelabelFirstSeen(spks: seq<string>)
    ensures Aligned(Relabel(spks).1, FirstSeen(spks))
  {
    if spks != [] {
      var p := spks[..|spks| - 1];
      var s := spks[|spks| - 1];
      assert spks == p + [s];
      RelabelFirstSeen(p);
      RelabelStep(p, s);
    }
  }

  /** `d` numbers each key by its index in `f`, and has one key per entry
      of `f`. */
  predicate Aligned(d: map<string, nat>, f: seq<string>) {
    && |d| == |f|
    && forall t :: t in d ==> d[t] < |f| && f[d[t]] == t
  }

  /** One more speaker keeps the dict aligned with first-seen order. */
  lemma RelabelStep(p: seq<string>, s: string)
    requires Aligned(Relabel(p).1, FirstSeen(p))
    ensures Aligned(Relabel(p + [s]).1, FirstSeen(p + [s]))
  {
    var q := p + [s];
    assert q[..|q| - 1] == p;
    var d := Relabel(p).1;
    var f := FirstSeen(p);
    if s in d {
      assert Relabel(q).1 == d;
      assert FirstSeen(q) == f;
    } else {
      assert Relabel(q).1 == d[s := |d|];
      assert FirstSeen(q) == f + [s];
      AlignedExtend(d, f, s);
    }
  }

  /** Numbering a new key with the current size extends the alignment by
      that key. */
  lemma AlignedExtend(d: map<string, nat>, f: seq<string>, s: string)
    requires Aligned(d, f) && s !in d
    ensures Aligned(d[s := |d|], f + [s])
  {
    var d' := d[s := |d|];
    var f' := f + [s];
    assert |d'| == |d| + 1;
    forall t | t in d' ensures d'[t] < |f'| && f'[d'[t]] == t {
      if t != s {
        assert d'[t] == d[t];
      }
    }
  }

  /** Two segments share a label exactly when they share a speaker. */
  lemma RelabelConsistent(spks: seq<string>, j: nat, k: nat)
    requires j < |spks| && k < |spks|
    ensures Label(Relabel(spks).0[j]) == Label(Relabel(spks).0[k]) <==> spks[j] == spks[k]
  {
    var (ns, d) := Relabel(spks);
    RelabelFirstSeen(spks);
    if spks[j] != spks[k] {
      assert FirstSeen(spks)[d[spks[j]]] != FirstSeen(spks)[d[spks[k]]];
      LabelInjective(ns[j], ns[k]);
    }
  }

  function Speakers(segs: seq<DSegment>): (r: seq<string>)
    ensures |r| == |segs| && forall k :: 0 <= k < |segs| ==> r[k] == segs[k].speakerId
  {
    seq(|segs|, k requires 0 <= k < |segs| => segs[k].speakerId)
  }

  /** The face-track entity: the segment's track when it has exactly one
      and tracks are wanted. */
  function Entity(seg: DSegment, noTrack: bool): (r: Option<seq<nat>>)
    ensures r.Some? <==> |seg.faceTrack| == 1 && !noTrack
    ensures r.Some? ==> r.value == seg.faceTrack
  {
    if |seg.faceTrack| == 1 && !noTrack then Some(seg.faceTrack) else None
  }

  /** `rttm_list` before sorting. */
  function BuildEntries(segs: seq<DSegment>, noTrack: bool): (r: seq<Entry>)
    ensures |r| == |segs|
    ensures forall k :: 0 <= k < |segs| ==>
      r[k].start == segs[k].start && r[k].end == segs[k].end && r[k].entity == Entity(segs[k], noTrack)
    ensures forall j, k :: 0 <= j < |segs| && 0 <= k < |segs| ==>
      (r[j].speaker == r[k].speaker <==> segs[j].speakerId == segs[k].speakerId)
  {
    var ns := Relabel(Speakers(segs)).0;
    forall j, k | 0 <= j < |segs| && 0 <= k < |segs|
      ensures Label(ns[j]) == Label(ns[k]) <==> segs[j].speakerId == segs[k].speakerId
    {
      RelabelConsistent(Speakers(segs), j, k);
    }
    seq(|segs|, k requires 0 <= k < |segs| =>
      Entry(segs[k].start, segs[k].end, Label(ns[k]), Entity(segs[k], noTrack)))
  }

  // ---------------------------------------------------------------------
  // Stable sort by start time
  // ---------------------------------------------------------------------

  predicate SortedByStart(s: seq<Entry>) {
    forall i, j :: 0 <= i < j < |s| ==> s[i].start <= s[j].start
  }

  /** Places `x` before the first entry that does not start earlier. */
  function Insert(x: Entry, s: seq<Entry>): (r: seq<Entry>)
    ensures |r| == |s| + 1
    ensures multiset(r) == multiset(s) + multiset{x}
  {
    if s == [] || x.start <= s[0].start then [x] + s
    else
      assert s == [s[0]] + s[1..];
      [s[0]] + Insert(x, s[1..])
  }

  /** Inserting into a sorted sequence keeps it sorted. */
  lemma {:induction false} InsertSorted(x: Entry, s: seq<Entry>)
    requires SortedByStart(s)
    ensures SortedByStart(Insert(x, s))
    ensures Insert(x, s)[0].start == (if s == [] || x.start <= s[0].start then x.start else s[0].start)
    decreases |s|
  {
    if s != [] && x.start > s[0].start {
      var rest := Insert(x, s[1..]);
      InsertSorted(x, s[1..]);
      var r := [s[0]] + rest;
      forall i, j | 0 <= i < j < |r| ensures r[i].start <= r[j].start {
        if i == 0 {
          assert r[j].start >= rest[0].start;
        }
      }
    }
  }

  /** `sorted(rttm_list, key=lambda k: k[0])`. */
  function SortByStart(xs: seq<Entry>): (r: seq<Entry>)
    ensures SortedByStart(r)
    ensures multiset(r) == multiset(xs)
    ensures |r| == |xs|
  {
    if xs == [] then []
    else
      assert xs == [xs[0]] + xs[1..];
      InsertSorted(xs[0], SortByStart(xs[1..]));
      Insert(xs[0], SortByStart(xs[1..]))
  }

  /** The entries that start at `v`, in order. */
  function StartingAt(s: seq<Entry>, v: real): seq<Entry> {
    if s == [] then [] else (if s[0].start == v then [s[0]] else []) + StartingAt(s[1..], v)
  }

  lemma {:induction false} InsertStable(x: Entry, s: seq<Entry>, v: real)
    ensures StartingAt(Insert(x, s), v) == (if x.start == v then [x] else []) + StartingAt(s, v)
    decreases |s|
  {
    if s == [] || x.start <= s[0].start {
      assert ([x] + s)[1..] == s;
    } else {
      InsertStable(x, s[1..], v);
      assert ([s[0]] + Insert(x, s[1..]))[1..] == Insert(x, s[1..]);
    }
  }

  /** The sort is stable: entries with equal start times keep their order. */
  lemma {:induction false} SortStable(xs: seq<Entry>, v: real)
    ensures StartingAt(SortByStart(xs), v) == StartingAt(xs, v)
    decreases |xs|
  {
    if xs != [] {
      SortStable(xs[1..], v);
      InsertStable(xs[0], SortByStart(xs[1..]), v);
    }
  }

  // ---------------------------------------------------------------------
  // RTTM rows
  // ---------------------------------------------------------------------

  /** One `SPEAKER` line: file, onset, duration and speaker label. */
  datatype RttmRow = RttmRow(file: string, onset: real, duration: real, speaker: string)

  function RttmRows(fn: string, es: seq<Entry>): (r: seq<RttmRow>)
    ensures |r| == |es|
    ensures forall k :: 0 <= k < |es| ==>
      r[k].file == fn && r[k].onset == es[k].start && r[k].onset + r[k].duration == es[k].end
      && r[k].speaker == es[k].speaker
  {
    seq(|es|, k requires 0 <= k < |es| => RttmRow(fn, es[k].start, es[k].end - es[k].start, es[k].speaker))
  }

  // ---------------------------------------------------------------------
  // Oracle voice activity
  // ---------------------------------------------------------------------

  /** The `start = -1` marker of "no pending interval". */
  const Unset: real := -1.0

  /** The loop's variables: the emitted labs, the pending start and the
      running end. */
  datatype LabState = LabState(labs: seq<Span>, start: real, end: real)

  const LabInit := LabState([], Unset, Unset)

  function Spans(es: seq<Entry>): (r: seq<Span>)
    ensures |r| == |es| && forall k :: 0 <= k < |es| ==> r[k] == Span(es[k].start, es[k].end)
  {
    seq(|es|, k requires 0 <= k < |es| => Span(es[k].start, es[k].end))
  }

  /** One iteration: an entry whose start and end both lie strictly inside
      emitted labs is skipped; otherwise it opens the pending interval if
      none is open and extends the running end, and the pending interval is
      emitted when the running end lies strictly inside no entry of `all`. */
  function LabStep(st: LabState, e: Span, all: seq<Span>): (r: LabState)
    ensures CheckOverlap(e.start, st.labs) && CheckOverlap(e.end, st.labs) ==> r == st
    ensures r.end >= st.end
    ensures |r.labs| == |st.labs| || |r.labs| == |st.labs| + 1
    ensures r.labs[..|st.labs|] == st.labs
    ensures |r.labs| == |st.labs| + 1 <==>
      !(CheckOverlap(e.start, st.labs) && CheckOverlap(e.end, st.labs)) && !CheckOverlap(r.end, all)
    ensures |r.labs| == |st.labs| + 1 ==>
      r.labs[|st.labs|] == Span(if st.start == Unset then e.start else st.start, r.end) && r.start == Unset
    ensures !(CheckOverlap(e.start, st.labs) && CheckOverlap(e.end, st.labs)) ==>
      r.end == (if st.end < e.end then e.end else st.end)
    ensures !(CheckOverlap(e.start, st.labs) && CheckOverlap(e.end, st.labs)) && |r.labs| == |st.labs| ==>
      r.start == (if st.start == Unset then e.start else st.start)
  {
    if CheckOverlap(e.start, st.labs) && CheckOverlap(e.end, st.labs) then st
    else
      var s := if st.start == Unset then e.start else st.start;
      var en := if st.end < e.end then e.end else st.end;
      if !CheckOverlap(en, all) then LabState(st.labs + [Span(s, en)], Unset, en)
      else LabState(st.labs, s, en)
  }

  /** The loop over the spans `es`, checking running ends against `all`. */
  function LabRun(es: seq<Span>, all: seq<Span>): LabState {
    if es == [] then LabInit else LabStep(LabRun(es[..|es| - 1], all), es[|es| - 1], all)
  }

  /** What the loop keeps: emitted labs run forwards (start not after end),
      their ends never decrease, are at most the running end, and lie
      strictly inside no entry; a pending start is not after the running
      end. */
  predicate LabInvariant(st: LabState, all: seq<Span>) {
    && (st.start == Unset || st.start <= st.end)
    && (forall k :: 0 <= k < |st.labs| ==> st.labs[k].start <= st.labs[k].end <= st.end)
    && (forall j, k :: 0 <= j < k < |st.labs| ==> st.labs[j].end <= st.labs[k].end)
    && (forall k :: 0 <= k < |st.labs| ==> !CheckOverlap(st.labs[k].end, all))
  }

  lemma LabStepInvariant(st: LabState, e: Span, all: seq<Span>)
    requires LabInvariant(st, all) && e.start <= e.end
    ensures LabInvariant(LabStep(st, e, all), all)
  {
  }

  /** For entries that run forwards, the loop keeps `LabInvariant`. */
  lemma {:induction false} LabRunInvariant(es: seq<Span>, all: seq<Span>)
    requires forall k :: 0 <= k < |es| ==> es[k].start <= es[k].end
    ensures LabInvariant(LabRun(es, all), all)
    decreases |es|
  {
    if es != [] {
      LabRunInvariant(es[..|es| - 1], all);
      LabStepInvariant(LabRun(es[..|es| - 1], all), es[|es| - 1], all);
    }
  }

  /** The labs written for a file: every one starts no later than it ends,
      ends strictly inside no entry, and their ends never decrease. */
  function LabList(es: seq<Entry>): (r: seq<Span>)
    ensures (forall k :: 0 <= k < |es| ==> es[k].start <= es[k].end) ==>
      && (forall k :: 0 <= k < |r| ==> r[k].start <= r[k].end && !CheckOverlap(r[k].end, Spans(es)))
      && (forall j, k :: 0 <= j < k < |r| ==> r[j].end <= r[k].end)
  {
    var spans := Spans(es);
    assert (forall k :: 0 <= k < |es| ==> es[k].start <= es[k].end) ==> LabInvariant(LabRun(spans, spans), spans) by {
      if forall k :: 0 <= k < |es| ==> es[k].start <= es[k].end {
        LabRunInvariant(spans, spans);
      }
    }
    LabRun(spans, spans).labs
  }

  // ---------------------------------------------------------------------
  // One file
  // ---------------------------------------------------------------------

  /** What is written for one file: the sorted entries, the RTTM rows
      unless disabled, the labs unless disabled. */
  datatype FileOutput = FileOutput(entries: seq<Entry>, rttm: Option<seq<RttmRow>>, labs: Option<seq<Span>>)

  /** The body of the per-file loop; `None` when no segment of the file is
      listed, in which case the file is not written to the split list. */
  function Preprocess(fn: string, segs: seq<DSegment>, listed: seq<nat>, opt: Options): (r: Option<FileOutput>)
    ensures r.None? <==> forall k :: 0 <= k < |segs| ==> segs[k].segmentIndex !in listed
    ensures r.Some? ==>
      && SortedByStart(r.value.entries)
      && multiset(r.value.entries) == multiset(BuildEntries(Select(segs, listed), opt.noTrack))
      && (r.value.rttm.Some? <==> !opt.noRttm)
      && (r.value.labs.Some? <==> !opt.noLab)
      && (r.value.rttm.Some? ==> |r.value.rttm.value| == |r.value.entries|)
    ensures r.Some? ==>
      && r.value.entries == SortByStart(BuildEntries(Select(segs, listed), opt.noTrack))
      && (r.value.rttm.Some? ==> r.value.rttm.value == RttmRows(fn, r.value.entries))
      && (r.value.labs.Some? ==> r.value.labs.value == LabList(r.value.entries))
  {
    var selected := Select(segs, listed);
    if selected == [] then None
    else
      var es := SortByStart(BuildEntries(selected, opt.noTrack));
      Some(FileOutput(
        es,
        if opt.noRttm then None else Some(RttmRows(fn, es)),
        if opt.noLab then None else Some(LabList(es))))
  }
}

=== FILE: paths.dfy ===
/** POSIX `os.path.join` and `os.path.splitext`, as the output naming and
    the temporary-file naming of the pipeline use them. */
module Paths {

  import opened PyStr

  /** `os.path.join(a, b)`: an absolute `b` wins; otherwise one '/' is
      inserted unless `a` is empty or already ends with '/'. */
  function Join(a: string, b: string): (r: string)
    ensures StartsWith(b, "/") ==> r == b
    ensures !StartsWith(b, "/") ==> r == a + b || r == a + "/" + b
  {
    if StartsWith(b, "/") then b
    else if a == [] || a[|a| - 1] == '/' then a + b
    else a + "/" + b
  }

  /** `os.path.join(p0, p1, ...)`. */
  function JoinAll(parts: seq<string>): string
    requires |parts| >= 1
  {
    if |parts| == 1 then parts[0] else Join(JoinAll(parts[..|parts| - 1]), parts[|parts| - 1])
  }

  /** `s.rfind(c)`: the last index of `c`, or -1. */
  function RFind(s: string, c: char): (i: int)
    ensures -1 <= i < |s|
    ensures 0 <= i ==> s[i] == c
    ensures forall k :: i < k < |s| ==> s[k] != c
  {
    if s == [] then -1
    else if s[|s| - 1] == c then |s| - 1
    else RFind(s[..|s| - 1], c)
  }

  /** The stem/extension split point: the last '.' after the last '/',
      provided the base name holds a character other than '.' before it
      (so `.bashrc` and `..` have no extension). */
  function ExtStart(p: string): (d: nat)
    ensures d <= |p|
  {
    var sep := RFind(p, '/');
    var dot := RFind(p, '.');
    if dot > sep && exists k :: sep < k < dot && p[k] != '.' then dot else |p|
  }

  /** `os.path.splitext(p)` as (root, ext). */
  function SplitExt(p: string): (r: (string, string))
    ensures r.0 + r.1 == p
    ensures r.1 == [] || (r.1[0] == '.' && '.' !in r.1[1..] && '/' !in r.1)
    ensures r.1 != [] ==> exists k :: 0 <= k < |r.0| && r.0[k] != '.' && '/' !in r.0[k..]
  {
    var d := ExtStart(p);
    ExtStartFacts(p);
    assert p[..d] + p[d..] == p;
    (p[..d], p[d..])
  }

  lemma ExtStartFacts(p: string)
    ensures var d := ExtStart(p);
      d == |p| || (p[d] == '.' && '.' !in p[d + 1..] && '/' !in p[d..]
                   && exists k :: 0 <= k < d && p[k] != '.' && '/' !in p[k..d])
  {
    var d := ExtStart(p);
    if d < |p| {
      var sep := RFind(p, '/');
      var k :| sep < k < d && p[k] != '.';
      assert forall j :: 0 <= j < |p[k..d]| ==> p[k..d][j] == p[k + j];
      assert forall j :: 0 <= j < |p[d..]| ==> p[d..][j] == p[d + j];
    }
  }

  /** An extension holds its '.' only in front, so two occurrences of it
      can never overlap. */
  lemma ExtensionUnbordered(ext: string)
    requires ext != [] && ext[0] == '.' && '.' !in ext[1..]
    ensures Unbordered(ext)
  {
    forall k | 0 < k < |ext|
      ensures ext[k..] != ext[..|ext| - k]
    {
      assert ext[k] in ext[1..];
      assert ext[..|ext| - k][0] == '.';
    }
  }
}

=== FILE: pystr.dfy ===
/** The parts of Python's `str`, `int()` and slicing semantics the pipeline
    relies on, restricted to ASCII: whitespace, case mapping and digits
    follow Python's rules for code points below 128. */
module PyStr {

  import opened Wrappers

  // ---------------------------------------------------------------------
  // Characters
  // ---------------------------------------------------------------------

  /** `str.isspace` on ASCII: space, \t \n \v \f \r and the separators 0x1C-0x1F. */
  predicate IsSpace(c: char) {
    c == ' ' || (9 <= c as int <= 13) || (28 <= c as int <= 31)
  }

  predicate NoSpace(s: string) {
    forall i :: 0 <= i < |s| ==> !IsSpace(s[i])
  }

  predicate IsDigit(c: char) {
    '0' <= c <= '9'
  }

  predicate AllDigits(s: string) {
    forall i :: 0 <= i < |s| ==> IsDigit(s[i])
  }

  predicate IsLowerLetter(c: char) {
    'a' <= c <= 'z'
  }

  predicate IsUpperLetter(c: char) {
    'A' <= c <= 'Z'
  }

  function LowerChar(c: char): char {
    if IsUpperLetter(c) then (c as int + 32) as char else c
  }

  function UpperChar(c: char): char {
    if IsLowerLetter(c) then (c as int - 32) as char else c
  }

  /** `str.lower()` on ASCII. */
  function Lower(s: string): (r: string)
    ensures |r| == |s|
    ensures forall i :: 0 <= i < |r| ==> !IsUpperLetter(r[i])
    ensures forall i :: 0 <= i < |r| ==> (r[i] == s[i] || (IsUpperLetter(s[i]) && r[i] as int == s[i] as int + 32))
  {
    seq(|s|, i requires 0 <= i < |s| => LowerChar(s[i]))
  }

  /** `str.upper()` on ASCII. */
  function Upper(s: string): (r: string)
    ensures |r| == |s|
    ensures forall i :: 0 <= i < |r| ==> !IsLowerLetter(r[i])
    ensures forall i :: 0 <= i < |r| ==> (r[i] == s[i] || (IsLowerLetter(s[i]) && r[i] as int + 32 == s[i] as int))
  {
    seq(|s|, i requires 0 <= i < |s| => UpperChar(s[i]))
  }

  /** Case mapping changes letters only: a character that is neither a
      letter nor whitespace survives it at the same position. */
  lemma CaseKeepsNonLetters(s: string, i: nat)
    requires i < |s| && !IsLowerLetter(s[i]) && !IsUpperLetter(s[i])
    ensures Upper(s)[i] == s[i] && Lower(s)[i] == s[i]
  {
  }

  // ---------------------------------------------------------------------
  // Python's int(): truncation toward zero
  // ---------------------------------------------------------------------

  /** `int(x)` for a float: truncation toward zero (not Dafny's floor). */
  function Trunc(x: real): (r: int)
    ensures 0.0 <= x ==> 0 <= r && r as real <= x < r as real + 1.0
    ensures x < 0.0 ==> r <= 0 && x <= r as real < x + 1.0
  {
    if 0.0 <= x then x.Floor else -((-x).Floor)
  }

  // ---------------------------------------------------------------------
  // strip / split / join
  // ---------------------------------------------------------------------

  /** `str.lstrip()`: the longest suffix not starting with whitespace. */
  function LStrip(s: string): (r: string)
    ensures |r| <= |s| && r == s[|s| - |r|..]
    ensures r == [] || !IsSpace(r[0])
    ensures forall i :: 0 <= i < |s| - |r| ==> IsSpace(s[i])
  {
    if s != [] && IsSpace(s[0]) then
      var r := LStrip(s[1..]);
      assert s[1..][|s| - 1 - |r|..] == s[|s| - |r|..];
      assert forall i :: 1 <= i < |s| ==> s[1..][i - 1] == s[i];
      r
    else s
  }

  /** `str.rstrip()`: the longest prefix not ending with whitespace. */
  function RStrip(s: string): (r: string)
    ensures |r| <= |s| && r == s[..|r|]
    ensures r == [] || !IsSpace(r[|r| - 1])
    ensures forall i :: |r| <= i < |s| ==> IsSpace(s[i])
  {
    if s != [] && IsSpace(s[|s| - 1]) then RStrip(s[..|s| - 1]) else s
  }

  /** `str.strip()`: an infix of `s`, with only whitespace cut on either side. */
  function Strip(s: string): (r: string)
    ensures |r| <= |s| - StripStart(s)
    ensures r == s[StripStart(s)..StripStart(s) + |r|]
    ensures forall i :: 0 <= i < StripStart(s) ==> IsSpace(s[i])
    ensures forall i :: StripStart(s) + |r| <= i < |s| ==> IsSpace(s[i])
    ensures r == [] || (!IsSpace(r[0]) && !IsSpace(r[|r| - 1]))
  {
    RStrip(LStrip(s))
  }

  /** Where the text kept by `Strip` begins. */
  function StripStart(s: string): (a: nat)
    ensures a <= |s|
  {
    |s| - |LStrip(s)|
  }

  lemma StripNoSpace(s: string)
    requires NoSpace(s)
    ensures Strip(s) == s
  {
  }

  /** The index of the first whitespace character at or after `i`, or |s|. */
  function WordEnd(s: string, i: nat): (k: nat)
    requires i <= |s|
    ensures i <= k <= |s|
    ensures forall j :: i <= j < k ==> !IsSpace(s[j])
    ensures k == |s| || IsSpace(s[k])
    decreases |s| - i
  {
    if i == |s| || IsSpace(s[i]) then i else WordEnd(s, i + 1)
  }

  /** `str.split()` with no argument: the maximal whitespace-free runs. */
  function SplitWs(s: string): (ws: seq<string>)
    ensures Words(ws)
    decreases |s|
  {
    if s == [] then []
    else if IsSpace(s[0]) then SplitWs(s[1..])
    else
      var k := WordEnd(s, 0);
      var w := s[..k];
      assert NoSpace(w) by {
        forall j | 0 <= j < |w| ensures !IsSpace(w[j]) {
          assert w[j] == s[j];
        }
      }
      WordsCons(w, SplitWs(s[k..]));
      [w] + SplitWs(s[k..])
  }

  lemma WordsCons(w: string, rest: seq<string>)
    requires w != [] && NoSpace(w) && Words(rest)
    ensures Words([w] + rest)
  {
    forall k | 0 <= k < |[w] + rest|
      ensures ([w] + rest)[k] != [] && NoSpace(([w] + rest)[k])
    {
      if k > 0 {
        assert ([w] + rest)[k] == rest[k - 1];
      }
    }
  }

  /** `sep.join(ws)`. */
  function Join(ws: seq<string>, sep: string): string {
    if |ws| == 0 then ""
    else if |ws| == 1 then ws[0]
    else ws[0] + sep + Join(ws[1..], sep)
  }

  /** The non-whitespace characters of `s`, in order. */
  function NonSpace(s: string): string {
    if s == [] then [] else (if IsSpace(s[0]) then [] else [s[0]]) + NonSpace(s[1..])
  }

  function Concat(ws: seq<string>): string {
    if ws == [] then [] else ws[0] + Concat(ws[1..])
  }

  lemma {:induction false} NonSpaceAppend(a: string, b: string)
    ensures NonSpace(a + b) == NonSpace(a) + NonSpace(b)
    decreases |a|
  {
    if a != [] {
      assert (a + b)[1..] == a[1..] + b;
      NonSpaceAppend(a[1..], b);
    } else {
      assert a + b == b;
    }
  }

  lemma {:induction false} NonSpaceOfWord(s: string)
    requires NoSpace(s)
    ensures NonSpace(s) == s
    decreases |s|
  {
    if s != [] {
      NonSpaceOfWord(s[1..]);
    }
  }

  /** `str.split()` loses whitespace only: the words, concatenated, are
      exactly the non-whitespace characters of the input in order. */
  lemma {:induction false} SplitWsKeepsContent(s: string)
    ensures Concat(SplitWs(s)) == NonSpace(s)
    decreases |s|
  {
    if s != [] {
      if IsSpace(s[0]) {
        SplitWsKeepsContent(s[1..]);
      } else {
        var k := WordEnd(s, 0);
        assert s == s[..k] + s[k..];
        NonSpaceAppend(s[..k], s[k..]);
        NonSpaceOfWord(s[..k]);
        SplitWsKeepsContent(s[k..]);
      }
    }
  }

  /** Single-space separated, no leading or trailing whitespace, and no
      whitespace other than the separating spaces. */
  predicate Collapsed(r: string) {
    forall i :: 0 <= i < |r| && IsSpace(r[i]) ==>
      r[i] == ' ' && 0 < i && i + 1 < |r| && !IsSpace(r[i - 1]) && !IsSpace(r[i + 1])
  }

  predicate Words(ws: seq<string>) {
    forall k :: 0 <= k < |ws| ==> ws[k] != [] && NoSpace(ws[k])
  }

  lemma {:induction false} JoinWordsCollapsed(ws: seq<string>)
    requires Words(ws)
    ensures Collapsed(Join(ws, " "))
    ensures |ws| > 0 ==> Join(ws, " ") != [] && !IsSpace(Join(ws, " ")[0])
    ensures |ws| > 0 ==> !IsSpace(Join(ws, " ")[|Join(ws, " ")| - 1])
    decreases |ws|
  {
    if |ws| > 1 {
      JoinWordsCollapsed(ws[1..]);
      var rest := Join(ws[1..], " ");
      var j := Join(ws, " ");
      assert j == ws[0] + " " + rest;
      forall i | 0 <= i < |j| && IsSpace(j[i])
        ensures j[i] == ' ' && 0 < i && i + 1 < |j| && !IsSpace(j[i - 1]) && !IsSpace(j[i + 1])
      {
        if i > |ws[0]| {
          var m := i - |ws[0]| - 1;
          assert j[i] == rest[m];
          assert j[i - 1] == (if m == 0 then ' ' else rest[m - 1]);
          assert m + 1 < |rest| && j[i + 1] == rest[m + 1];
        }
      }
    }
  }

  /** `' '.join(s.split())`: whitespace collapsed to single spaces. */
  function CollapseWs(s: string): (r: string)
    ensures Collapsed(r)
  {
    JoinWordsCollapsed(SplitWs(s));
    Join(SplitWs(s), " ")
  }

  lemma {:induction false} JoinSpaceChars(ws: seq<string>, c: char)
    requires c in Join(ws, " ") && c != ' '
    ensures c in Concat(ws)
    decreases |ws|
  {
    if |ws| > 1 {
      if c !in ws[0] {
        JoinSpaceChars(ws[1..], c);
      }
    }
  }

  lemma {:induction false} NonSpaceChars(s: string, c: char)
    requires c in NonSpace(s)
    ensures c in s
    decreases |s|
  {
    if s[0] != c {
      NonSpaceChars(s[1..], c);
    }
  }

  /** Collapsing whitespace introduces no character other than ' '. */
  lemma CollapseWsChars(s: string, c: char)
    requires c in CollapseWs(s) && c != ' '
    ensures c in s
  {
    JoinSpaceChars(SplitWs(s), c);
    SplitWsKeepsContent(s);
    NonSpaceChars(s, c);
  }

  /** `s.split(c)`: always at least one part, and no part holds `c`. */
  function SplitOn(s: string, c: char): (parts: seq<string>)
    ensures |parts| >= 1
    ensures c in s ==> |parts| >= 2
    ensures forall k :: 0 <= k < |parts| ==> c !in parts[k]
    decreases |s|
  {
    if c !in s then [s]
    else
      var i := IndexOf(s, c);
      [s[..i]] + SplitOn(s[i + 1..], c)
  }

  function IndexOf(s: string, c: char): (i: nat)
    requires c in s
    ensures i < |s| && s[i] == c && c !in s[..i]
  {
    if s[0] == c then 0 else 1 + IndexOf(s[1..], c)
  }

  /** Splitting on a character and joining back with it is the identity. */
  lemma {:induction false} SplitOnJoin(s: string, c: char)
    ensures Join(SplitOn(s, c), [c]) == s
    decreases |s|
  {
    if c in s {
      var i := IndexOf(s, c);
      SplitOnJoin(s[i + 1..], c);
      assert s == s[..i] + [c] + s[i + 1..];
    }
  }

  // ---------------------------------------------------------------------
  // str.replace and `in`
  // ---------------------------------------------------------------------

  function StartsWith(s: string, p: string): bool {
    |p| <= |s| && s[..|p|] == p
  }

  /** `sub in s`; the empty string is in every string. */
  function Contains(s: string, sub: string): bool
    decreases |s|
  {
    StartsWith(s, sub) || (s != [] && Contains(s[1..], sub))
  }

  function Interleave(s: string, rep: string): string {
    if s == [] then [] else [s[0]] + rep + Interleave(s[1..], rep)
  }

  /** `s.replace(pat, rep)`: every non-overlapping occurrence, scanned left
      to right; an empty pattern inserts `rep` around every character. */
  function Replace(s: string, pat: string, rep: string): string
    decreases |s|
  {
    if pat == [] then rep + Interleave(s, rep)
    else if |s| < |pat| then s
    else if s[..|pat|] == pat then rep + Replace(s[|pat|..], pat, rep)
    else [s[0]] + Replace(s[1..], pat, rep)
  }

  /** Replacing one character: every character of the result is either a
      character of `s` other than `c`, or comes from `rep`. */
  lemma {:induction false} ReplaceCharSpec(s: string, c: char, rep: string, x: char)
    requires x in Replace(s, [c], rep)
    ensures (x in s && x != c) || x in rep
    decreases |s|
  {
    if |s| >= 1 {
      var r := Replace(s[1..], [c], rep);
      if s[..1] == [c] {
        assert Replace(s, [c], rep) == rep + r;
        if x !in rep {
          ReplaceCharSpec(s[1..], c, rep, x);
        }
      } else {
        assert Replace(s, [c], rep) == [s[0]] + r;
        if x != s[0] {
          ReplaceCharSpec(s[1..], c, rep, x);
        }
      }
    }
  }

  /** A character that does not occur in `s` leaves `s` unchanged. */
  lemma {:induction false} ReplaceAbsentChar(s: string, c: char, rep: string)
    requires c !in s
    ensures Replace(s, [c], rep) == s
    decreases |s|
  {
    if |s| >= 1 {
      assert s[..1] == [s[0]];
      ReplaceAbsentChar(s[1..], c, rep);
    }
  }

  /** A pattern that does not occur leaves the string unchanged. */
  lemma {:induction false} ReplaceAbsent(s: string, pat: string, rep: string)
    requires pat != [] && !Contains(s, pat)
    ensures Replace(s, pat, rep) == s
    decreases |s|
  {
    if |s| >= |pat| {
      assert !StartsWith(s, pat);
      ReplaceAbsent(s[1..], pat, rep);
      assert [s[0]] + s[1..] == s;
    }
  }

  /** `s.replace(c, "")`: every occurrence of `c` removed, the rest kept in order. */
  function RemoveChar(s: string, c: char): (r: string)
    ensures |r| <= |s|
    ensures forall i :: 0 <= i < |r| ==> r[i] != c && r[i] in s
  {
    if s == [] then [] else (if s[0] == c then [] else [s[0]]) + RemoveChar(s[1..], c)
  }

  /** Every character other than `c` survives its removal. */
  lemma {:induction false} RemoveCharKeeps(s: string, c: char, x: char)
    requires x in s && x != c
    ensures x in RemoveChar(s, c)
  {
    if s[0] != x {
      RemoveCharKeeps(s[1..], c, x);
    }
  }

  /** `s.replace(c, d)` for single characters: a character-wise substitution. */
  function ReplaceChar(s: string, c: char, d: char): (r: string)
    ensures |r| == |s|
    ensures forall i :: 0 <= i < |s| ==> r[i] == (if s[i] == c then d else s[i])
  {
    seq(|s|, i requires 0 <= i < |s| => if s[i] == c then d else s[i])
  }

  /** `RemoveChar` is what Python's `replace` does with a one-character
      pattern and an empty replacement. */
  lemma {:induction false} RemoveCharIsReplace(s: string, c: char)
    ensures RemoveChar(s, c) == Replace(s, [c], "")
    decreases |s|
  {
    if s != [] {
      assert s[..1] == [s[0]];
      RemoveCharIsReplace(s[1..], c);
    }
  }

  /** `ReplaceChar` is what Python's `replace` does with one-character
      pattern and replacement. */
  lemma {:induction false} ReplaceCharIsReplace(s: string, c: char, d: char)
    ensures ReplaceChar(s, c, d) == Replace(s, [c], [d])
    decreases |s|
  {
    if s != [] {
      assert s[..1] == [s[0]];
      ReplaceCharIsReplace(s[1..], c, d);
      assert ReplaceChar(s, c, d) == [ReplaceChar(s, c, d)[0]] + ReplaceChar(s[1..], c, d);
    }
  }

  /** A leading `c` is deleted. */
  lemma RemoveCharHead(c: char, s: string)
    ensures RemoveChar([c] + s, c) == RemoveChar(s, c)
  {
    assert ([c] + s)[1..] == s;
  }

  /** Deleting from `s + [x]`: `x` survives unless it is `c`. */
  lemma RemoveCharSnoc(s: string, x: char, c: char)
    ensures RemoveChar(s + [x], c) == RemoveChar(s, c) + (if x == c then [] else [x])
  {
    RemoveCharAppend(s, [x], c);
    assert [x][1..] == [];
  }

  lemma {:induction false} RemoveCharAppend(a: string, b: string, c: char)
    ensures RemoveChar(a + b, c) == RemoveChar(a, c) + RemoveChar(b, c)
    decreases |a|
  {
    if a == [] {
      assert a + b == b;
    } else {
      assert (a + b)[1..] == a[1..] + b;
      RemoveCharAppend(a[1..], b, c);
    }
  }

  lemma {:induction false} RemoveCharAbsent(s: string, c: char)
    requires c !in s
    ensures RemoveChar(s, c) == s
    decreases |s|
  {
    if s != [] {
      RemoveCharAbsent(s[1..], c);
      assert [s[0]] + s[1..] == s;
    }
  }

  /** Deleting a character no word holds deletes it from the separators only. */
  lemma {:induction false} RemoveCharJoin(ws: seq<string>, sep: string, c: char)
    requires forall k :: 0 <= k < |ws| ==> c !in ws[k]
    ensures RemoveChar(Join(ws, sep), c) == Join(ws, RemoveChar(sep, c))
    decreases |ws|
  {
    if |ws| == 1 {
      RemoveCharAbsent(ws[0], c);
    } else if |ws| > 1 {
      RemoveCharJoin(ws[1..], sep, c);
      RemoveCharAbsent(ws[0], c);
      RemoveCharAppend(ws[0] + sep, Join(ws[1..], sep), c);
      RemoveCharAppend(ws[0], sep, c);
    }
  }

  /** Joining parts free of `c` with `c` and splitting on `c` gives the
      parts back. */
  lemma {:induction false} JoinSplitOn(ws: seq<string>, c: char)
    requires |ws| >= 1 && forall k :: 0 <= k < |ws| ==> c !in ws[k]
    ensures SplitOn(Join(ws, [c]), c) == ws
    decreases |ws|
  {
    if |ws| > 1 {
      var rest := Join(ws[1..], [c]);
      assert Join(ws, [c]) == ws[0] + [c] + rest;
      SplitOnCons(ws[0], rest, c);
      JoinSplitOn(ws[1..], c);
      assert [ws[0]] + ws[1..] == ws;
    }
  }

  /** Splitting `a + c + rest` on `c`, with no `c` in `a`, yields `a` first. */
  lemma SplitOnCons(a: string, rest: string, c: char)
    requires c !in a
    ensures SplitOn(a + [c] + rest, c) == [a] + SplitOn(rest, c)
  {
    var s := a + [c] + rest;
    IndexOfAppend(a + [c], rest, c);
    IndexOfAfter(a, c);
    assert s[..|a|] == a;
    assert s[|a| + 1..] == rest;
  }

  lemma {:induction false} IndexOfAppend(a: string, b: string, c: char)
    requires c in a
    ensures c in a + b && IndexOf(a + b, c) == IndexOf(a, c)
  {
    if a[0] != c {
      assert (a + b)[1..] == a[1..] + b;
      IndexOfAppend(a[1..], b, c);
    }
  }

  lemma {:induction false} IndexOfAfter(a: string, c: char)
    requires c !in a
    ensures IndexOf(a + [c], c) == |a|
  {
    if a != [] {
      assert (a + [c])[1..] == a[1..] + [c];
      IndexOfAfter(a[1..], c);
    }
  }

  lemma LowerNoUpper(s: string)
    requires forall i :: 0 <= i < |s| ==> !IsUpperLetter(s[i])
    ensures Lower(s) == s
  {
  }

  /** No proper suffix of `p` is also a prefix of it, so two occurrences of
      `p` can never overlap. */
  predicate Unbordered(p: string) {
    forall k :: 0 < k < |p| ==> p[k..] != p[..|p| - k]
  }

  /** When `pat` occurs only at the very end of `s`, `replace` rewrites just
      that occurrence: this is how a file extension is swapped. */
  lemma {:induction false} ReplaceAtEnd(p: string, pat: string, rep: string)
    requires pat != [] && Unbordered(pat) && !Contains(p, pat)
    ensures Replace(p + pat, pat, rep) == p + rep
    decreases |p|
  {
    var s := p + pat;
    if p == [] {
      assert s == pat;
      assert s[|pat|..] == [];
    } else {
      NoMatchBeforeEnd(p, pat);
      assert s[1..] == p[1..] + pat;
      ReplaceAtEnd(p[1..], pat, rep);
      calc {
        Replace(s, pat, rep);
        [s[0]] + Replace(s[1..], pat, rep);
        [p[0]] + (p[1..] + rep);
        { assert [p[0]] + p[1..] == p; }
        p + rep;
      }
    }
  }

  /** An unbordered pattern absent from non-empty `p` cannot match at the
      start of `p + pat`, neither inside `p` nor straddling its end. */
  lemma NoMatchBeforeEnd(p: string, pat: string)
    requires p != [] && Unbordered(pat) && !Contains(p, pat)
    ensures (p + pat)[..|pat|] != pat
  {
    var s := p + pat;
    if |p| >= |pat| {
      assert s[..|pat|] == p[..|pat|];
      assert !StartsWith(p, pat);
    } else {
      var k := |p|;
      assert s[..|pat|][k..] == pat[..|pat| - k];
      assert pat[k..] != pat[..|pat| - k];
    }
  }

  /** A string contains each of its suffixes. */
  lemma {:induction false} ContainsSuffix(p: string, suffix: string)
    ensures Contains(p + suffix, suffix)
    decreases |p|
  {
    if p == [] {
      assert p + suffix == suffix;
    } else {
      assert (p + suffix)[1..] == p[1..] + suffix;
      ContainsSuffix(p[1..], suffix);
    }
  }

  lemma {:induction false} InterleaveLength(s: string, rep: string)
    ensures |Interleave(s, rep)| == |s| * (|rep| + 1)
  {
    if s != [] {
      InterleaveLength(s[1..], rep);
    }
  }

  /** Replacing something that occurs by something that starts differently
      changes the string: the first occurrence's first character changes
      and nothing before it does. An empty pattern with a non-empty
      replacement lengthens the string. */
  lemma {:induction false} ReplaceChanges(s: string, pat: string, rep: string)
    requires rep != []
    requires pat == [] || (Contains(s, pat) && rep[0] != pat[0])
    ensures Replace(s, pat, rep) != s
    decreases |s|
  {
    if pat == [] {
      InterleaveLength(s, rep);
      assert |Replace(s, pat, rep)| > |s|;
    } else if |s| < |pat| {
      ContainsShort(s, pat);
      assert false;
    } else if s[..|pat|] == pat {
      assert Replace(s, pat, rep)[0] == rep[0];
      assert s[0] == pat[0];
    } else {
      assert !StartsWith(s, pat);
      ReplaceChanges(s[1..], pat, rep);
      assert Replace(s, pat, rep) == [s[0]] + Replace(s[1..], pat, rep);
      assert Replace(s, pat, rep)[1..] == Replace(s[1..], pat, rep);
    }
  }

  /** A non-empty pattern longer than the string never occurs in it. */
  lemma {:induction false} ContainsShort(s: string, pat: string)
    requires pat != [] && |s| < |pat|
    ensures !Contains(s, pat)
    decreases |s|
  {
    if s != [] {
      ContainsShort(s[1..], pat);
    }
  }

  // ---------------------------------------------------------------------
  // Decimal digits: str(n), '{:0Nd}'.format(n), int(s)
  // ---------------------------------------------------------------------

  function DigitChar(d: nat): (c: char)
    requires d < 10
    ensures IsDigit(c)
  {
    ('0' as int + d) as char
  }

  function DigitValue(c: char): (d: nat)
    requires IsDigit(c)
    ensures d < 10
  {
    c as int - '0' as int
  }

  /** `str(n)` for a non-negative integer: no leading zeros. */
  function NatToString(n: nat): (s: string)
    ensures |s| >= 1 && AllDigits(s)
    ensures |s| > 1 ==> s[0] != '0'
  {
    if n < 10 then [DigitChar(n)] else NatToString(n / 10) + [DigitChar(n % 10)]
  }

  /** The value of a string of decimal digits (leading zeros allowed). */
  function ParseDigits(s: string): nat
    requires AllDigits(s)
  {
    if s == [] then 0 else ParseDigits(s[..|s| - 1]) * 10 + DigitValue(s[|s| - 1])
  }

  lemma {:induction false} ParseNatToString(n: nat)
    ensures ParseDigits(NatToString(n)) == n
  {
    if n >= 10 {
      var s := NatToString(n);
      assert s[..|s| - 1] == NatToString(n / 10);
      ParseNatToString(n / 10);
    }
  }

  function Zeros(k: nat): (s: string)
    ensures |s| == k && AllDigits(s)
    ensures forall i :: 0 <= i < k ==> s[i] == '0'
  {
    seq(k, i => '0')
  }

  lemma {:induction false} ParseLeadingZeros(k: nat, d: string)
    requires AllDigits(d)
    ensures ParseDigits(Zeros(k) + d) == ParseDigits(d)
    decreases |d|
  {
    if d == [] {
      ParseZeros(k);
      assert Zeros(k) + d == Zeros(k);
    } else {
      var s := Zeros(k) + d;
      assert s[..|s| - 1] == Zeros(k) + d[..|d| - 1];
      ParseLeadingZeros(k, d[..|d| - 1]);
    }
  }

  lemma {:induction false} ParseZeros(k: nat)
    ensures ParseDigits(Zeros(k)) == 0
  {
    if k > 0 {
      assert Zeros(k)[..k - 1] == Zeros(k - 1);
      ParseZeros(k - 1);
    }
  }

  /** `'{:0Nd}'.format(n)` for a non-negative `n`: zero-padded to at least
      `width` digits, never truncated. */
  function ZeroPad(n: nat, width: nat): (s: string)
    ensures AllDigits(s)
    ensures |s| == if |NatToString(n)| >= width then |NatToString(n)| else width
  {
    var d := NatToString(n);
    if |d| >= width then d else Zeros(width - |d|) + d
  }

  /** Zero-padding loses nothing: the digits read back as `n`. */
  lemma ZeroPadRoundTrip(n: nat, width: nat)
    ensures ParseDigits(ZeroPad(n, width)) == n
  {
    var d := NatToString(n);
    ParseNatToString(n);
    if |d| < width {
      PaddedParse(width - |d|, d, ZeroPad(n, width));
    }
  }

  lemma PaddedParse(k: nat, d: string, z: string)
    requires AllDigits(d) && z == Zeros(k) + d
    ensures AllDigits(z) && ParseDigits(z) == ParseDigits(d)
  {
    ParseLeadingZeros(k, d);
  }

  /** Distinct numbers get distinct padded strings. */
  lemma ZeroPadInjective(m: nat, n: nat, width: nat)
    requires m != n
    ensures ZeroPad(m, width) != ZeroPad(n, width)
  {
    ZeroPadRoundTrip(m, width);
    ZeroPadRoundTrip(n, width);
  }

  /** `int(s)` for a string that, once stripped, is a non-empty run of ASCII
      digits; anything else raises ValueError (None). */
  function ParseInt(s: string): (r: Option<nat>)
    ensures r.Some? <==> (Strip(s) != [] && AllDigits(Strip(s)))
  {
    var t := Strip(s);
    if t != [] && AllDigits(t) then Some(ParseDigits(t)) else None
  }

  lemma ParseIntOfNatToString(n: nat)
    ensures ParseInt(NatToString(n)) == Some(n)
  {
    var s := NatToString(n);
    assert NoSpace(s);
    StripNoSpace(s);
    ParseNatToString(n);
  }

  // ---------------------------------------------------------------------
  // Slicing
  // ---------------------------------------------------------------------

  /** How a Python slice bound is normalised against a length `n`:
      negative bounds count from the end, then everything is clamped. */
  function SliceBound(i: int, n: nat): (b: nat)
    ensures b <= n
    ensures 0 <= i <= n ==> b == i
  {
    if i < 0 then (if i + n < 0 then 0 else i + n) else if i > n then n else i
  }

  /** `s[i:j]` with Python's semantics (never raises). */
  function Slice<T>(s: seq<T>, i: int, j: int): (r: seq<T>)
    ensures 0 <= i <= j <= |s| ==> r == s[i..j]
    ensures |r| <= |s|
  {
    var a := SliceBound(i, |s|);
    var b := SliceBound(j, |s|);
    if a <= b then s[a..b] else []
  }
}

=== FILE: script_utils.dfy ===
/** `Script_Generator`: transcript normalisation. A transcript is scanned
    into tokens; each stage rewrites, keeps or drops tokens by the marker
    character they hold and joins the result with single spaces; the last
    steps fix case, apostrophes, hyphens and whitespace. Modes are the
    configured strings, and an unknown mode raises only when a stage meets
    a token it would have to rewrite (the inaudible stage checks its mode
    up front). */
module ScriptUtils {

  import opened Wrappers
  import opened PyStr
  import opened Tokens

  // ---------------------------------------------------------------------
  // Configuration
  // ---------------------------------------------------------------------

  /** A list option as YAML or argparse hand it over: a real list, or its
      string form such as "[hmm, Uh]". */
  datatype ListOption = AsList(items: seq<string>) | AsText(text: string)

  /** The string form with '[', ']' and ' ' deleted. */
  function Cleaned(text: string): string {
    RemoveChar(RemoveChar(RemoveChar(text, '['), ']'), ' ')
  }

  /** `__init__`'s handling of an interjection list: a string is cleaned and
      split on ',', then every entry is stripped and lower-cased. */
  function ParseList(o: ListOption): (r: seq<string>)
    ensures o.AsList? ==> |r| == |o.items|
    ensures o.AsText? ==> |r| == |SplitOn(Cleaned(o.text), ',')| >= 1
    ensures forall k :: 0 <= k < |r| ==> forall i :: 0 <= i < |r[k]| ==> !IsUpperLetter(r[k][i])
  {
    var raw := if o.AsList? then o.items else SplitOn(Cleaned(o.text), ',');
    seq(|raw|, k requires 0 <= k < |raw| => Lower(Strip(raw[k])))
  }

  /** Lower-case words without whitespace, brackets or commas survive being
      written out as "[w1, w2, ...]" and parsed back. */
  lemma ParseListText(ws: seq<string>)
    requires |ws| >= 1
    requires forall k :: 0 <= k < |ws| ==>
      NoSpace(ws[k]) && ',' !in ws[k] && '[' !in ws[k] && ']' !in ws[k] &&
      forall i :: 0 <= i < |ws[k]| ==> !IsUpperLetter(ws[k][i])
    ensures ParseList(AsText("[" + Join(ws, ", ") + "]")) == ws
  {
    CleanedList(ws);
    JoinSplitOn(ws, ',');
    var r := ParseList(AsText("[" + Join(ws, ", ") + "]"));
    assert |r| == |ws|;
    forall k | 0 <= k < |ws| ensures r[k] == ws[k] {
      StripNoSpace(ws[k]);
      LowerNoUpper(ws[k]);
    }
  }

  /** Cleaning "[w1, w2, ...]" leaves "w1,w2,...". */
  lemma CleanedList(ws: seq<string>)
    requires forall k :: 0 <= k < |ws| ==> NoSpace(ws[k]) && '[' !in ws[k] && ']' !in ws[k]
    ensures Cleaned("[" + Join(ws, ", ") + "]") == Join(ws, ",")
  {
    var j := Join(ws, ", ");
    JoinNoBracket(ws, '[');
    JoinNoBracket(ws, ']');
    Unbracket(j);
    JoinDropSpace(ws);
  }

  lemma JoinNoBracket(ws: seq<string>, c: char)
    requires c == '[' || c == ']'
    requires forall k :: 0 <= k < |ws| ==> c !in ws[k]
    ensures RemoveChar(Join(ws, ", "), c) == Join(ws, ", ")
  {
    RemoveCharAbsent(", ", c);
    RemoveCharJoin(ws, ", ", c);
  }

  lemma JoinDropSpace(ws: seq<string>)
    requires forall k :: 0 <= k < |ws| ==> NoSpace(ws[k])
    ensures RemoveChar(Join(ws, ", "), ' ') == Join(ws, ",")
  {
    assert forall k :: 0 <= k < |ws| ==> ' ' !in ws[k];
    RemoveCharAppend(",", " ", ' ');
    RemoveCharAbsent(",", ' ');
    assert ", " == "," + " ";
    assert RemoveChar(" ", ' ') == [];
    RemoveCharJoin(ws, ", ", ' ');
  }

  lemma Unbracket(j: string)
    requires RemoveChar(j, '[') == j && RemoveChar(j, ']') == j
    ensures RemoveChar(RemoveChar("[" + j + "]", '['), ']') == j
  {
    Unwrap(j, '[', ']');
  }

  /** An empty list written as text parses to one empty entry. */
  lemma ParseEmptyListText()
    ensures ParseList(AsText("[]")) == [""]
  {
    assert Cleaned("[]") == "" by {
      Unbracket("");
      assert "[" + "" + "]" == "[]";
      assert RemoveChar("", ' ') == "";
    }
    assert SplitOn("", ',') == [""];
    assert Lower(Strip("")) == "";
  }

  /** The generator's settings, interjection lists already parsed. */
  datatype Config = Config(
    capitalize: bool, apostrophe: bool, hyphen: bool,
    numericFormat: string, abbreviationSpace: bool,
    inaudibleProcess: string, uncertainProcess: string,
    diffluencyProcess: string, interjectionProcess: string,
    interjectionToWord: seq<string>, interjectionToToken: seq<string>, interjectionToDrop: seq<string>,
    inaudibleToken: string, uncertainToken: string, diffluencyToken: string, interjectionToken: string)

  /** `self.tokens`: the replacement tokens, exempt from the diffluency stage. */
  function SpecialTokens(c: Config): seq<string> {
    [c.inaudibleToken, c.uncertainToken, c.diffluencyToken, c.interjectionToken]
  }

  /** A stage mode that selects one of the three token treatments. */
  predicate ValidMode(m: string) {
    m == "word" || m == "drop" || m == "token"
  }

  datatype ScriptError =
    | InvalidNumericFormat
    | InvalidInaudibleProcess
    | InvalidUncertainProcess
    | InvalidDiffluencyProcess
    | InvalidInterjectionProcess

  // ---------------------------------------------------------------------
  // The token loop
  // ---------------------------------------------------------------------

  /** A stage's loop over its tokens: each token becomes zero or more
      tokens, in order; the first raise ends the stage. */
  function Rewrite(f: string -> Result<seq<string>, ScriptError>, ts: seq<string>)
    : (r: Result<seq<string>, ScriptError>)
    ensures r.Success? <==> forall k :: 0 <= k < |ts| ==> f(ts[k]).Success?
    ensures r.Failure? ==> exists k :: 0 <= k < |ts| && f(ts[k]) == Failure(r.error)
  {
    if ts == [] then Success([])
    else
      var h :- f(ts[0]);
      var rest :- Rewrite(f, ts[1..]);
      assert forall k :: 1 <= k < |ts| ==> ts[k] == ts[1..][k - 1];
      Success(h + rest)
  }

  /** The tokens `keep` accepts, in order. */
  function Filter(keep: string -> bool, ts: seq<string>): (r: seq<string>)
    ensures |r| <= |ts|
    ensures forall k :: 0 <= k < |r| ==> keep(r[k]) && r[k] in ts
  {
    if ts == [] then []
    else (if keep(ts[0]) then [ts[0]] else []) + Filter(keep, ts[1..])
  }

  /** A loop that keeps or drops each token whole is a filter. */
  lemma {:induction false} RewriteFilter(f: string -> Result<seq<string>, ScriptError>, keep: string -> bool,
                                         ts: seq<string>)
    requires forall k :: 0 <= k < |ts| ==> f(ts[k]) == Success(if keep(ts[k]) then [ts[k]] else [])
    ensures Rewrite(f, ts) == Success(Filter(keep, ts))
  {
    if ts != [] {
      assert forall k :: 0 <= k < |ts[1..]| ==> ts[1..][k] == ts[k + 1];
      RewriteFilter(f, keep, ts[1..]);
    }
  }

  /** A loop that rewrites each token into exactly one is a map. */
  lemma {:induction false} RewriteMap(f: string -> Result<seq<string>, ScriptError>, g: string -> string,
                                      ts: seq<string>)
    requires forall k :: 0 <= k < |ts| ==> f(ts[k]) == Success([g(ts[k])])
    ensures Rewrite(f, ts).Success?
    ensures |Rewrite(f, ts).value| == |ts|
    ensures forall k :: 0 <= k < |ts| ==> Rewrite(f, ts).value[k] == g(ts[k])
  {
    if ts != [] {
      assert forall k :: 0 <= k < |ts[1..]| ==> ts[1..][k] == ts[k + 1];
      RewriteMap(f, g, ts[1..]);
      var rest := Rewrite(f, ts[1..]).value;
      assert Rewrite(f, ts).value == [g(ts[0])] + rest;
    }
  }

  /** The transcript's tokens. */
  function Scan(txt: string): seq<string> {
    FindAll(ScriptRun, txt)
  }

  /** Run a stage's loop over the transcript and join the survivors. */
  function Stage(f: string -> Result<seq<string>, ScriptError>, txt: string): (r: Result<string, ScriptError>)
    ensures r.Success? <==> Rewrite(f, Scan(txt)).Success?
    ensures r.Success? ==> r.value == Join(Rewrite(f, Scan(txt)).value, " ")
  {
    var ts :- Rewrite(f, Scan(txt));
    Success(Join(ts, " "))
  }

  /** Each token rewritten by `g`, in order. */
  function Each(g: string -> string, ts: seq<string>): (r: seq<string>)
    ensures |r| == |ts|
    ensures forall k :: 0 <= k < |ts| ==> r[k] == g(ts[k])
  {
    seq(|ts|, k requires 0 <= k < |ts| => g(ts[k]))
  }

  /** A stage whose rule rewrites every token into exactly one joins the
      rewritten tokens. */
  lemma StageMap(f: string -> Result<seq<string>, ScriptError>, g: string -> string, txt: string)
    requires forall k :: 0 <= k < |Scan(txt)| ==> f(Scan(txt)[k]) == Success([g(Scan(txt)[k])])
    ensures Stage(f, txt) == Success(Join(Each(g, Scan(txt)), " "))
  {
    RewriteMap(f, g, Scan(txt));
    assert Rewrite(f, Scan(txt)).value == Each(g, Scan(txt));
  }

  /** A stage whose rule keeps or drops every token whole joins the kept
      tokens. */
  lemma StageFilter(f: string -> Result<seq<string>, ScriptError>, keep: string -> bool, txt: string)
    requires forall k :: 0 <= k < |Scan(txt)| ==> f(Scan(txt)[k]) == Success(if keep(Scan(txt)[k]) then [Scan(txt)[k]] else [])
    ensures Stage(f, txt) == Success(Join(Filter(keep, Scan(txt)), " "))
  {
    RewriteFilter(f, keep, Scan(txt));
  }

  /** A stage whose rule keeps some tokens as one rewritten token each and
      drops the others joins the rewritten kept tokens. */
  lemma StageFilterMap(f: string -> Result<seq<string>, ScriptError>, keep: string -> bool, g: string -> string,
                       txt: string)
    requires forall k :: 0 <= k < |Scan(txt)| ==>
      f(Scan(txt)[k]) == Success(if keep(Scan(txt)[k]) then [g(Scan(txt)[k])] else [])
    ensures Stage(f, txt) == Success(Join(Each(g, Filter(keep, Scan(txt))), " "))
  {
    RewriteFilterMap(f, keep, g, Scan(txt));
  }

  lemma {:induction false} RewriteFilterMap(f: string -> Result<seq<string>, ScriptError>, keep: string -> bool,
                                            g: string -> string, ts: seq<string>)
    requires forall k :: 0 <= k < |ts| ==> f(ts[k]) == Success(if keep(ts[k]) then [g(ts[k])] else [])
    ensures Rewrite(f, ts) == Success(Each(g, Filter(keep, ts)))
  {
    if ts != [] {
      assert forall k :: 0 <= k < |ts[1..]| ==> ts[1..][k] == ts[k + 1];
      RewriteFilterMap(f, keep, g, ts[1..]);
      var head := if keep(ts[0]) then [ts[0]] else [];
      assert Filter(keep, ts) == head + Filter(keep, ts[1..]);
      EachAppend(g, head, Filter(keep, ts[1..]));
      assert Each(g, head) == if keep(ts[0]) then [g(ts[0])] else [];
      assert f(ts[0]) == Success(Each(g, head));
      assert Rewrite(f, ts) == Success(Each(g, head) + Rewrite(f, ts[1..]).value);
    }
  }

  lemma EachAppend(g: string -> string, a: seq<string>, b: seq<string>)
    ensures Each(g, a + b) == Each(g, a) + Each(g, b)
  {
    assert forall k :: 0 <= k < |a + b| ==> Each(g, a + b)[k] == (Each(g, a) + Each(g, b))[k];
  }

  // ---------------------------------------------------------------------
  // The stages
  // ---------------------------------------------------------------------

  /** `' '.join(list(w))`. */
  function Spaced(w: string): (r: string)
    ensures |r| == if w == [] then 0 else 2 * |w| - 1
    ensures forall i :: 0 <= i < |r| ==> r[i] == if i % 2 == 0 then w[i / 2] else ' '
  {
    if |w| <= 1 then w
    else
      var rest := Spaced(w[1..]);
      assert forall i :: 2 <= i < 2 * |w| - 1 ==> (i - 2) % 2 == i % 2 && (i - 2) / 2 + 1 == i / 2;
      [w[0], ' '] + rest
  }

  /** `abbreviation_process` on one token: a token holding '!' loses every
      '!' and is stripped, then spelled out letter by letter when
      `space_on_abbreviation` is set. */
  function AbbreviationToken(c: Config, t: string): string {
    if '!' in t then
      var inner := Strip(RemoveChar(t, '!'));
      if c.abbreviationSpace then Spaced(inner) else inner
    else t
  }

  /** `abbreviation_process`: it never raises, and tokens without '!' pass
      unchanged. */
  function Abbreviation(c: Config, txt: string): (r: string)
    ensures Stage(t => Success([AbbreviationToken(c, t)]), txt) == Success(r)
    ensures var ts := Scan(txt);
      exists out: seq<string> :: r == Join(out, " ") && |out| == |ts| &&
        forall k :: 0 <= k < |ts| ==> out[k] == (if '!' in ts[k] then AbbreviationToken(c, ts[k]) else ts[k])
  {
    var f := t => Success([AbbreviationToken(c, t)]);
    var g := t => AbbreviationToken(c, t);
    RewriteMap(f, g, Scan(txt));
    Stage(f, txt).value
  }

  /** An abbreviation `!w!` becomes `w`, or `w` spelled out with spaces. */
  lemma AbbreviationOf(c: Config, w: string)
    requires w != [] && '!' !in w && NoSpace(w)
    ensures AbbreviationToken(c, "!" + w + "!") == if c.abbreviationSpace then Spaced(w) else w
  {
    RemoveCharAppend("!" + w, "!", '!');
    RemoveCharAppend("!", w, '!');
    RemoveCharAbsent(w, '!');
    assert RemoveChar("!" + w + "!", '!') == w;
    StripNoSpace(w);
  }

  /** `numeric_process` on one token: a token holding '/' loses its
      parentheses and becomes the part after the first '/' (pronunciation)
      or before it (digit). */
  function NumericToken(c: Config, t: string): (r: Result<seq<string>, ScriptError>)
    ensures '/' !in t ==> r == Success([t])
    ensures r.Failure? <==> '/' in t && !ValidNumeric(c)
  {
    if '/' !in t then Success([t])
    else if c.numericFormat == "pronunciation" then Success([NumericText(true, t)])
    else if c.numericFormat == "digit" then Success([NumericText(false, t)])
    else Failure(InvalidNumericFormat)
  }

  /** A numeric format the stage knows. */
  predicate ValidNumeric(c: Config) {
    c.numericFormat == "pronunciation" || c.numericFormat == "digit"
  }

  /** The text a numeric token `(a/b)` reads as: its parentheses removed,
      then the stripped part after the first '/' (pronunciation) or before
      it (digit). */
  function NumericText(pronunciation: bool, t: string): string
    requires '/' in t
  {
    var parts := SplitOn(RemoveChar(RemoveChar(t, '('), ')'), '/');
    RemoveCharKeeps(t, '(', '/');
    RemoveCharKeeps(RemoveChar(t, '('), ')', '/');
    if pronunciation then Strip(parts[1]) else Strip(parts[0])
  }

  /** A numeric group `(a/b)` reads `b` under pronunciation and `a` under
      digit. */
  lemma NumericOf(c: Config, a: string, b: string)
    requires '/' !in a && '(' !in a && ')' !in a
    requires '/' !in b && '(' !in b && ')' !in b
    ensures c.numericFormat == "pronunciation" ==> NumericToken(c, "(" + a + "/" + b + ")") == Success([Strip(b)])
    ensures c.numericFormat == "digit" ==> NumericToken(c, "(" + a + "/" + b + ")") == Success([Strip(a)])
  {
    var t := "(" + a + "/" + b + ")";
    assert t[|a| + 1] == '/';
    Unparen(a, b);
    assert Join([a, b], "/") == a + "/" + b;
    JoinSplitOn([a, b], '/');
  }

  lemma Unparen(a: string, b: string)
    requires '(' !in a && ')' !in a && '(' !in b && ')' !in b
    ensures RemoveChar(RemoveChar("(" + a + "/" + b + ")", '('), ')') == a + "/" + b
  {
    var ab := a + "/" + b;
    assert "(" + a + "/" + b + ")" == "(" + ab + ")";
    assert '(' !in ab && ')' !in ab;
    RemoveCharAbsent(ab, '(');
    RemoveCharAbsent(ab, ')');
    Unwrap(ab, '(', ')');
  }

  /** Removing the two delimiters of `open + s + close` leaves `s` when `s`
      holds neither. */
  lemma Unwrap(s: string, open: char, close: char)
    requires open != close
    requires RemoveChar(s, open) == s && RemoveChar(s, close) == s
    ensures RemoveChar(RemoveChar([open] + s + [close], open), close) == s
  {
    var t := [open] + s + [close];
    assert t == [open] + (s + [close]);
    RemoveCharHead(open, s + [close]);
    RemoveCharSnoc(s, close, open);
    RemoveCharSnoc(s, close, close);
    assert s + [] == s;
  }

  /** `numeric_process`: under a known format every token holding '/'
      becomes the text it reads as and the others pass unchanged, in
      order; an unknown format raises when such a token occurs. */
  function Numeric(c: Config, txt: string): (r: Result<string, ScriptError>)
    ensures r.Failure? <==> !ValidNumeric(c) && exists k :: 0 <= k < |Scan(txt)| && '/' in Scan(txt)[k]
    ensures ValidNumeric(c) ==>
      r == Success(Join(Each(t => if '/' in t then NumericText(c.numericFormat == "pronunciation", t) else t, Scan(txt)), " "))
  {
    NumericModes(c, txt);
    Stage(t => NumericToken(c, t), txt)
  }

  /** Under a known format the numeric stage is a token map. */
  lemma NumericModes(c: Config, txt: string)
    ensures ValidNumeric(c) ==>
      Stage(t => NumericToken(c, t), txt) ==
        Success(Join(Each(t => if '/' in t then NumericText(c.numericFormat == "pronunciation", t) else t, Scan(txt)), " "))
  {
    if ValidNumeric(c) {
      StageMap(t => NumericToken(c, t), t => if '/' in t then NumericText(c.numericFormat == "pronunciation", t) else t, txt);
    }
  }

  /** `inaudible_process`: every `(inaudible)` removed or replaced by the
      inaudible token, then the text stripped; an unknown mode always
      raises. */
  function Inaudible(c: Config, txt: string): (r: Result<string, ScriptError>)
    ensures r.Failure? <==> c.inaudibleProcess != "drop" && c.inaudibleProcess != "token"
    ensures r.Success? ==> r.value == [] || (!IsSpace(r.value[0]) && !IsSpace(r.value[|r.value| - 1]))
  {
    if c.inaudibleProcess == "drop" then Success(Strip(Replace(txt, "(inaudible)", "")))
    else if c.inaudibleProcess == "token" then Success(Strip(Replace(txt, "(inaudible)", c.inaudibleToken)))
    else Failure(InvalidInaudibleProcess)
  }

  /** A transcript without `(inaudible)` is only stripped. */
  lemma InaudibleAbsent(c: Config, txt: string)
    requires !Contains(txt, "(inaudible)") && ValidInaudible(c)
    ensures Inaudible(c, txt) == Success(Strip(txt))
  {
    ReplaceAbsent(txt, "(inaudible)", "");
    ReplaceAbsent(txt, "(inaudible)", c.inaudibleToken);
  }

  predicate ValidInaudible(c: Config) {
    c.inaudibleProcess == "drop" || c.inaudibleProcess == "token"
  }

  /** The treatment of a marked token under a mode: its inner text, nothing,
      or the replacement token. */
  function Treat(mode: string, inner: string, token: string, err: ScriptError): (r: Result<seq<string>, ScriptError>)
    ensures r.Failure? <==> !ValidMode(mode)
    ensures r.Failure? ==> r.error == err
    ensures mode == "word" ==> r == Success([inner])
    ensures mode == "drop" ==> r == Success([])
    ensures mode == "token" ==> r == Success([token])
  {
    if mode == "word" then Success([inner])
    else if mode == "drop" then Success([])
    else if mode == "token" then Success([token])
    else Failure(err)
  }

  /** An uncertain token's text: brackets removed, stripped. */
  function UncertainInner(t: string): string {
    Strip(RemoveChar(RemoveChar(t, '['), ']'))
  }

  /** `uncertain_process` on one token: a token holding '[' loses its
      brackets and is treated by the uncertain mode. */
  function UncertainToken(c: Config, t: string): (r: Result<seq<string>, ScriptError>)
    ensures '[' !in t ==> r == Success([t])
    ensures r.Failure? <==> '[' in t && !ValidMode(c.uncertainProcess)
  {
    if '[' in t then Treat(c.uncertainProcess, UncertainInner(t), c.uncertainToken, InvalidUncertainProcess)
    else Success([t])
  }

  /** `uncertain_process`: under `word` every '[' token becomes its inner
      text, under `drop` the '[' tokens disappear, under `token` each
      becomes the uncertain token; any other mode raises when a '[' token
      occurs. Other tokens pass unchanged and in order. */
  function Uncertain(c: Config, txt: string): (r: Result<string, ScriptError>)
    ensures r.Failure? <==> !ValidMode(c.uncertainProcess) && exists k :: 0 <= k < |Scan(txt)| && '[' in Scan(txt)[k]
    ensures c.uncertainProcess == "word" ==>
      r == Success(Join(Each(t => if '[' in t then UncertainInner(t) else t, Scan(txt)), " "))
    ensures c.uncertainProcess == "drop" ==> r == Success(Join(Filter(t => '[' !in t, Scan(txt)), " "))
    ensures c.uncertainProcess == "token" ==>
      r == Success(Join(Each(t => if '[' in t then c.uncertainToken else t, Scan(txt)), " "))
  {
    UncertainModes(c, txt);
    Stage(t => UncertainToken(c, t), txt)
  }

  /** The three modes of the uncertain stage, each as a map or a filter
      over the tokens. */
  lemma UncertainModes(c: Config, txt: string)
    ensures c.uncertainProcess == "word" ==>
      Stage(t => UncertainToken(c, t), txt) == Success(Join(Each(t => if '[' in t then UncertainInner(t) else t, Scan(txt)), " "))
    ensures c.uncertainProcess == "drop" ==>
      Stage(t => UncertainToken(c, t), txt) == Success(Join(Filter(t => '[' !in t, Scan(txt)), " "))
    ensures c.uncertainProcess == "token" ==>
      Stage(t => UncertainToken(c, t), txt) == Success(Join(Each(t => if '[' in t then c.uncertainToken else t, Scan(txt)), " "))
  {
    var f := t => UncertainToken(c, t);
    if c.uncertainProcess == "word" {
      StageMap(f, t => if '[' in t then UncertainInner(t) else t, txt);
    } else if c.uncertainProcess == "drop" {
      StageFilter(f, t => '[' !in t, txt);
    } else if c.uncertainProcess == "token" {
      StageMap(f, t => if '[' in t then c.uncertainToken else t, txt);
    }
  }

  /** A token the diffluency stage rewrites: it holds '<' and is not one of
      the configured replacement tokens. */
  predicate Diffluent(c: Config, t: string) {
    '<' in t && t !in SpecialTokens(c)
  }

  /** A diffluent token's text: angle brackets removed, stripped. */
  function DiffluencyInner(t: string): string {
    Strip(RemoveChar(RemoveChar(t, '<'), '>'))
  }

  /** `diffluency_process` on one token. */
  function DiffluencyToken(c: Config, t: string): (r: Result<seq<string>, ScriptError>)
    ensures !Diffluent(c, t) ==> r == Success([t])
    ensures r.Failure? <==> Diffluent(c, t) && !ValidMode(c.diffluencyProcess)
  {
    if Diffluent(c, t) then Treat(c.diffluencyProcess, DiffluencyInner(t), c.diffluencyToken, InvalidDiffluencyProcess)
    else Success([t])
  }

  /** `diffluency_process`: under `word` every diffluent token becomes its
      inner text, under `drop` it disappears, under `token` it becomes the
      diffluency token; any other mode raises when a diffluent token
      occurs. Other tokens, the configured tokens among them, pass
      unchanged and in order. */
  function Diffluency(c: Config, txt: string): (r: Result<string, ScriptError>)
    ensures r.Failure? <==> !ValidMode(c.diffluencyProcess) && exists k :: 0 <= k < |Scan(txt)| && Diffluent(c, Scan(txt)[k])
    ensures c.diffluencyProcess == "word" ==>
      r == Success(Join(Each(t => if Diffluent(c, t) then DiffluencyInner(t) else t, Scan(txt)), " "))
    ensures c.diffluencyProcess == "drop" ==> r == Success(Join(Filter(t => !Diffluent(c, t), Scan(txt)), " "))
    ensures c.diffluencyProcess == "token" ==>
      r == Success(Join(Each(t => if Diffluent(c, t) then c.diffluencyToken else t, Scan(txt)), " "))
  {
    DiffluencyModes(c, txt);
    Stage(t => DiffluencyToken(c, t), txt)
  }

  /** The three modes of the diffluency stage, each as a map or a filter
      over the tokens. */
  lemma DiffluencyModes(c: Config, txt: string)
    ensures c.diffluencyProcess == "word" ==>
      Stage(t => DiffluencyToken(c, t), txt) == Success(Join(Each(t => if Diffluent(c, t) then DiffluencyInner(t) else t, Scan(txt)), " "))
    ensures c.diffluencyProcess == "drop" ==>
      Stage(t => DiffluencyToken(c, t), txt) == Success(Join(Filter(t => !Diffluent(c, t), Scan(txt)), " "))
    ensures c.diffluencyProcess == "token" ==>
      Stage(t => DiffluencyToken(c, t), txt) == Success(Join(Each(t => if Diffluent(c, t) then c.diffluencyToken else t, Scan(txt)), " "))
  {
    var f := t => DiffluencyToken(c, t);
    if c.diffluencyProcess == "word" {
      StageMap(f, t => if Diffluent(c, t) then DiffluencyInner(t) else t, txt);
    } else if c.diffluencyProcess == "drop" {
      StageFilter(f, t => !Diffluent(c, t), txt);
    } else if c.diffluencyProcess == "token" {
      StageMap(f, t => if Diffluent(c, t) then c.diffluencyToken else t, txt);
    }
  }

  /** Under `drop` the configured tokens survive the diffluency stage. */
  lemma DiffluencyDrop(c: Config, txt: string)
    requires c.diffluencyProcess == "drop"
    ensures forall t :: t in Scan(txt) && t in SpecialTokens(c) ==> t in Filter(t => !Diffluent(c, t), Scan(txt))
  {
    forall t | t in Scan(txt) && t in SpecialTokens(c) ensures t in Filter(t => !Diffluent(c, t), Scan(txt)) {
      FilterKeeps(t => !Diffluent(c, t), Scan(txt), t);
    }
  }

  lemma {:induction false} FilterKeeps(keep: string -> bool, ts: seq<string>, t: string)
    requires t in ts && keep(t)
    ensures t in Filter(keep, ts)
  {
    if ts[0] != t {
      FilterKeeps(keep, ts[1..], t);
    }
  }

  /** The interjection text of a `{...}` token: braces removed, stripped,
      lower-cased. */
  function InterjectionText(t: string): string {
    Lower(Strip(RemoveChar(RemoveChar(t, '{'), '}')))
  }

  /** `interjection_process` on one token: the word list wins over the drop
      list, which wins over the token list; only an unlisted interjection
      falls to the default mode. */
  function InterjectionToken(c: Config, t: string): (r: Result<seq<string>, ScriptError>)
    ensures '{' !in t ==> r == Success([t])
    ensures r.Failure? <==> Unlisted(c, t) && !ValidMode(c.interjectionProcess)
    ensures Unlisted(c, t) && c.interjectionProcess == "word" ==> r == Success([InterjectionText(t)])
    ensures Unlisted(c, t) && c.interjectionProcess == "drop" ==> r == Success([])
    ensures Unlisted(c, t) && c.interjectionProcess == "token" ==> r == Success([c.interjectionToken])
  {
    if '{' in t then
      var inner := InterjectionText(t);
      if inner in c.interjectionToWord then Success([inner])
      else if inner in c.interjectionToDrop then Success([])
      else if inner in c.interjectionToToken then Success([c.interjectionToken])
      else Treat(c.interjectionProcess, inner, c.interjectionToken, InvalidInterjectionProcess)
    else Success([t])
  }

  /** An interjection none of the lists names. */
  predicate Unlisted(c: Config, t: string) {
    '{' in t && var inner := InterjectionText(t);
    inner !in c.interjectionToWord && inner !in c.interjectionToDrop && inner !in c.interjectionToToken
  }

  /** Whether a token survives the interjection stage under a known mode:
      a non-interjection always does; an interjection does when
      word-listed, or when not drop-listed and either token-listed or
      under a mode other than drop. */
  predicate InterjectionKept(c: Config, t: string) {
    '{' !in t ||
    var inner := InterjectionText(t);
    inner in c.interjectionToWord ||
    (inner !in c.interjectionToDrop && (inner in c.interjectionToToken || c.interjectionProcess != "drop"))
  }

  /** What a surviving token becomes: a word-listed interjection its text,
      a token-listed one the interjection token, an unlisted one its text
      under `word` and the interjection token otherwise. */
  function InterjectionOut(c: Config, t: string): string {
    if '{' !in t then t
    else
      var inner := InterjectionText(t);
      if inner in c.interjectionToWord then inner
      else if inner in c.interjectionToToken || c.interjectionProcess != "word" then c.interjectionToken
      else inner
  }

  /** `interjection_process`: under a known mode the surviving tokens, each
      rewritten as `InterjectionOut` says, in order; an unknown mode raises
      when an unlisted interjection occurs. */
  function Interjection(c: Config, txt: string): (r: Result<string, ScriptError>)
    ensures r.Failure? <==> !ValidMode(c.interjectionProcess) && exists k :: 0 <= k < |Scan(txt)| && Unlisted(c, Scan(txt)[k])
    ensures ValidMode(c.interjectionProcess) ==>
      r == Success(Join(Each(t => InterjectionOut(c, t), Filter(t => InterjectionKept(c, t), Scan(txt))), " "))
  {
    InterjectionModes(c, txt);
    Stage(t => InterjectionToken(c, t), txt)
  }

  /** Under a known mode the interjection stage drops the tokens
      `InterjectionKept` rejects and rewrites the rest by `InterjectionOut`. */
  lemma InterjectionModes(c: Config, txt: string)
    ensures ValidMode(c.interjectionProcess) ==>
      Stage(t => InterjectionToken(c, t), txt) ==
        Success(Join(Each(t => InterjectionOut(c, t), Filter(t => InterjectionKept(c, t), Scan(txt))), " "))
  {
    if ValidMode(c.interjectionProcess) {
      var ts := Scan(txt);
      forall k | 0 <= k < |ts|
        ensures InterjectionToken(c, ts[k]) ==
          Success(if InterjectionKept(c, ts[k]) then [InterjectionOut(c, ts[k])] else [])
      {
      }
      StageFilterMap(t => InterjectionToken(c, t), t => InterjectionKept(c, t), t => InterjectionOut(c, t), txt);
    }
  }

  /** A listed interjection is treated by its list whatever the default
      mode, and a word-listed one is kept as its text even when the other
      lists name it too. */
  lemma InterjectionListsWin(c: Config, t: string, mode: string)
    requires '{' in t && !Unlisted(c, t)
    ensures InterjectionToken(c, t) == InterjectionToken(c.(interjectionProcess := mode), t)
    ensures InterjectionText(t) in c.interjectionToWord ==> InterjectionToken(c, t) == Success([InterjectionText(t)])
    ensures InterjectionText(t) !in c.interjectionToWord && InterjectionText(t) in c.interjectionToDrop ==>
              InterjectionToken(c, t) == Success([])
    ensures InterjectionText(t) !in c.interjectionToWord && InterjectionText(t) !in c.interjectionToDrop ==>
              InterjectionToken(c, t) == Success([c.interjectionToken])
  {
  }

  // ---------------------------------------------------------------------
  // __call__
  // ---------------------------------------------------------------------

  /** Case, apostrophe and hyphen handling, then whitespace collapsing. */
  function Finish(c: Config, txt: string): (r: string)
    ensures Collapsed(r)
    ensures c.capitalize ==> forall i :: 0 <= i < |r| ==> !IsLowerLetter(r[i])
    ensures !c.capitalize ==> forall i :: 0 <= i < |r| ==> !IsUpperLetter(r[i])
    ensures !c.apostrophe ==> '\'' !in r
    ensures !c.hyphen ==> '-' !in r
  {
    var cased := if c.capitalize then Upper(txt) else Lower(txt);
    var noApos := if c.apostrophe then cased else RemoveChar(cased, '\'');
    var noHyphen := if c.hyphen then noApos else ReplaceChar(noApos, '-', ' ');
    CollapsedStrip(CollapseWs(noHyphen));
    FinishChars(c, cased, noApos, noHyphen, CollapseWs(noHyphen));
    Strip(CollapseWs(noHyphen))
  }

  /** Every character left after the last steps is a space or a character of
      the case-mapped text that survived the apostrophe and hyphen steps. */
  lemma FinishChars(c: Config, cased: string, noApos: string, noHyphen: string, r: string)
    requires noApos == if c.apostrophe then cased else RemoveChar(cased, '\'')
    requires noHyphen == if c.hyphen then noApos else ReplaceChar(noApos, '-', ' ')
    requires r == CollapseWs(noHyphen)
    ensures forall i :: 0 <= i < |r| && r[i] != ' ' ==> r[i] in cased
    ensures !c.apostrophe ==> '\'' !in r
    ensures !c.hyphen ==> '-' !in r
  {
    forall i | 0 <= i < |r| && r[i] != ' '
      ensures r[i] in cased && (!c.apostrophe ==> r[i] != '\'') && (!c.hyphen ==> r[i] != '-')
    {
      CollapseWsChars(noHyphen, r[i]);
      HyphenStepChars(c, noApos, noHyphen, r[i]);
      ApostropheStepChars(c, cased, noApos, r[i]);
    }
  }

  lemma HyphenStepChars(c: Config, noApos: string, noHyphen: string, x: char)
    requires noHyphen == if c.hyphen then noApos else ReplaceChar(noApos, '-', ' ')
    requires x in noHyphen && x != ' '
    ensures x in noApos && (!c.hyphen ==> x != '-')
  {
    if !c.hyphen {
      var i :| 0 <= i < |noHyphen| && noHyphen[i] == x;
      assert noApos[i] == x;
    }
  }

  lemma ApostropheStepChars(c: Config, cased: string, noApos: string, x: char)
    requires noApos == if c.apostrophe then cased else RemoveChar(cased, '\'')
    requires x in noApos
    ensures x in cased && (!c.apostrophe ==> x != '\'')
  {
    if !c.apostrophe {
      var i :| 0 <= i < |noApos| && noApos[i] == x;
      assert noApos[i] != '\'' && noApos[i] in cased;
    }
  }

  /** A collapsed string has nothing to strip. */
  lemma CollapsedStrip(s: string)
    requires Collapsed(s)
    ensures Strip(s) == s
  {
    if s != [] {
      assert !IsSpace(s[0]);
      assert !IsSpace(s[|s| - 1]);
    }
  }

  /** `Script_Generator.__call__`: abbreviation, diffluency, inaudible,
      interjection, uncertain and numeric stages in that order, then
      `Finish`. */
  function Normalise(c: Config, txt: string): (r: Result<string, ScriptError>)
    ensures r.Success? ==> Collapsed(r.value)
    ensures r.Success? && c.capitalize ==> forall i :: 0 <= i < |r.value| ==> !IsLowerLetter(r.value[i])
    ensures r.Success? && !c.capitalize ==> forall i :: 0 <= i < |r.value| ==> !IsUpperLetter(r.value[i])
    ensures r.Success? && !c.apostrophe ==> '\'' !in r.value
    ensures r.Success? && !c.hyphen ==> '-' !in r.value
    ensures !ValidInaudible(c) ==> r.Failure?
  {
    var t1 := Abbreviation(c, txt);
    var t2 :- Diffluency(c, t1);
    var t3 :- Inaudible(c, t2);
    var t4 :- Interjection(c, t3);
    var t5 :- Uncertain(c, t4);
    var t6 :- Numeric(c, t5);
    Success(Finish(c, t6))
  }
}

=== FILE: segment_selector.dfy ===
/** The segment selector's filter: a fixed chain of rejection rules applied
    to one metadata segment, with the duration of every rejected segment
    charged to the accumulator of the rule that rejected it. The global
    accumulators of the tool become an explicit `Totals` record that the
    filter takes and returns. */
module SegmentSelector {

  import opened Wrappers
  import opened PyStr
  import opened Tokens

  /** How far, in seconds, a face track may start after or end before its
      segment before the segment counts as partially on screen. */
  const Tolerance: real := 0.01

  /** `track['timestamp']`: when a face track starts and ends. */
  datatype TrackSpan = TrackSpan(first: real, last: real)

  /** The fields of one metadata segment the filter reads; a missing
      background-noise annotation ('N/A') is `None`, otherwise the noise
      labels (the keys of the annotation). */
  datatype Segment = Segment(
    segmentIndex: nat,
    text: string,
    start: real,
    end: real,
    singing: bool,
    overlappedDuration: real,
    onScreen: bool,
    faceTrack: seq<TrackSpan>,
    backgroundNoise: Option<seq<string>>)
  {
    function Duration(): real { end - start }
  }

  /** The command-line options of the filter. The background-noise list is a
      string (a list given in a YAML configuration is joined with ','), so
      membership in it is a substring test. */
  datatype Args = Args(
    minDuration: real,
    maxDuration: real,
    backgroundNoiseList: string,
    noSinging: bool,
    noOverlap: bool,
    onlyOnScreen: bool,
    noPartiallyOnScreen: bool,
    noMultipleOnScreen: bool,
    scriptFilter: bool,
    minWord: real,
    maxWord: real,
    countInterjectionAsWord: bool,
    countUncertainAsWord: bool,
    countDiffluencyAsWord: bool,
    noInaudible: bool,
    noUncertain: bool,
    noInterjection: bool,
    noDiffluency: bool)

  /** Why a segment was rejected. `Noise` and `Starred` have no accumulator. */
  datatype Reason =
    | Duration | Singing | Overlap | MultipleOnScreen | PartiallyOnScreen | OffScreen
    | Noise | Inaudible | Uncertain | Interjection | Diffluency | Starred | WordCount

  datatype Verdict = Accept | Reject(reason: Reason)

  /** The excluded durations, one accumulator per rule. */
  datatype Totals = Totals(
    sing: real, overlap: real, onscreen: real, inaud: real, uncert: real, interj: real,
    diff: real, durr: real, wcnt: real, mOnscreen: real, pOnscreen: real)
  {
    /** The accumulators in a fixed order. */
    function Fields(): (f: seq<real>)
      ensures |f| == 11
    {
      [sing, overlap, onscreen, inaud, uncert, interj, diff, durr, wcnt, mOnscreen, pOnscreen]
    }

    function Sum(): real {
      sing + overlap + onscreen + inaud + uncert + interj + diff + durr + wcnt + mOnscreen + pOnscreen
    }
  }

  const Zero := Totals(0.0, 0.0, 0.0, 0.0, 0.0, 0.0, 0.0, 0.0, 0.0, 0.0, 0.0)

  /** The reasons that add the segment's duration to an accumulator. */
  predicate Charges(r: Reason) {
    r != Noise && r != Starred
  }

  /** The position in `Fields()` of the accumulator of `r`; 11 (none) for
      the rules that charge nothing. */
  function Slot(r: Reason): (i: nat)
    ensures i <= 11 && (i == 11 <==> !Charges(r))
  {
    match r
    case Singing => 0
    case Overlap => 1
    case OffScreen => 2
    case Inaudible => 3
    case Uncertain => 4
    case Interjection => 5
    case Diffluency => 6
    case Duration => 7
    case WordCount => 8
    case MultipleOnScreen => 9
    case PartiallyOnScreen => 10
    case Noise => 11
    case Starred => 11
  }

  /** Adds `d` to the accumulator of `r`. */
  function Charge(t: Totals, r: Reason, d: real): (u: Totals)
    ensures Charges(r) ==> u.Sum() == t.Sum() + d
    ensures !Charges(r) ==> u == t
  {
    match r
    case Duration => t.(durr := t.durr + d)
    case Singing => t.(sing := t.sing + d)
    case Overlap => t.(overlap := t.overlap + d)
    case MultipleOnScreen => t.(mOnscreen := t.mOnscreen + d)
    case PartiallyOnScreen => t.(pOnscreen := t.pOnscreen + d)
    case OffScreen => t.(onscreen := t.onscreen + d)
    case Inaudible => t.(inaud := t.inaud + d)
    case Uncertain => t.(uncert := t.uncert + d)
    case Interjection => t.(interj := t.interj + d)
    case Diffluency => t.(diff := t.diff + d)
    case WordCount => t.(wcnt := t.wcnt + d)
    case Noise => t
    case Starred => t
  }

  /** Charging touches one accumulator: the one of `r`, which grows by
      `d`; every other keeps its value. */
  lemma ChargeSlot(t: Totals, r: Reason, d: real, i: nat)
    requires i < 11
    ensures Charge(t, r, d).Fields()[i] == if i == Slot(r) then t.Fields()[i] + d else t.Fields()[i]
  {
  }

  // ---------------------------------------------------------------------
  // The word counter
  // ---------------------------------------------------------------------

  /** What one token of the word-count scan does: add to the count, or
      reject the segment. */
  datatype TokenVerdict = Counts(n: nat) | Rejects(reason: Reason)

  /** `len(inst.replace(open, "").replace(close, "").split())`. */
  function BracketWords(inst: string, open: char, close: char): nat {
    |SplitWs(RemoveChar(RemoveChar(inst, open), close))|
  }

  /** The words after the last '/' of a numeric token, brackets removed. */
  function NumericWords(inst: string): nat {
    var parts := SplitOn(RemoveChar(RemoveChar(inst, '('), ')'), '/');
    |SplitWs(parts[|parts| - 1])|
  }

  /** The branches of the token loop, in source order. */
  function ClassifyToken(a: Args, inst: string): (v: TokenVerdict)
    ensures v.Rejects? ==> v.reason in {Inaudible, Uncertain, Interjection, Diffluency, Starred}
    ensures v == Rejects(Starred) <==>
      '*' in inst && '[' !in inst && '{' !in inst && '<' !in inst && !('(' in inst && '/' in inst)
      && !(inst == "(inaudible)" && a.noInaudible)
  {
    if inst == "(inaudible)" && a.noInaudible then Rejects(Inaudible)
    else if '[' in inst then
      if a.noUncertain then Rejects(Uncertain)
      else Counts(if a.countUncertainAsWord then BracketWords(inst, '[', ']') else 0)
    else if '{' in inst then
      if a.noInterjection then Rejects(Interjection)
      else Counts(if a.countInterjectionAsWord then BracketWords(inst, '{', '}') else 0)
    else if '<' in inst then
      if a.noDiffluency then Rejects(Diffluency)
      else Counts(if a.countDiffluencyAsWord then BracketWords(inst, '<', '>') else 0)
    else if '(' in inst && '/' in inst then Counts(NumericWords(inst))
    else if '*' in inst then Rejects(Starred)
    else Counts(1)
  }

  /** The token loop: the first rejecting token decides; otherwise the sum
      of the counts. */
  function CountWords(a: Args, ts: seq<string>): (r: Result<nat, Reason>)
    ensures r.Success? <==> forall k :: 0 <= k < |ts| ==> ClassifyToken(a, ts[k]).Counts?
    ensures r.Failure? ==> FirstRejects(a, ts, r.error)
  {
    if ts == [] then Success(0)
    else
      match ClassifyToken(a, ts[0])
      case Rejects(reason) => Failure(reason)
      case Counts(n) =>
        var rest := CountWords(a, ts[1..]);
        assert forall k :: 1 <= k < |ts| ==> ts[k] == ts[1..][k - 1];
        if rest.Failure? then
          FirstRejectsCons(a, ts, rest.error);
          Failure(rest.error)
        else Success(n + rest.value)
  }

  /** Token `k` rejects with `e`, and every token before it counts. */
  predicate FirstRejects(a: Args, ts: seq<string>, e: Reason) {
    exists k :: 0 <= k < |ts| && ClassifyToken(a, ts[k]) == Rejects(e) &&
                (forall j :: 0 <= j < k ==> ClassifyToken(a, ts[j]).Counts?)
  }

  lemma FirstRejectsCons(a: Args, ts: seq<string>, e: Reason)
    requires ts != [] && ClassifyToken(a, ts[0]).Counts? && FirstRejects(a, ts[1..], e)
    ensures FirstRejects(a, ts, e)
  {
    var k :| 0 <= k < |ts| - 1 && ClassifyToken(a, ts[1..][k]) == Rejects(e) &&
             (forall j :: 0 <= j < k ==> ClassifyToken(a, ts[1..][j]).Counts?);
    assert ClassifyToken(a, ts[k + 1]) == Rejects(e);
    forall j | 0 <= j < k + 1 ensures ClassifyToken(a, ts[j]).Counts? {
      if j > 0 {
        assert ts[j] == ts[1..][j - 1];
      }
    }
  }

  /** The count of a token sequence is the count of its first part plus the
      count of the rest, when the first part rejects nothing. */
  lemma {:induction false} CountWordsAppend(a: Args, xs: seq<string>, ys: seq<string>)
    requires CountWords(a, xs).Success?
    ensures CountWords(a, xs + ys).Success? <==> CountWords(a, ys).Success?
    ensures CountWords(a, xs + ys).Success? ==>
      CountWords(a, xs + ys).value == CountWords(a, xs).value + CountWords(a, ys).value
    ensures CountWords(a, xs + ys).Failure? ==> CountWords(a, xs + ys) == CountWords(a, ys)
    decreases |xs|
  {
    if xs == [] {
      assert xs + ys == ys;
    } else {
      assert (xs + ys)[1..] == xs[1..] + ys;
      assert (xs + ys)[0] == xs[0];
      CountWordsAppend(a, xs[1..], ys);
    }
  }

  /** A token made only of word characters is a plain word: it counts one. */
  lemma PlainWordCounts(a: Args, w: string)
    requires w != [] && forall i :: 0 <= i < |w| ==> IsWordChar(w[i])
    ensures ClassifyToken(a, w) == Counts(1)
  {
    assert w[0] != '(';
    assert w != "(inaudible)";
  }

  /** A plain word is scanned as one token of its own. */
  lemma PlainWordMatches(w: string)
    requires w != [] && forall i :: 0 <= i < |w| ==> IsWordChar(w[i])
    ensures MatchLength(WordRun, w) == |w|
  {
    assert w + [] == w;
    RunLengthAppend(WordRun, w, []);
  }

  /** A transcript of `n` plain words separated by single spaces counts `n`
      words. */
  lemma {:induction false} PlainTextCount(a: Args, ws: seq<string>)
    requires forall k :: 0 <= k < |ws| ==> ws[k] != [] && forall i :: 0 <= i < |ws[k]| ==> IsWordChar(ws[k][i])
    ensures CountWords(a, FindAll(WordRun, Join(ws, " "))) == Success(|ws|)
  {
    forall k | 0 <= k < |ws| ensures MatchLength(WordRun, ws[k]) == |ws[k]| {
      PlainWordMatches(ws[k]);
    }
    FindAllJoin(WordRun, ws);
    PlainWordsCount(a, ws);
  }

  lemma {:induction false} PlainWordsCount(a: Args, ws: seq<string>)
    requires forall k :: 0 <= k < |ws| ==> ws[k] != [] && forall i :: 0 <= i < |ws[k]| ==> IsWordChar(ws[k][i])
    ensures CountWords(a, ws) == Success(|ws|)
    decreases |ws|
  {
    if ws != [] {
      PlainWordCounts(a, ws[0]);
      PlainWordsCount(a, ws[1..]);
    }
  }

  // ---------------------------------------------------------------------
  // The rule chain
  // ---------------------------------------------------------------------

  /** A face track that starts more than the tolerance after the segment or
      ends more than the tolerance before it. */
  predicate PartialTrack(seg: Segment, t: TrackSpan) {
    t.first - seg.start > Tolerance || seg.end - t.last > Tolerance
  }

  predicate SomePartialTrack(seg: Segment) {
    exists k :: 0 <= k < |seg.faceTrack| && PartialTrack(seg, seg.faceTrack[k])
  }

  /** Some noise label of the segment occurs in the configured list. */
  predicate NoiseListed(seg: Segment, list: string) {
    seg.backgroundNoise.Some? &&
    exists k :: 0 <= k < |seg.backgroundNoise.value| && Contains(list, seg.backgroundNoise.value[k])
  }

  /** The word-count rule: the text's words must lie strictly between the
      bounds. */
  function ScriptVerdict(seg: Segment, a: Args): (v: Verdict)
    ensures v.Reject? ==> v.reason in {Inaudible, Uncertain, Interjection, Diffluency, Starred, WordCount}
  {
    match CountWords(a, FindAll(WordRun, seg.text))
    case Failure(r) => Reject(r)
    case Success(n) =>
      if n as real >= a.maxWord || n as real <= a.minWord then Reject(WordCount) else Accept
  }

  /** `segment_filter` without its side effects: the first rule that fails
      decides. */
  function Judge(seg: Segment, a: Args): (v: Verdict)
    ensures v == Accept ==> a.minDuration < seg.Duration() < a.maxDuration
    ensures v == Reject(Singing) ==> seg.singing && a.noSinging
    ensures v == Reject(Overlap) ==> seg.overlappedDuration > 0.0 && a.noOverlap
    ensures v == Reject(MultipleOnScreen) ==> seg.onScreen && |seg.faceTrack| != 1 && a.noMultipleOnScreen
    ensures v == Reject(PartiallyOnScreen) ==> seg.onScreen && a.noPartiallyOnScreen && SomePartialTrack(seg)
    ensures v == Reject(OffScreen) ==> !seg.onScreen && a.onlyOnScreen
    ensures v == Reject(Noise) ==> a.noOverlap && NoiseListed(seg, a.backgroundNoiseList)
    ensures !a.scriptFilter && v.Reject? ==>
      v.reason in {Duration, Singing, Overlap, MultipleOnScreen, PartiallyOnScreen, OffScreen, Noise}
  {
    var d := seg.Duration();
    if d >= a.maxDuration || d <= a.minDuration then Reject(Duration)
    else if seg.singing && a.noSinging then Reject(Singing)
    else if seg.overlappedDuration > 0.0 && a.noOverlap then Reject(Overlap)
    else if seg.onScreen && |seg.faceTrack| != 1 && a.noMultipleOnScreen then Reject(MultipleOnScreen)
    else if seg.onScreen && a.noPartiallyOnScreen && SomePartialTrack(seg) then Reject(PartiallyOnScreen)
    else if !seg.onScreen && a.onlyOnScreen then Reject(OffScreen)
    else if NoiseListed(seg, a.backgroundNoiseList) && a.noOverlap then Reject(Noise)
    else if a.scriptFilter then ScriptVerdict(seg, a)
    else Accept
  }

  /** What an accepted segment satisfies, rule by rule, independent of the
      order the rules are tried in. */
  predicate Admissible(seg: Segment, a: Args) {
    && a.minDuration < seg.Duration() < a.maxDuration
    && !(seg.singing && a.noSinging)
    && !(seg.overlappedDuration > 0.0 && a.noOverlap)
    && (seg.onScreen ==> !(|seg.faceTrack| != 1 && a.noMultipleOnScreen))
    && (seg.onScreen ==> !(a.noPartiallyOnScreen && SomePartialTrack(seg)))
    && (!seg.onScreen ==> !a.onlyOnScreen)
    && !(a.noOverlap && NoiseListed(seg, a.backgroundNoiseList))
    && (a.scriptFilter ==>
          var c := CountWords(a, FindAll(WordRun, seg.text));
          c.Success? && a.minWord < c.value as real < a.maxWord)
  }

  /** A segment is accepted exactly when it passes every rule. */
  lemma JudgeAdmissible(seg: Segment, a: Args)
    ensures Judge(seg, a) == Accept <==> Admissible(seg, a)
  {
  }

  /** A duration outside the open interval is always charged to the duration
      accumulator, whatever else holds. */
  lemma DurationFirst(seg: Segment, a: Args, t: Totals)
    requires seg.Duration() >= a.maxDuration || seg.Duration() <= a.minDuration
    ensures SegmentFilter(seg, a, t) == (false, t.(durr := t.durr + seg.Duration()))
  {
  }

  /** `segment_filter`: the verdict, and the accumulators with the rejected
      segment's duration charged to the deciding rule (so, by `ChargeSlot`,
      at most one accumulator grows); none on acceptance. */
  function SegmentFilter(seg: Segment, a: Args, t: Totals): (r: (bool, Totals))
    ensures r.0 <==> Admissible(seg, a)
    ensures r.0 ==> r.1 == t
    ensures !r.0 ==> Judge(seg, a).Reject? && r.1 == Charge(t, Judge(seg, a).reason, seg.Duration())
    ensures r.1.Sum() == t.Sum() + Charged(seg, a)
  {
    JudgeAdmissible(seg, a);
    match Judge(seg, a)
    case Accept => (true, t)
    case Reject(reason) => (false, Charge(t, reason, seg.Duration()))
  }

  /** The duration a segment adds to the accumulators: its own when a rule
      with an accumulator rejects it, nothing otherwise. */
  function Charged(seg: Segment, a: Args): real {
    var v := Judge(seg, a);
    if v.Reject? && Charges(v.reason) then seg.Duration() else 0.0
  }

  // ---------------------------------------------------------------------
  // One file of the file list
  // ---------------------------------------------------------------------

  /** The filter applied to each segment of one metadata file in order,
      threading the accumulators: the indices written to the segment list
      and the accumulators afterwards. */
  function SelectFile(segs: seq<Segment>, a: Args, t: Totals): (r: (seq<nat>, Totals))
    ensures |r.0| <= |segs|
    decreases |segs|
  {
    if segs == [] then ([], t)
    else
      var (ok, t1) := SegmentFilter(segs[0], a, t);
      var (rest, t2) := SelectFile(segs[1..], a, t1);
      (if ok then [segs[0].segmentIndex] + rest else rest, t2)
  }

  /** The indices of the admissible segments, in metadata order. */
  function AdmittedIndices(segs: seq<Segment>, a: Args): seq<nat> {
    if segs == [] then []
    else (if Admissible(segs[0], a) then [segs[0].segmentIndex] else []) + AdmittedIndices(segs[1..], a)
  }

  /** The durations charged over a file. */
  function ChargedTotal(segs: seq<Segment>, a: Args): real {
    if segs == [] then 0.0 else Charged(segs[0], a) + ChargedTotal(segs[1..], a)
  }

  /** The segment list of a file holds exactly the admissible segments in
      order, and the accumulators grow by exactly the charged durations. */
  lemma {:induction false} SelectFileSpec(segs: seq<Segment>, a: Args, t: Totals)
    ensures SelectFile(segs, a, t).0 == AdmittedIndices(segs, a)
    ensures SelectFile(segs, a, t).1.Sum() == t.Sum() + ChargedTotal(segs, a)
    decreases |segs|
  {
    if segs != [] {
      var (ok, t1) := SegmentFilter(segs[0], a, t);
      SelectFileSpec(segs[1..], a, t1);
    }
  }
}

=== FILE: tokens.dfy ===
/** The tokenising regular expressions of the transcript tools, as a
    left-to-right scanner. Both patterns try, in order, a `!...!`
    abbreviation, a `{...}` interjection, a `(x...)` group whose second
    character is not '/', a `[...]` uncertain span and a `<...>` diffluency,
    each closed by the first matching closer; the last alternative is a
    maximal run of word characters (with `'` and `.` in the transcript
    pattern, without them in the word-count pattern). A position where no
    alternative matches is skipped, as `re.findall` does. */
module Tokens {

  import opened PyStr

  /** `\w` restricted to ASCII: letters, digits and '_'. */
  predicate IsWordChar(c: char) {
    IsLowerLetter(c) || IsUpperLetter(c) || IsDigit(c) || c == '_'
  }

  /** The last alternative: `[\w'.]+` for transcripts, `\w+` for counting. */
  datatype RunKind = ScriptRun | WordRun

  predicate InRun(kind: RunKind, c: char) {
    IsWordChar(c) || (kind == ScriptRun && (c == '\'' || c == '.'))
  }

  /** The length of the longest run of run characters at the start of `s`. */
  function RunLength(kind: RunKind, s: string): (n: nat)
    ensures n <= |s|
    ensures forall i :: 0 <= i < n ==> InRun(kind, s[i])
    ensures n == |s| || !InRun(kind, s[n])
  {
    if s != [] && InRun(kind, s[0]) then 1 + RunLength(kind, s[1..]) else 0
  }

  /** One past the first `close` at or after position `from`; 0 when there
      is none. */
  function Closed(s: string, close: char, from: nat): (n: nat)
    requires from <= |s|
    ensures n == 0 || (from < n <= |s| && s[n - 1] == close && close !in s[from..n - 1])
    ensures n == 0 <==> close !in s[from..]
  {
    if close in s[from..] then
      var i := IndexOf(s[from..], close);
      assert s[from..][..i] == s[from..from + i];
      from + i + 1
    else 0
  }

  /** The length of the match that starts at the front of `s`; 0 when no
      alternative matches there. */
  function MatchLength(kind: RunKind, s: string): (n: nat)
    ensures n <= |s|
  {
    if s == [] then 0
    else if s[0] == '!' then Closed(s, '!', 1)
    else if s[0] == '{' then Closed(s, '}', 1)
    else if s[0] == '(' then (if |s| >= 2 && s[1] != '/' then Closed(s, ')', 2) else 0)
    else if s[0] == '[' then Closed(s, ']', 1)
    else if s[0] == '<' then Closed(s, '>', 1)
    else RunLength(kind, s)
  }

  /** `re.findall(pattern, s)`. */
  function FindAll(kind: RunKind, s: string): (ts: seq<string>)
    ensures forall k :: 0 <= k < |ts| ==> ts[k] != [] && MatchLength(kind, ts[k]) == |ts[k]|
    decreases |s|
  {
    if s == [] then []
    else
      var n := MatchLength(kind, s);
      if n == 0 then FindAll(kind, s[1..])
      else
        assert s[..n] + s[n..] == s;
        MatchPrefix(kind, s[..n], s[n..]);
        [s[..n]] + FindAll(kind, s[n..])
  }

  lemma ClosedAppend(a: string, b: string, close: char, from: nat)
    requires from <= |a| && close in a[from..]
    ensures Closed(a + b, close, from) == Closed(a, close, from)
  {
    assert (a + b)[from..] == a[from..] + b;
    IndexOfAppend(a[from..], b, close);
  }

  lemma {:induction false} RunLengthAppend(kind: RunKind, a: string, b: string)
    requires forall i :: 0 <= i < |a| ==> InRun(kind, a[i])
    requires b == [] || !InRun(kind, b[0])
    ensures RunLength(kind, a + b) == |a|
  {
    if a != [] {
      assert (a + b)[1..] == a[1..] + b;
      RunLengthAppend(kind, a[1..], b);
    } else {
      assert a + b == b;
    }
  }

  /** A match that ends where `a` ends is a match of `a` alone. */
  lemma MatchPrefix(kind: RunKind, a: string, b: string)
    requires a != [] && MatchLength(kind, a + b) == |a|
    ensures MatchLength(kind, a) == |a|
  {
    var s := a + b;
    assert s[0] == a[0];
    if a[0] == '!' {
      ClosedPrefix(a, b, '!', 1);
    } else if a[0] == '{' {
      ClosedPrefix(a, b, '}', 1);
    } else if a[0] == '(' {
      ClosedPrefix(a, b, ')', 2);
      assert s[1] == a[1];
    } else if a[0] == '[' {
      ClosedPrefix(a, b, ']', 1);
    } else if a[0] == '<' {
      ClosedPrefix(a, b, '>', 1);
    } else {
      RunPrefix(kind, a, b);
    }
  }

  /** A delimited match that ends where `a` ends is closed within `a`. */
  lemma ClosedPrefix(a: string, b: string, close: char, from: nat)
    requires from <= |a + b| && a != [] && Closed(a + b, close, from) == |a|
    ensures from < |a| && Closed(a, close, from) == |a|
  {
    assert (a + b)[|a| - 1] == a[|a| - 1];
    assert a[from..][|a| - 1 - from] == close;
    ClosedAppend(a, b, close, from);
  }

  /** A closed match stays closed, and as long, when text follows. */
  lemma ClosedExtend(a: string, b: string, close: char, from: nat)
    requires from <= |a| && a != [] && Closed(a, close, from) == |a|
    ensures Closed(a + b, close, from) == |a|
  {
    assert a[from..][|a| - 1 - from] == close;
    ClosedAppend(a, b, close, from);
  }

  /** A run that ends where `a` ends is a run of all of `a`. */
  lemma RunPrefix(kind: RunKind, a: string, b: string)
    requires RunLength(kind, a + b) == |a|
    ensures RunLength(kind, a) == |a|
  {
    assert forall i :: 0 <= i < |a| ==> a[i] == (a + b)[i];
    assert a + [] == a;
    RunLengthAppend(kind, a, []);
  }

  /** A token stays one token when followed by a space (or nothing). */
  lemma MatchExtend(kind: RunKind, a: string, b: string)
    requires a != [] && MatchLength(kind, a) == |a|
    requires b == [] || b[0] == ' '
    ensures MatchLength(kind, a + b) == |a|
  {
    var s := a + b;
    assert s[0] == a[0];
    if a[0] == '!' {
      ClosedExtend(a, b, '!', 1);
    } else if a[0] == '{' {
      ClosedExtend(a, b, '}', 1);
    } else if a[0] == '(' {
      ClosedExtend(a, b, ')', 2);
      assert s[1] == a[1];
    } else if a[0] == '[' {
      ClosedExtend(a, b, ']', 1);
    } else if a[0] == '<' {
      ClosedExtend(a, b, '>', 1);
    } else {
      RunLengthAppend(kind, a, b);
    }
  }

  /** No alternative matches at a space, so the scanner skips it. */
  lemma FindAllSpace(kind: RunKind, rest: string)
    ensures FindAll(kind, " " + rest) == FindAll(kind, rest)
  {
    var s := " " + rest;
    assert s[0] == ' ' && !InRun(kind, s[0]);
    assert MatchLength(kind, s) == 0;
    assert s[1..] == rest;
  }

  /** A token followed by a space is scanned as that token, and the space
      is skipped. */
  lemma FindAllCons(kind: RunKind, t: string, rest: string)
    requires t != [] && MatchLength(kind, t) == |t|
    ensures FindAll(kind, t + (" " + rest)) == [t] + FindAll(kind, rest)
  {
    var s := t + (" " + rest);
    MatchExtend(kind, t, " " + rest);
    assert s[..|t|] == t;
    assert s[|t|..] == " " + rest;
    assert FindAll(kind, s) == [t] + FindAll(kind, " " + rest);
    FindAllSpace(kind, rest);
  }

  /** Scanning the space-joined tokens of a text yields the same tokens:
      a transcript stage that rejoins its tokens with ' ' hands the next
      stage exactly the tokens it produced. */
  lemma {:induction false} FindAllJoin(kind: RunKind, ts: seq<string>)
    requires forall k :: 0 <= k < |ts| ==> ts[k] != [] && MatchLength(kind, ts[k]) == |ts[k]|
    ensures FindAll(kind, Join(ts, " ")) == ts
    decreases |ts|
  {
    if |ts| == 1 {
      MatchExtend(kind, ts[0], []);
      assert ts[0] + [] == ts[0];
      assert ts[0][..|ts[0]|] == ts[0];
      assert ts[0][|ts[0]|..] == [];
    } else if |ts| > 1 {
      var rest := Join(ts[1..], " ");
      assert Join(ts, " ") == ts[0] + (" " + rest);
      FindAllCons(kind, ts[0], rest);
      FindAllJoin(kind, ts[1..]);
      assert [ts[0]] + ts[1..] == ts;
    }
  }

  /** Scanning is idempotent under `' '.join`. */
  lemma FindAllIdempotent(kind: RunKind, s: string)
    ensures FindAll(kind, Join(FindAll(kind, s), " ")) == FindAll(kind, s)
  {
    FindAllJoin(kind, FindAll(kind, s));
  }
}

=== FILE: video_utils.dfy ===
/** The frame-level half of the face-track generator: nearest-neighbour
    frame-rate conversion, the padded face crop, the choice of source frames
    for a clip, and the temporary-file discipline of clip saving. Pixels are
    integer channel vectors; OpenCV and ffmpeg appear only as given values
    (frames a capture returns, the outcome of each external step). */
module VideoUtils {

  import opened Wrappers
  import opened PyStr
  import Paths
  import CommonUtils
  import WavUtils

  // ---------------------------------------------------------------------
  // Arithmetic on naturals
  // ---------------------------------------------------------------------

  lemma MulMono(a: nat, b: nat, c: nat)
    requires a <= b
    ensures a * c <= b * c
  {
  }

  lemma DivMono(a: nat, b: nat, d: nat)
    requires a <= b && d > 0
    ensures a / d <= b / d
  {
    if a / d > b / d {
      MulMono(b / d + 1, a / d, d);
      assert false;
    }
  }

  /** A quotient stays below `n` when its dividend stays below `n * d`. */
  lemma DivBelow(a: nat, d: nat, n: nat)
    requires d > 0 && a < n * d
    ensures a / d < n
  {
    if a / d >= n {
      MulMono(n, a / d, d);
      assert false;
    }
  }

  // ---------------------------------------------------------------------
  // resample_frames
  // ---------------------------------------------------------------------

  /** The length of a resampled list: `int(src_len * trg_fps / src_fps)`. */
  function ResampledLength(n: nat, src: nat, trg: nat): nat
    requires src > 0
  {
    n * trg / src
  }

  lemma ResampledLengthPositive(n: nat, src: nat, trg: nat)
    requires src > 0 && ResampledLength(n, src, trg) > 0
    ensures n > 0 && trg > 0
  {
    assert n == 0 ==> n * trg == 0;
    assert trg == 0 ==> n * trg == 0;
  }

  /** The frame output position `i` copies: `min(int(i * src / trg), n - 1)`. */
  function SourceIndex(i: nat, src: nat, trg: nat, n: nat): (k: nat)
    requires trg > 0 && n > 0
    ensures k < n
  {
    var k := i * src / trg;
    if k <= n - 1 then k else n - 1
  }

  /** `resample_frames`: nearest-by-truncation frame-rate conversion. A zero
      source rate raises ZeroDivisionError. */
  function ResampleFrames<T>(frames: seq<T>, src: nat, trg: nat): (r: Option<seq<T>>)
    ensures r.None? <==> src == 0
    ensures r.Some? ==> |r.value| == ResampledLength(|frames|, src, trg)
    ensures r.Some? ==> forall i :: 0 <= i < |r.value| ==>
              trg > 0 && |frames| > 0 && r.value[i] == frames[SourceIndex(i, src, trg, |frames|)]
  {
    if src == 0 then None
    else
      var len := ResampledLength(|frames|, src, trg);
      if len == 0 then Some([])
      else
        ResampledLengthPositive(|frames|, src, trg);
        Some(seq(len, i requires 0 <= i < len => frames[SourceIndex(i, src, trg, |frames|)]))
  }

  /** The clamp to `n - 1` never fires: every output position `i` reads
      source frame `int(i * src / trg)` itself. */
  lemma {:induction false} ResampleNoClamp(n: nat, src: nat, trg: nat, i: nat)
    requires src > 0 && i < ResampledLength(n, src, trg)
    ensures trg > 0 && n > 0 && i * src / trg < n
    ensures SourceIndex(i, src, trg, n) == i * src / trg
  {
    ResampledLengthPositive(n, src, trg);
    var len := ResampledLength(n, src, trg);
    MulMono(i + 1, len, src);
    assert len * src <= n * trg;
    assert i * src < n * trg;
    DivBelow(i * src, trg, n);
  }

  /** Source positions never go backwards: the output is a non-decreasing
      walk through the input. */
  lemma ResampleOrder(n: nat, src: nat, trg: nat, i: nat, j: nat)
    requires trg > 0 && n > 0 && i <= j
    ensures SourceIndex(i, src, trg, n) <= SourceIndex(j, src, trg, n)
  {
    MulMono(i, j, src);
    DivMono(i * src, j * src, trg);
  }

  /** Resampling at the source rate is the identity. */
  lemma ResampleIdentity<T>(frames: seq<T>, fps: nat)
    requires fps > 0
    ensures ResampleFrames(frames, fps, fps) == Some(frames)
  {
    CommonUtils.SameRateFrame(|frames|, fps);
    var r := ResampleFrames(frames, fps, fps).value;
    forall i | 0 <= i < |frames| ensures r[i] == frames[i] {
      CommonUtils.SameRateFrame(i, fps);
    }
    assert r == frames;
  }

  // ---------------------------------------------------------------------
  // crop_frame
  // ---------------------------------------------------------------------

  /** Extra pixels added around the largest overflow when padding. */
  const PadMargin: nat := 10
  /** The constant value of padded pixels, in every channel. */
  const PadFill: int := 110

  /** An `H x W x C` image. */
  datatype Image = Image(h: nat, w: nat, c: nat, px: seq<seq<seq<int>>>)

  /** `img.h` rows of `img.w` pixels each. */
  predicate Valid(img: Image) {
    |img.px| == img.h && forall y :: 0 <= y < img.h ==> |img.px[y]| == img.w
  }

  /** A padding pixel. */
  function Fill(c: nat): (p: seq<int>)
    ensures |p| == c && forall k :: 0 <= k < c ==> p[k] == PadFill
  {
    seq(c, _ => PadFill)
  }

  /** Reference picture of padding: the image extended to the whole plane
      with fill pixels. */
  function Extended(img: Image, y: int, x: int): seq<int>
    requires Valid(img)
  {
    if 0 <= y < img.h && 0 <= x < img.w then img.px[y][x] else Fill(img.c)
  }

  /** `np.pad(frame, ((p, p), (p, p), (0, 0)), 'constant', constant_values=110)`. */
  function Pad(img: Image, p: nat): (r: Image)
    requires Valid(img)
    ensures Valid(r) && r.h == img.h + 2 * p && r.w == img.w + 2 * p && r.c == img.c
  {
    var h := img.h + 2 * p;
    var w := img.w + 2 * p;
    var px := seq(h, y => seq(w, x => Extended(img, y - p, x - p)));
    assert forall y :: 0 <= y < h ==> |px[y]| == w;
    Image(h, w, img.c, px)
  }

  /** `img[y1:y2, x1:x2]` with numpy's slice semantics (negative bounds count
      from the end, bounds are clipped, an inverted range is empty). */
  function Window(img: Image, y1: int, y2: int, x1: int, x2: int): (r: Image)
    requires Valid(img)
    ensures Valid(r) && r.c == img.c
    ensures r.h == |Slice(img.px, y1, y2)|
    ensures SliceBound(y1, img.h) + r.h <= img.h && SliceBound(x1, img.w) + r.w <= img.w
  {
    var ya := SliceBound(y1, img.h);
    var yb := SliceBound(y2, img.h);
    var xa := SliceBound(x1, img.w);
    var xb := SliceBound(x2, img.w);
    var nh := if ya <= yb then yb - ya else 0;
    var nw := if xa <= xb then xb - xa else 0;
    Image(nh, nw, img.c, seq(nh, i requires 0 <= i < nh => seq(nw, j requires 0 <= j < nw => img.px[ya + i][xa + j])))
  }

  /** Pixel `(y, x)` of the padded image is pixel `(y - p, x - p)` of the
      image extended with fill. */
  lemma PadAt(img: Image, p: nat, y: nat, x: nat, srcY: int, srcX: int)
    requires Valid(img) && y < img.h + 2 * p && x < img.w + 2 * p
    requires srcY == y - p && srcX == x - p
    ensures Pad(img, p).px[y][x] == Extended(img, srcY, srcX)
  {
  }

  /** A window inside the image's bounds takes exactly the bounded pixels. */
  lemma WindowInside(img: Image, y1: int, y2: int, x1: int, x2: int)
    requires Valid(img)
    ensures 0 <= y1 <= y2 <= img.h && 0 <= x1 <= x2 <= img.w ==>
      && Window(img, y1, y2, x1, x2).h == y2 - y1 && Window(img, y1, y2, x1, x2).w == x2 - x1
      && forall i, j :: 0 <= i < y2 - y1 && 0 <= j < x2 - x1 ==>
           Window(img, y1, y2, x1, x2).px[i][j] == img.px[y1 + i][x1 + j]
  {
    if 0 <= y1 <= y2 <= img.h && 0 <= x1 <= x2 <= img.w {
      forall i, j | 0 <= i < y2 - y1 && 0 <= j < x2 - x1
        ensures Window(img, y1, y2, x1, x2).px[i][j] == img.px[y1 + i][x1 + j]
      {
        WindowAt(img, y1, y2, x1, x2, i, j);
      }
    }
  }

  /** Pixel `(i, j)` of an in-bounds window is pixel `(y1 + i, x1 + j)`. */
  lemma WindowAt(img: Image, y1: int, y2: int, x1: int, x2: int, i: nat, j: nat)
    requires Valid(img) && 0 <= y1 <= y2 <= img.h && 0 <= x1 <= x2 <= img.w
    requires i < y2 - y1 && j < x2 - x1
    ensures Window(img, y1, y2, x1, x2).h == y2 - y1 && Window(img, y1, y2, x1, x2).w == x2 - x1
    ensures Window(img, y1, y2, x1, x2).px[i][j] == img.px[y1 + i][x1 + j]
  {
  }

  /** The pixel box of a unit-square bounding box: `int(bbox[k] * W or H)`. */
  datatype PixelBox = PixelBox(x1: int, y1: int, x2: int, y2: int)

  function PixelBoxOf(b: CommonUtils.BBox, h: nat, w: nat): PixelBox {
    PixelBox(Trunc(b.x1 * w as real), Trunc(b.y1 * h as real), Trunc(b.x2 * w as real), Trunc(b.y2 * h as real))
  }

  /** `max(-x1, -y1, x2 - W, y2 - H, 0)`: the largest overflow of the box. */
  function OutOfFrame(pb: PixelBox, h: nat, w: nat): (o: nat)
    ensures o > 0 <==> pb.x1 < 0 || pb.y1 < 0 || pb.x2 > w || pb.y2 > h
    ensures -pb.x1 <= o && -pb.y1 <= o && pb.x2 - w <= o && pb.y2 - h <= o
    ensures o == 0 || o == -pb.x1 || o == -pb.y1 || o == pb.x2 - w || o == pb.y2 - h
  {
    var m1 := if -pb.x1 >= -pb.y1 then -pb.x1 else -pb.y1;
    var m2 := if pb.x2 - w >= pb.y2 - h then pb.x2 - w else pb.y2 - h;
    var m := if m1 >= m2 then m1 else m2;
    if m >= 0 then m else 0
  }

  /** `crop_frame` without `frame_size` (the resize is applied by the
      caller): the box's pixels, padded with fill 110 by the overflow plus
      10 when the box leaves the frame and padding is on. The corners are
      the box's unit coordinates scaled by the frame size and truncated. */
  function CropFrame(frame: Image, bbox: CommonUtils.BBox, padding: bool): (r: Image)
    requires Valid(frame)
    ensures Valid(r) && r.c == frame.c
    ensures var pb := PixelBoxOf(bbox, frame.h, frame.w);
      && (padding && pb.x1 <= pb.x2 && pb.y1 <= pb.y2 ==> r.h == pb.y2 - pb.y1 && r.w == pb.x2 - pb.x1)
      && (0 <= pb.x1 <= pb.x2 <= frame.w && 0 <= pb.y1 <= pb.y2 <= frame.h ==>
            r.h == pb.y2 - pb.y1 && r.w == pb.x2 - pb.x1)
  {
    CropBox(frame, PixelBoxOf(bbox, frame.h, frame.w), padding)
  }

  /** The crop of a pixel box. With padding on and a well-ordered box it is
      exactly the box, each pixel the frame's where the box overlaps the
      frame and the fill value elsewhere; a box inside the frame crops the
      frame's own pixels, padding or not. */
  function CropBox(frame: Image, pb: PixelBox, padding: bool): (r: Image)
    requires Valid(frame)
    ensures Valid(r) && r.c == frame.c
    ensures padding && pb.x1 <= pb.x2 && pb.y1 <= pb.y2 ==>
      && r.h == pb.y2 - pb.y1 && r.w == pb.x2 - pb.x1
      && forall i, j :: 0 <= i < r.h && 0 <= j < r.w ==> r.px[i][j] == Extended(frame, pb.y1 + i, pb.x1 + j)
    ensures 0 <= pb.x1 <= pb.x2 <= frame.w && 0 <= pb.y1 <= pb.y2 <= frame.h ==>
      && r.h == pb.y2 - pb.y1 && r.w == pb.x2 - pb.x1
      && forall i, j :: 0 <= i < r.h && 0 <= j < r.w ==> r.px[i][j] == frame.px[pb.y1 + i][pb.x1 + j]
  {
    var o := OutOfFrame(pb, frame.h, frame.w);
    if padding && o > 0 then
      var p := o + PadMargin;
      if pb.x1 <= pb.x2 && pb.y1 <= pb.y2 then
        PaddedCrop(frame, pb, p);
        PaddedWindow(frame, pb, p)
      else
        PaddedWindow(frame, pb, p)
    else
      WindowInside(frame, pb.y1, pb.y2, pb.x1, pb.x2);
      Window(frame, pb.y1, pb.y2, pb.x1, pb.x2)
  }

  /** The padded branch of `crop_frame`: the box, shifted by the pad, cut
      from the padded frame. */
  function PaddedWindow(frame: Image, pb: PixelBox, p: nat): (r: Image)
    requires Valid(frame)
    ensures Valid(r) && r.c == frame.c
  {
    Window(Pad(frame, p), pb.y1 + p, pb.y2 + p, pb.x1 + p, pb.x2 + p)
  }

  /** A well-ordered box shifted by the overflow plus `PadMargin` lies
      inside the padded frame. */
  lemma ShiftInside(pb: PixelBox, h: nat, w: nat, p: nat)
    requires p == OutOfFrame(pb, h, w) + PadMargin
    requires pb.y1 <= pb.y2 && pb.x1 <= pb.x2
    ensures 0 <= pb.y1 + p <= pb.y2 + p <= h + 2 * p
    ensures 0 <= pb.x1 + p <= pb.x2 + p <= w + 2 * p
  {
  }

  /** Pixel `(i, j)` of a window `w` cut inside `big` is pixel
      `(y1 + i, x1 + j)` of `big`. */
  lemma WindowPixel(big: Image, y1: int, y2: int, x1: int, x2: int, i: nat, j: nat, w: Image)
    requires Valid(big) && 0 <= y1 <= y2 <= big.h && 0 <= x1 <= x2 <= big.w
    requires i < y2 - y1 && j < x2 - x1
    requires w == Window(big, y1, y2, x1, x2)
    ensures i < w.h && j < w.w && w.px[i][j] == big.px[y1 + i][x1 + j]
  {
    WindowAt(big, y1, y2, x1, x2, i, j);
  }

  /** Pixel `(y, x)` of the padded frame `big` is the extended frame's
      pixel `(y - p, x - p)`. */
  lemma PadPixel(frame: Image, p: nat, y: nat, x: nat, big: Image)
    requires Valid(frame) && big == Pad(frame, p)
    requires y < big.h && x < big.w
    ensures big.px[y][x] == Extended(frame, y - p, x - p)
  {
    PadAt(frame, p, y, x, y - p, x - p);
  }

  /** Pixel `(i, j)` of a window `w` cut inside the padded frame `big` is
      the extended frame's pixel `(sy, sx)`, the window's corner shifted
      back by the pad. */
  lemma PaddedPixel(frame: Image, p: nat, y1: int, y2: int, x1: int, x2: int, i: nat, j: nat,
                    sy: int, sx: int, big: Image, w: Image)
    requires Valid(frame) && big == Pad(frame, p)
    requires 0 <= y1 <= y2 <= big.h && 0 <= x1 <= x2 <= big.w
    requires i < y2 - y1 && j < x2 - x1
    requires sy + p == y1 + i && sx + p == x1 + j
    requires w == Window(big, y1, y2, x1, x2)
    ensures i < w.h && j < w.w && w.px[i][j] == Extended(frame, sy, sx)
  {
    WindowPixel(big, y1, y2, x1, x2, i, j, w);
    PadPixel(frame, p, y1 + i, x1 + j, big);
  }

  /** When the shifted box lies inside the padded frame, pixel `(i, j)` of
      the padded window is the extended frame's pixel `(y1 + i, x1 + j)`. */
  lemma PaddedWindowAt(frame: Image, pb: PixelBox, p: nat, i: nat, j: nat)
    requires Valid(frame)
    requires 0 <= pb.y1 + p <= pb.y2 + p <= frame.h + 2 * p
    requires 0 <= pb.x1 + p <= pb.x2 + p <= frame.w + 2 * p
    requires i < pb.y2 - pb.y1 && j < pb.x2 - pb.x1
    ensures PaddedWindow(frame, pb, p).px[i][j] == Extended(frame, pb.y1 + i, pb.x1 + j)
  {
    PaddedPixel(frame, p, pb.y1 + p, pb.y2 + p, pb.x1 + p, pb.x2 + p, i, j, pb.y1 + i, pb.x1 + j,
                Pad(frame, p), PaddedWindow(frame, pb, p));
  }

  /** With the pad the overflow plus `PadMargin`, the window lies inside the
      padded frame, so it has the box's size and the extended frame's
      pixels. */
  lemma PaddedCrop(frame: Image, pb: PixelBox, p: nat)
    requires Valid(frame) && p == OutOfFrame(pb, frame.h, frame.w) + PadMargin
    requires pb.x1 <= pb.x2 && pb.y1 <= pb.y2
    ensures PaddedWindow(frame, pb, p).h == pb.y2 - pb.y1
    ensures PaddedWindow(frame, pb, p).w == pb.x2 - pb.x1
    ensures forall i, j :: 0 <= i < pb.y2 - pb.y1 && 0 <= j < pb.x2 - pb.x1 ==>
              PaddedWindow(frame, pb, p).px[i][j] == Extended(frame, pb.y1 + i, pb.x1 + j)
  {
    ShiftInside(pb, frame.h, frame.w, p);
    WindowInside(Pad(frame, p), pb.y1 + p, pb.y2 + p, pb.x1 + p, pb.x2 + p);
    forall i, j | 0 <= i < pb.y2 - pb.y1 && 0 <= j < pb.x2 - pb.x1
      ensures PaddedWindow(frame, pb, p).px[i][j] == Extended(frame, pb.y1 + i, pb.x1 + j)
    {
      PaddedWindowAt(frame, pb, p, i, j);
    }
  }

  /** `crop_frame` pads exactly when some pixel coordinate of the box lies
      outside the frame, by the largest overflow plus `PadMargin`. */
  lemma CropFramePads(frame: Image, bbox: CommonUtils.BBox)
    requires Valid(frame)
    ensures var pb := PixelBoxOf(bbox, frame.h, frame.w);
      var o := OutOfFrame(pb, frame.h, frame.w);
      && (o > 0 <==> pb.x1 < 0 || pb.y1 < 0 || pb.x2 > frame.w || pb.y2 > frame.h)
      && (o > 0 ==> CropFrame(frame, bbox, true) == PaddedWindow(frame, pb, o + PadMargin))
  {
  }

  // ---------------------------------------------------------------------
  // Face_Track_Generator
  // ---------------------------------------------------------------------

  /** An opened capture: its integer FPS (`int(CAP_PROP_FPS)`), its
      reported frame count, and what a seek-and-read returns at each
      position (`None` where no frame decodes). */
  datatype Video = Video(fps: nat, length: nat, frames: seq<Option<Image>>)

  /** Every frame that decodes is a well-formed image. */
  predicate ValidVideo(v: Video) {
    forall k :: 0 <= k < |v.frames| && v.frames[k].Some? ==> Valid(v.frames[k].value)
  }

  /** `cap.set(CAP_PROP_POS_FRAMES, idx); cap.read()`: there is no frame
      past the decodable stream. */
  function ReadFrame(v: Video, idx: nat): (r: Option<Image>)
    ensures idx >= |v.frames| ==> r.None?
    ensures ValidVideo(v) && r.Some? ==> Valid(r.value)
  {
    if idx < |v.frames| then v.frames[idx] else None
  }

  /** Loaded audio: the samples and their rate. */
  datatype Audio = Audio(wav: seq<real>, sr: nat)

  /** The generator's state; `audio` is `Some` exactly when
      `audio_in_track` is set. */
  datatype Generator = Generator(video: Video, tracks: map<int, CommonUtils.FrameMap>,
                                 trgSize: nat, trgFps: nat, audio: Option<Audio>)

  datatype GenError =
    | VideoNotFound                            // the video path is not a file
    | BadAnnotation(cause: CommonUtils.TrackError)
    | UnknownTrack(id: int)                    // face_tracks[track_id] raised KeyError
    | EmptyFaceTrack(id: int)                  // min() of an empty key list
    | FaceCroppingFailed(frame: nat)           // anything raised inside the crop loop's try
    | ZeroVideoFps                             // resample_frames divided by a zero source FPS
    | WavCropFailed(wavCause: WavUtils.WavError)
    | SavingFailed                             // a saving step raised

  function LiftTrackError<T>(r: Result<T, CommonUtils.TrackError>): (q: Result<T, GenError>)
    ensures q.Success? <==> r.Success?
    ensures q.Success? ==> q.value == r.value
  {
    match r
    case Success(v) => Success(v)
    case Failure(e) => Failure(BadAnnotation(e))
  }

  /** The annotation brought to the video's frame rate: resampled only when
      the two rates differ. */
  function AtVideoRate(ann: CommonUtils.Annotation, fps: nat): (r: Result<CommonUtils.Annotation, CommonUtils.TrackError>)
    ensures r.Success? ==> r.value.fps == fps
    ensures ann.fps == fps ==> r == Success(ann)
    ensures r.Success? ==> |r.value.tracks| == |ann.tracks| && forall k :: 0 <= k < |ann.tracks| ==>
              r.value.tracks[k].index == ann.tracks[k].index
    ensures r.Success? && ann.fps != fps ==> CommonUtils.WellFormed(r.value.tracks)
    ensures ann.fps != fps ==> r == CommonUtils.ResampleFaceTrack(ann, fps)
  {
    if ann.fps != fps then CommonUtils.ResampleFaceTrack(ann, fps) else Success(ann)
  }

  /** `Face_Track_Generator.__init__` given whether the video path is a
      file, what the capture reports, and the loaded annotation. */
  function NewGenerator(videoExists: bool, video: Video, ann: CommonUtils.Annotation,
                        trackSize: nat, trackFramerate: nat): (r: Result<Generator, GenError>)
    ensures !videoExists ==> r == Failure(VideoNotFound)
    ensures r.Success? ==>
      && r.value.video == video && r.value.audio.None?
      && r.value.trgSize == trackSize && r.value.trgFps == trackFramerate
    ensures r.Success? ==> forall t :: t in r.value.tracks <==> CommonUtils.HasTrack(ann.tracks, t)
    ensures r.Success? ==>
      && AtVideoRate(ann, video.fps).Success?
      && CommonUtils.ParseFaceTrackJson(AtVideoRate(ann, video.fps).value) == Success(r.value.tracks)
    ensures videoExists && ann.fps == video.fps ==> (r.Success? <==> CommonUtils.WellFormed(ann.tracks))
    ensures videoExists && ann.fps != video.fps ==> (r.Success? <==> CommonUtils.ResampleFaceTrack(ann, video.fps).Success?)
  {
    if !videoExists then Failure(VideoNotFound)
    else
      var atRate :- LiftTrackError(AtVideoRate(ann, video.fps));
      var tracks :- LiftTrackError(CommonUtils.ParseFaceTrackJson(atRate));
      assert forall t :: CommonUtils.HasTrack(atRate.tracks, t) <==> CommonUtils.HasTrack(ann.tracks, t) by {
        forall t ensures CommonUtils.HasTrack(atRate.tracks, t) <==> CommonUtils.HasTrack(ann.tracks, t) {
          if CommonUtils.HasTrack(atRate.tracks, t) {
            var k :| 0 <= k < |atRate.tracks| && atRate.tracks[k].index == t;
            assert ann.tracks[k].index == t;
          }
          if CommonUtils.HasTrack(ann.tracks, t) {
            var k :| 0 <= k < |ann.tracks| && ann.tracks[k].index == t;
            assert atRate.tracks[k].index == t;
          }
        }
      }
      Success(Generator(video, tracks, trackSize, trackFramerate, None))
  }

  /** `load_audio`: the samples become the generator's audio track;
      nothing else changes. */
  function LoadAudio(g: Generator, wav: seq<real>, sr: nat): (r: Generator)
    ensures r.audio.Some? && r.audio.value.wav == wav && r.audio.value.sr == sr
    ensures r.video == g.video && r.tracks == g.tracks && r.trgSize == g.trgSize && r.trgFps == g.trgFps
  {
    g.(audio := Some(Audio(wav, sr)))
  }

  /** `[f for f in range(n) if lo <= f <= hi]`. */
  function SrcIdxs(n: nat, lo: int, hi: int): (r: seq<nat>)
    ensures forall k :: 0 <= k < |r| ==> r[k] < n && lo <= r[k] <= hi
  {
    if n == 0 then []
    else SrcIdxs(n - 1, lo, hi) + (if lo <= n - 1 <= hi then [n - 1] else [])
  }

  /** `list(range(a, b))`. */
  function Range(a: nat, b: nat): (r: seq<nat>)
    ensures |r| == if a <= b then b - a else 0
    ensures forall k :: 0 <= k < |r| ==> r[k] == a + k
  {
    if a < b then seq(b - a, k requires 0 <= k < b - a => a + k) else []
  }

  lemma RangeSnoc(a: nat, b: nat)
    requires a <= b
    ensures Range(a, b + 1) == Range(a, b) + [b]
  {
    assert Range(a, b + 1)[..b - a] == Range(a, b);
  }

  /** The frames a clip reads form one contiguous run: from the clip's first
      frame (at least 0) up to its last (below the frame count). */
  lemma {:induction false} SrcIdxsRange(n: nat, lo: int, hi: int)
    ensures SrcIdxs(n, lo, hi) ==
      Range(if lo < 0 then 0 else lo, if hi < 0 then 0 else if hi + 1 < n then hi + 1 else n)
  {
    var a: nat := if lo < 0 then 0 else lo;
    if n > 0 {
      SrcIdxsRange(n - 1, lo, hi);
      if lo <= n - 1 <= hi {
        RangeSnoc(a, n - 1);
      }
    }
  }

  /** `min(m.keys())`. */
  function MinKey(m: CommonUtils.FrameMap): (k: nat)
    requires m != map[]
    ensures k in m && forall j :: j in m ==> k <= j
  {
    MinExists(m.Keys);
    var k :| k in m && forall j :: j in m ==> k <= j;
    k
  }

  /** `max(m.keys())`. */
  function MaxKey(m: CommonUtils.FrameMap): (k: nat)
    requires m != map[]
    ensures k in m && forall j :: j in m ==> j <= k
  {
    MaxExists(m.Keys);
    var k :| k in m && forall j :: j in m ==> j <= k;
    k
  }

  lemma MinExists(s: set<nat>)
    requires s != {}
    ensures exists k :: k in s && forall j :: j in s ==> k <= j
  {
    var x :| x in s;
    MinBelow(s, x);
  }

  /** Descending from any member reaches a least one. */
  lemma {:induction false} MinBelow(s: set<nat>, x: nat)
    requires x in s
    ensures exists k :: k in s && forall j :: j in s ==> k <= j
    decreases x
  {
    if !forall j :: j in s ==> x <= j {
      var y :| y in s && y < x;
      MinBelow(s, y);
    }
  }

  lemma {:induction false} MaxExists(s: set<nat>)
    requires s != {}
    ensures exists k :: k in s && forall j :: j in s ==> j <= k
    decreases |s|
  {
    var x :| x in s;
    var rest := s - {x};
    if rest == {} {
      MaxOfSingle(s, x);
    } else {
      assert |rest| < |s|;
      MaxExists(rest);
      var hi :| hi in rest && forall j :: j in rest ==> j <= hi;
      MaxOfAdded(s, x, rest, hi);
    }
  }

  lemma MaxOfSingle(s: set<nat>, x: nat)
    requires x in s && s - {x} == {}
    ensures forall j :: j in s ==> j <= x
  {
    forall j | j in s ensures j <= x {
      assert j !in s - {x};
    }
  }

  lemma MaxOfAdded(s: set<nat>, x: nat, rest: set<nat>, hi: nat)
    requires x in s && rest == s - {x} && hi in rest && forall j :: j in rest ==> j <= hi
    ensures exists k :: k in s && forall j :: j in s ==> j <= k
  {
    var mx := if x >= hi then x else hi;
    forall j | j in s ensures j <= mx {
      if j != x {
        assert j in rest;
      }
    }
    assert mx in s;
  }

  /** One iteration of the crop loop: read frame `idx`, look up the box of
      `min(max(idx, first), last)`, crop with padding and resize. Whatever
      goes wrong inside the `try` surfaces as one generic failure; `resize`
      stands for `cv2.resize` to the track size, which rejects an empty
      crop. */
  function CropAt(v: Video, ft: CommonUtils.FrameMap, first: nat, last: nat, idx: nat,
                  resize: Image -> Image): (r: Result<Image, GenError>)
    requires ValidVideo(v) && first <= last
    ensures r.Failure? ==> r.error == FaceCroppingFailed(idx)
    ensures ReadFrame(v, idx).None? || CommonUtils.Clamp(idx, first, last) !in ft ==> r.Failure?
    ensures r.Success? ==>
      && ReadFrame(v, idx).Some? && CommonUtils.Clamp(idx, first, last) in ft
      && var crop := CropFrame(ReadFrame(v, idx).value, ft[CommonUtils.Clamp(idx, first, last)], true);
         crop.h > 0 && crop.w > 0 && r.value == resize(crop)
  {
    var frame := ReadFrame(v, idx);
    var key := CommonUtils.Clamp(idx, first, last);
    if frame.None? || key !in ft then Failure(FaceCroppingFailed(idx))
    else
      var crop := CropFrame(frame.value, ft[key], true);
      if crop.h == 0 || crop.w == 0 then Failure(FaceCroppingFailed(idx))
      else Success(resize(crop))
  }

  /** The crop loop over the clip's frames: it stops at the first failure. */
  function CropAll(v: Video, ft: CommonUtils.FrameMap, first: nat, last: nat, idxs: seq<nat>,
                   resize: Image -> Image): (r: Result<seq<Image>, GenError>)
    requires ValidVideo(v) && first <= last
    ensures r.Success? <==> forall k :: 0 <= k < |idxs| ==> CropAt(v, ft, first, last, idxs[k], resize).Success?
    ensures r.Success? ==> |r.value| == |idxs| && forall k :: 0 <= k < |idxs| ==>
              CropAt(v, ft, first, last, idxs[k], resize) == Success(r.value[k])
  {
    var rs := seq(|idxs|, k requires 0 <= k < |idxs| => CropAt(v, ft, first, last, idxs[k], resize));
    assert forall k :: 0 <= k < |idxs| ==> rs[k] == CropAt(v, ft, first, last, idxs[k], resize);
    AllSuccess(rs)
  }

  /** The frames the clip `[start, end]` seconds reads. */
  function ClipFrames(v: Video, start: real, end: real): seq<nat> {
    SrcIdxs(v.length, Trunc(start * v.fps as real), Trunc(end * v.fps as real))
  }

  /** `get_face_crop`: the crops of the clip's frames, then resampled to the
      track frame rate when it differs from the video's. */
  function GetFaceCrop(g: Generator, trackId: int, start: real, end: real, resize: Image -> Image)
    : (r: Result<seq<Image>, GenError>)
    requires ValidVideo(g.video)
    ensures trackId !in g.tracks ==> r == Failure(UnknownTrack(trackId))
    ensures trackId in g.tracks && g.tracks[trackId] == map[] ==> r == Failure(EmptyFaceTrack(trackId))
    ensures r.Success? ==> trackId in g.tracks && g.tracks[trackId] != map[]
    ensures r.Success? ==>
      var ft := g.tracks[trackId];
      var idxs := ClipFrames(g.video, start, end);
      && (g.video.fps == g.trgFps ==>
            |r.value| == |idxs| && forall k :: 0 <= k < |idxs| ==>
              CropAt(g.video, ft, MinKey(ft), MaxKey(ft), idxs[k], resize) == Success(r.value[k]))
      && (g.video.fps != g.trgFps ==>
            g.video.fps > 0 && |r.value| == ResampledLength(|idxs|, g.video.fps, g.trgFps) &&
            forall i :: 0 <= i < |r.value| ==>
              g.trgFps > 0 && |idxs| > 0 &&
              CropAt(g.video, ft, MinKey(ft), MaxKey(ft), idxs[SourceIndex(i, g.video.fps, g.trgFps, |idxs|)], resize)
                == Success(r.value[i]))
    ensures trackId in g.tracks && g.tracks[trackId] != map[] ==>
      var ft := g.tracks[trackId];
      var idxs := ClipFrames(g.video, start, end);
      (r.Success? <==>
         && (forall k :: 0 <= k < |idxs| ==> CropAt(g.video, ft, MinKey(ft), MaxKey(ft), idxs[k], resize).Success?)
         && (g.video.fps != g.trgFps ==> g.video.fps > 0))
  {
    if trackId !in g.tracks then Failure(UnknownTrack(trackId))
    else
      var ft := g.tracks[trackId];
      if ft == map[] then Failure(EmptyFaceTrack(trackId))
      else
        var idxs := ClipFrames(g.video, start, end);
        var crops :- CropAll(g.video, ft, MinKey(ft), MaxKey(ft), idxs, resize);
        if g.video.fps == g.trgFps then Success(crops)
        else if g.video.fps == 0 then Failure(ZeroVideoFps)
        else Success(ResampleFrames(crops, g.video.fps, g.trgFps).value)
  }

  /** A track annotated on every frame from its first to its last never
      misses a box: frame `idx` of the clip then fails only when it does
      not decode or its crop is empty. */
  lemma CropAtContiguous(v: Video, ft: CommonUtils.FrameMap, idx: nat, resize: Image -> Image)
    requires ValidVideo(v) && ft != map[]
    requires forall f :: MinKey(ft) <= f <= MaxKey(ft) ==> f in ft
    ensures var key := CommonUtils.Clamp(idx, MinKey(ft), MaxKey(ft));
      && key in ft
      && (CropAt(v, ft, MinKey(ft), MaxKey(ft), idx, resize).Failure? <==>
            ReadFrame(v, idx).None? ||
            CropFrame(ReadFrame(v, idx).value, ft[key], true).h == 0 ||
            CropFrame(ReadFrame(v, idx).value, ft[key], true).w == 0)
  {
  }

  // ---------------------------------------------------------------------
  // save_video
  // ---------------------------------------------------------------------

  /** What one external step did: whether its file exists afterwards, and
      whether it raised. */
  datatype Effect = Effect(created: bool, raised: bool)

  /** `output_path.replace(ext, "_t.wav")`. */
  function TmpWavPath(out: string): string {
    Replace(out, Paths.SplitExt(out).1, "_t.wav")
  }

  /** `output_path.replace(ext, "_t" + ext)`. */
  function TmpVidPath(out: string): string {
    var ext := Paths.SplitExt(out).1;
    Replace(out, ext, "_t" + ext)
  }

  /** Neither temporary name is the output path: the replacement either
      rewrites an occurrence of the extension, whose leading '.' becomes a
      '_', or, for an output without extension, inserts text. The two
      temporary names may equal each other (`TempNamesCollide`). */
  lemma TempNamesDiffer(out: string)
    ensures TmpWavPath(out) != out && TmpVidPath(out) != out
  {
    var (root, ext) := Paths.SplitExt(out);
    if ext != [] {
      PyStr.ContainsSuffix(root, ext);
    }
    PyStr.ReplaceChanges(out, ext, "_t.wav");
    PyStr.ReplaceChanges(out, ext, "_t" + ext);
  }

  /** For a `.wav` output the two temporary names coincide: the wav write
      then lands on the temporary video before the merge reads it. */
  lemma TempNamesCollide(out: string)
    requires Paths.SplitExt(out).1 == ".wav"
    ensures TmpWavPath(out) == TmpVidPath(out)
  {
    assert "_t" + ".wav" == "_t.wav";
  }

  /** When the stem does not itself contain the extension, the temporary
      files sit next to the output: `<stem>_t.wav` and `<stem>_t<ext>`. */
  lemma TempNames(out: string)
    requires Paths.SplitExt(out).1 != [] && !Contains(Paths.SplitExt(out).0, Paths.SplitExt(out).1)
    ensures TmpWavPath(out) == Paths.SplitExt(out).0 + "_t.wav"
    ensures TmpVidPath(out) == Paths.SplitExt(out).0 + "_t" + Paths.SplitExt(out).1
  {
    var (root, ext) := Paths.SplitExt(out);
    Paths.ExtensionUnbordered(ext);
    PyStr.ReplaceAtEnd(root, ext, "_t.wav");
    PyStr.ReplaceAtEnd(root, ext, "_t" + ext);
    assert root + ("_t" + ext) == root + "_t" + ext;
  }

  /** `save_video` on the set of existing paths. The writer targets the
      temporary video when audio is merged and the output otherwise; with
      audio the samples go to the temporary wav and ffmpeg merges both
      into the output. Writing the frames, the wav write and the merge all
      run inside the `try`, so the first one that raises ends it; the
      `finally` removes both temporaries whatever happened. */
  function SaveVideo(fs: set<string>, out: string, withAudio: bool,
                     writer: Effect, wavWrite: Effect, merge: Effect): (r: (set<string>, Outcome<GenError>))
    ensures TmpWavPath(out) !in r.0 && TmpVidPath(out) !in r.0
    ensures forall f :: f != out && f != TmpWavPath(out) && f != TmpVidPath(out) ==> (f in r.0 <==> f in fs)
    ensures out in r.0 <==>
      out in fs || (if withAudio then !writer.raised && !wavWrite.raised && merge.created else writer.created)
    ensures r.1.Fail? <==> writer.raised || (withAudio && (wavWrite.raised || merge.raised))
  {
    var tw := TmpWavPath(out);
    var tv := TmpVidPath(out);
    TempNamesDiffer(out);
    var written := if writer.created then fs + {if withAudio then tv else out} else fs;
    if writer.raised then (written - {tw, tv}, Fail(SavingFailed))
    else if !withAudio then (written - {tw, tv}, Pass)
    else
      var withWav := if wavWrite.created then written + {tw} else written;
      if wavWrite.raised then (withWav - {tw, tv}, Fail(SavingFailed))
      else
        var merged := if merge.created then withWav + {out} else withWav;
        (merged - {tw, tv}, if merge.raised then Fail(SavingFailed) else Pass)
  }

  // ---------------------------------------------------------------------
  // __call__
  // ---------------------------------------------------------------------

  /** `Face_Track_Generator.__call__`: crop the clip's faces; with an audio
      track also cut and normalise the clip's samples; then save. A failure
      before saving touches no file. */
  function Call(g: Generator, trackId: int, start: real, end: real, out: string,
                resize: Image -> Image, gainOf: seq<real> -> real,
                fs: set<string>, writer: Effect, wavWrite: Effect, merge: Effect)
    : (r: (set<string>, Outcome<GenError>))
    requires ValidVideo(g.video)
    ensures GetFaceCrop(g, trackId, start, end, resize).Failure? ==>
              r == (fs, Fail(GetFaceCrop(g, trackId, start, end, resize).error))
    ensures g.audio.Some? && WavUtils.CropWav(g.audio.value.wav, start, end, g.audio.value.sr, gainOf).Failure? ==>
              r.0 == fs && r.1.Fail?
    ensures forall f :: f != out && f != TmpWavPath(out) && f != TmpVidPath(out) ==> (f in r.0 <==> f in fs)
    ensures r.1.Pass? <==>
      && GetFaceCrop(g, trackId, start, end, resize).Success?
      && !writer.raised
      && (g.audio.Some? ==>
            && WavUtils.CropWav(g.audio.value.wav, start, end, g.audio.value.sr, gainOf).Success?
            && !wavWrite.raised && !merge.raised)
    ensures GetFaceCrop(g, trackId, start, end, resize).Success?
            && (g.audio.None? || WavUtils.CropWav(g.audio.value.wav, start, end, g.audio.value.sr, gainOf).Success?) ==>
              TmpWavPath(out) !in r.0 && TmpVidPath(out) !in r.0
  {
    match GetFaceCrop(g, trackId, start, end, resize)
    case Failure(e) => (fs, Fail(e))
    case Success(_) =>
      if g.audio.Some? then
        match WavUtils.CropWav(g.audio.value.wav, start, end, g.audio.value.sr, gainOf)
        case Failure(e) => (fs, Fail(WavCropFailed(e)))
        case Success(_) => SaveVideo(fs, out, true, writer, wavWrite, merge)
      else
        SaveVideo(fs, out, false, writer, wavWrite, merge)
  }
}

=== FILE: wav_utils.dfy ===
/** Waveform slicing and loudness normalisation. Samples are reals; the
    loudness gain `target_rms / current_rms` is a floating-point square-root
    computation and is taken as an opaque function of the cropped samples,
    so what is modelled is that normalisation is one uniform scale. */
module WavUtils {

  import opened Wrappers
  import opened PyStr

  /** Default target loudness, in dBFS. */
  const TargetVolume: int := -16
  /** Default sample rate, in Hz. */
  const SampleRate: nat := 16000

  /** `wav * scaling_factor`. */
  function Scale(wav: seq<real>, g: real): (r: seq<real>)
    ensures |r| == |wav|
    ensures forall k :: 0 <= k < |wav| ==> r[k] == wav[k] * g
  {
    seq(|wav|, k requires 0 <= k < |wav| => wav[k] * g)
  }

  /** `normalize_volume`: every sample is multiplied by the one factor the
      gain computes from the whole buffer. */
  function NormalizeVolume(wav: seq<real>, gainOf: seq<real> -> real): (r: seq<real>)
    ensures |r| == |wav|
    ensures forall k :: 0 <= k < |wav| ==> r[k] == wav[k] * gainOf(wav)
  {
    Scale(wav, gainOf(wav))
  }

  /** Normalisation preserves the ratio between any two samples. */
  lemma NormalizeRatios(wav: seq<real>, gainOf: seq<real> -> real)
    ensures var r := NormalizeVolume(wav, gainOf);
      forall j, k :: 0 <= j < |wav| && 0 <= k < |wav| && wav[j] != 0.0 ==> r[k] * wav[j] == r[j] * wav[k]
  {
    var r := NormalizeVolume(wav, gainOf);
    var g := gainOf(wav);
    forall j, k | 0 <= j < |wav| && 0 <= k < |wav| && wav[j] != 0.0 ensures r[k] * wav[j] == r[j] * wav[k] {
      calc {
        r[k] * wav[j];
        (wav[k] * g) * wav[j];
        (wav[j] * g) * wav[k];
        r[j] * wav[k];
      }
    }
  }

  /** Two scalings compose into one, and a non-zero scale is undone by its
      inverse. */
  lemma ScaleCompose(wav: seq<real>, g: real, h: real)
    ensures Scale(Scale(wav, g), h) == Scale(wav, g * h)
    ensures g != 0.0 ==> Scale(Scale(wav, g), 1.0 / g) == wav
  {
    forall k | 0 <= k < |wav| ensures Scale(Scale(wav, g), h)[k] == Scale(wav, g * h)[k] {
      assert (wav[k] * g) * h == wav[k] * (g * h);
    }
    if g != 0.0 {
      forall k | 0 <= k < |wav| ensures Scale(Scale(wav, g), 1.0 / g)[k] == wav[k] {
        assert (wav[k] * g) * (1.0 / g) == wav[k] * (g * (1.0 / g));
        assert g * (1.0 / g) == 1.0;
      }
    }
  }

  /** `int(t * sr)`: the sample index of a time stamp. */
  function SampleIndex(t: real, sr: nat): int {
    Trunc(t * sr as real)
  }

  datatype WavError = EndBeyondWav(end: int, length: nat)

  /** `crop_wav` without a target path: the samples between the two time
      stamps, normalised; an end index past the buffer raises. */
  function CropWav(src: seq<real>, start: real, end: real, sr: nat, gainOf: seq<real> -> real)
    : (r: Result<seq<real>, WavError>)
    ensures r.Failure? <==> SampleIndex(end, sr) > |src|
    ensures r.Success? ==>
      var s := SampleIndex(start, sr);
      var e := SampleIndex(end, sr);
      var cut := Slice(src, s, e);
      && |r.value| == |cut|
      && (0 <= s <= e ==> |r.value| == e - s)
      && r.value == Scale(cut, gainOf(cut))
  {
    var s := SampleIndex(start, sr);
    var e := SampleIndex(end, sr);
    if e > |src| then Failure(EndBeyondWav(e, |src|))
    else
      var cut := Slice(src, s, e);
      Success(NormalizeVolume(cut, gainOf))
  }

  /** For time stamps inside the buffer, sample `k` of the crop is source
      sample `int(start * sr) + k` under the crop's one gain; the end index
      may equal the buffer length. */
  lemma CropWavSamples(src: seq<real>, start: real, end: real, sr: nat, gainOf: seq<real> -> real)
    requires 0 <= SampleIndex(start, sr) <= SampleIndex(end, sr) <= |src|
    ensures var r := CropWav(src, start, end, sr, gainOf);
      var s := SampleIndex(start, sr);
      var e := SampleIndex(end, sr);
      && r.Success?
      && |r.value| == e - s
      && forall k :: 0 <= k < e - s ==> r.value[k] == src[s + k] * gainOf(src[s..e])
  {
    var s := SampleIndex(start, sr);
    var e := SampleIndex(end, sr);
    var r := CropWav(src, start, end, sr, gainOf);
    var cut := Slice(src, s, e);
    assert cut == src[s..e];
    assert r.value == Scale(cut, gainOf(cut));
    ScaleSlice(src, s, e, cut, gainOf(cut));
  }

  /** Scaling a slice scales the source samples it holds. */
  lemma ScaleSlice(src: seq<real>, s: nat, e: nat, cut: seq<real>, g: real)
    requires s <= e <= |src| && cut == src[s..e]
    ensures |Scale(cut, g)| == e - s
    ensures forall k :: 0 <= k < e - s ==> Scale(cut, g)[k] == src[s + k] * g
  {
  }
}

=== FILE: wrappers.dfy ===
/** Failure-carrying result types shared by every module of the model.
    A Python exception raised by the modelled code becomes a `Failure`
    (or `Fail`) carrying an error value of the module's own error type. */
module Wrappers {

  datatype Option<+T> = None | Some(value: T)

  datatype Result<+R, +E> = Success(value: R) | Failure(error: E) {
    predicate IsFailure() {
      Failure?
    }

    function PropagateFailure<U>(): Result<U, E>
      requires Failure?
    {
      Failure(error)
    }

    function Extract(): R
      requires Success?
    {
      value
    }
  }

  /** Runs a sequence of steps that may raise, in order: the values of all
      of them, or the error of the first that fails. */
  function AllSuccess<R, E>(rs: seq<Result<R, E>>): (r: Result<seq<R>, E>)
    ensures r.Success? <==> forall k :: 0 <= k < |rs| ==> rs[k].Success?
    ensures r.Success? ==> |r.value| == |rs| && forall k :: 0 <= k < |rs| ==> rs[k] == Success(r.value[k])
    ensures r.Failure? ==> FirstFailure(rs, r.error)
  {
    if rs == [] then Success([])
    else if rs[0].Failure? then Failure(rs[0].error)
    else
      var rest := AllSuccess(rs[1..]);
      assert forall k :: 1 <= k < |rs| ==> rs[k] == rs[1..][k - 1];
      if rest.Failure? then
        FirstFailureCons(rs, rest.error);
        Failure(rest.error)
      else Success([rs[0].value] + rest.value)
  }

  /** Some step fails with `e`, and every step before it succeeds. */
  ghost predicate FirstFailure<R, E>(rs: seq<Result<R, E>>, e: E) {
    exists k :: 0 <= k < |rs| && rs[k] == Failure(e) && (forall m :: 0 <= m < k ==> rs[m].Success?)
  }

  lemma FirstFailureCons<R, E>(rs: seq<Result<R, E>>, e: E)
    requires rs != [] && rs[0].Success? && FirstFailure(rs[1..], e)
    ensures FirstFailure(rs, e)
  {
    var k :| 0 <= k < |rs| - 1 && rs[1..][k] == Failure(e) && (forall m :: 0 <= m < k ==> rs[1..][m].Success?);
    assert rs[k + 1] == Failure(e);
    forall m | 0 <= m < k + 1 ensures rs[m].Success? {
      if m > 0 {
        assert rs[m] == rs[1..][m - 1];
      }
    }
  }

  /** A result with no value: the step either passed or raised. */
  datatype Outcome<+E> = Pass | Fail(error: E)
}
